=== FILE: README.md ===
# Resume evaluator: a Dafny model of the matching core

This project models the core of the resume evaluator, a service that checks a
resume against a job description (JD) and scores the fit. The model covers
five components:

- **Resume parser:** turns a PDF or Word file into a resume record. The record
  holds the cleaned text, contact details, skills, education, experience,
  projects, certifications and the file name.
- **JD parser:** turns posting text into a JD record. The record holds the
  title, company, required and preferred skills, qualifications, experience
  requirement, responsibilities and benefits.
- **Hard matcher:** scores the two records with explicit rules. The rules are
  exact and fuzzy skill matching, education, experience and certification
  rules, and a TF-IDF similarity. The six sub-scores are fused with fixed
  weights 0.3, 0.2, 0.15, 0.15, 0.1 and 0.1.
- **Semantic matcher:** scores the two texts with sentence embeddings and a
  language model. It fuses the whole-text cosine, the per-skill sentence
  matches and the model's fit score with weights 0.3, 0.4 and 0.3. It also
  writes up to five improvement suggestions.
- **Scoring engine:** builds the final report from the two matcher results.
  It normalises its two weights, fuses and clamps the score, maps it to a
  percentage and a verdict, merges the missing elements and rates its own
  confidence.

Modules:

- `Wrappers`: `Option` and `Result`.
- `Text`: characters, Python's whitespace set, ASCII lower-casing, and the
  string methods the source uses (`strip`, `split`, `find`, `rfind`).
- `Patterns`: hand-written scanners for the regular-expression shapes the
  parsers use. They follow Python's leftmost, backtracking semantics for each
  shape: `\b(a|b)\b` word lists, lazy `.*?` chains, labelled `:\s*([^\n]+)`
  groups, section heads with tails, bullets, and numbers with units.
- `Vocabulary`: the skill word lists.
- `Documents`: the resume and JD records.
- `ResumeParser`, `JdParser`, `HardMatching`, `SemanticMatching` and
  `ScoringEngine`: one module per source class.

The matchers in `backend/src/matching` and `src/matching` are identical, so
each is modelled once.

Everything outside the program's own logic becomes a parameter:

- the PDF and DOCX readers;
- the spaCy matcher;
- `fuzz.ratio` and `process.extractOne`'s preprocessing;
- the TF-IDF cosine;
- the sentence embeddings and their cosine;
- the Gemini call;
- `json.loads`;
- the clock.

Floating-point numbers are modelled as reals. Every `try`/`except` path the
source has is modelled where it can be reached:

- the weight normalisation that divides by zero;
- a certification pattern whose `findall` yields tuples;
- the spaCy model raising on the resume text (it does, for one, on a text
  longer than its `max_length`): the matcher parameter may fail, and resume
  parsing then returns the error record with that message;
- a JSON slice that does not decode;
- a matcher result the scoring engine cannot read.

Several consequences of the code as written are proved:

- **Both cleaners produce one line.** They collapse every whitespace run,
  newlines included, into a single space. So each parser's line-by-line steps
  see exactly one line:
  - the resume's experience and project lists are always empty;
  - the resume name is the whole cleaned text or nothing;
  - the JD title fallback tests only the whole cleaned text.
- **The fifth JD title pattern never decides the title.** Whatever text it
  matches, the fourth pattern also matches, and the fourth is tried first.
- **One certification pattern makes parsing fail.** A vendor and a
  certification word on one line, in either order, make `findall` return
  tuples. Lower-casing a tuple raises, so resume parsing returns the error
  record.
- **The JD parser's error record is never produced,** because no extractor can
  raise on a string.

## Model

| member | source | states |
|---|---|---|
| ScoringEngine.NewEngine | backend/src/scoring/scoring_engine.py:14-25 | weights summing to 1 are kept as given; any other pair is rescaled to sum to 1 in the same proportion; a zero sum is the division-by-zero failure |
| ScoringEngine.Normalised | backend/src/scoring/scoring_engine.py:21-24 | dividing both weights by their non-zero sum gives weights that sum to 1 and keep the original ratio |
| ScoringEngine.DefaultEngine | backend/src/scoring/scoring_engine.py:17-18 | the default weights 0.4 and 0.6 already sum to 1 and are left unchanged |
| ScoringEngine.HardReportOf | src/matching/hard_matching.py:339-355 | the hard-matching dictionary as the engine reads it: the error record holds only a zero score; every section of a full result can be read |
| ScoringEngine.SemanticReportOf | src/matching/semantic_matching.py:275-290 | the semantic dictionary as the engine reads it: the score is always a number equal to the matcher's score; the error record has no sections |
| ScoringEngine.Clamp | backend/src/scoring/scoring_engine.py:39 | the result lies in [0,1], is 0 at or below 0, is 1 at or above 1, and equals the input inside [0,1] |
| ScoringEngine.FinalScore | backend/src/scoring/scoring_engine.py:27-45 | the final score lies in [0,1]; it is the clamped weighted sum when both scores are numbers, and 0.0 when either is not a number (the arithmetic raises) |
| ScoringEngine.AbsentScoreReadsZero | backend/src/scoring/scoring_engine.py:30-31 | a missing score key gives the same final score as a score of 0.0 |
| ScoringEngine.NoClampInRange | backend/src/scoring/scoring_engine.py:33-39 | with normalised non-negative weights and both scores in [0,1], clamping never changes the weighted sum |
| ScoringEngine.FinalScoreMonotone | backend/src/scoring/scoring_engine.py:33-39 | with non-negative weights, raising either score never lowers the clamped final score |
| ScoringEngine.DetermineVerdict | backend/src/scoring/scoring_engine.py:47-54 | High exactly from 0.8, Medium exactly on [0.6, 0.8), Low exactly below 0.6 |
| ScoringEngine.VerdictMonotone | backend/src/scoring/scoring_engine.py:47-54 | a higher score never gets a worse verdict |
| ScoringEngine.ConvertToPercentage | backend/src/scoring/scoring_engine.py:56-58 | `int(score * 100)` truncates toward zero: the floor for non-negative scores and the ceiling for negative ones; scores in [0,1] give 0..100 |
| ScoringEngine.GenerateMissingElements | backend/src/scoring/scoring_engine.py:60-98 | when all four sections can be read: the skills hold exactly the union of the exact-match misses, the missing qualifications and the model's missing skills, without duplicates, and the certifications hold exactly the missing certifications. A section that raises leaves only the lists gathered before it. Projects and experience stay empty |
| ScoringEngine.Agreement | backend/src/scoring/scoring_engine.py:176-181 | the agreement factor is 0.1 to 0.3 |
| ScoringEngine.CalculateConfidenceScore | backend/src/scoring/scoring_engine.py:166-202 | the confidence lies in [0.1, 1]; it is 0.5 when a read raises, and otherwise at least the agreement factor |
| ScoringEngine.ConfidenceFull | backend/src/scoring/scoring_engine.py:172-198 | the confidence is 1 exactly when the scores differ by less than 0.2, there is an exact match and a semantic match, and the fit score is positive |
| ScoringEngine.ConfidenceFloor | backend/src/scoring/scoring_engine.py:172-198 | the confidence is 0.1 exactly when the scores are at least 0.4 apart and no other factor holds |
| ScoringEngine.ConfidenceMonotone | backend/src/scoring/scoring_engine.py:172-198 | closer scores and more factors never lower the confidence |
| ScoringEngine.FirstNonDict | backend/src/scoring/scoring_engine.py:113-136 | no section is named exactly when every section the analysis reads is a dictionary; a non-dictionary model analysis is named first, since it is read first; a named type is that of a section that is not a dictionary |
| ScoringEngine.GenerateDetailedAnalysis | backend/src/scoring/scoring_engine.py:100-159 | the four-key error record is returned exactly when a section cannot be read, and its message is `str(e)` of the `AttributeError` naming the type of the first such section read; otherwise the report holds the final score, its percentage (0..100), its verdict, the missing elements, the score breakdown, the suggestions, the strengths, the assessment ("Not assessed" if absent), the timestamp, and as match details the exact, fuzzy, semantic, education and certification match lists and the experience analysis, each read from its section with an empty default |
| ScoringEngine.Evaluate | main.py:215-225 | hard matching, semantic matching and the detailed analysis together always give a full report with a relevance score in 0..100 |
| ScoringEngine.PipelineNeverDegrades | backend/src/scoring/scoring_engine.py:69-98 | no result the two matchers produce sends the engine down an exception path, whatever the weights and timestamp |
| ScoringEngine.Scenario | tests/test_system.py:201-236 | the system test's results (hard 0.75, semantic 0.65, default weights) give final score 0.69, percentage 69, verdict Medium and full confidence |
| HardMatching.FractionBounds | src/matching/hard_matching.py:37 | a share `n/d` with `n <= d` lies in [0,1]; it is 1 exactly when `d > 0` and `n == d`, and 0 exactly when `n == 0` (the empty list gives 0) |
| HardMatching.CappedMeanBound | src/matching/hard_matching.py:131-133 | credit of at most `c` per item, averaged over the items (or over 1 when there are none) and capped at 1, lies in [0, c], and is 0 for no items |
| HardMatching.FilterInterleaves | src/matching/hard_matching.py:28-34 | the matched and missing lists split the JD list between them, in order, each skill going to exactly one |
| HardMatching.SplitFacts | src/matching/hard_matching.py:28-37 | the two lists together are as long as the JD list; the share of matches is 1 exactly when every JD skill is present, and 0 exactly when none is |
| HardMatching.ExactKeywordMatch | src/matching/hard_matching.py:22-45 | the lower-cased JD skills are split in order: matches are exactly those in the lower-cased resume list and misses exactly those not in it; the score is the number of matches over the number of JD skills (0 for none), and is 1 or 0 exactly when all or none match |
| HardMatching.BestIndex | src/matching/hard_matching.py:57 | `extractOne` returns the first choice with the highest score |
| HardMatching.BestScore | src/matching/hard_matching.py:57-60 | the best score is attained by some choice and bounds every choice's score |
| HardMatching.Classify | src/matching/hard_matching.py:55-73 | a JD skill goes to the fuzzy bucket exactly when its best score reaches the threshold, and to the partial bucket exactly when it is in [60, threshold); an empty resume list gives neither |
| HardMatching.BucketFacts | src/matching/hard_matching.py:55-73 | a JD skill has a fuzzy entry exactly when its best score reaches the threshold, and a partial entry exactly when it is from 60 up to the threshold; every entry names its best resume skill and score |
| HardMatching.BucketedTotal | src/matching/hard_matching.py:55-75 | the fuzzy and partial entries together are at most as many as the JD skills |
| HardMatching.FuzzyKeywordMatch | src/matching/hard_matching.py:47-83 | the fuzzy and partial matches are characterised by the best score against the threshold and against 60; the fuzzy score is the number of fuzzy matches over the number of JD skills (0 for none), in [0,1] |
| HardMatching.ExactWithinFuzzy | src/matching/hard_matching.py:22-75 | when a string's similarity with itself is 100, every exact match has a fuzzy-match entry for the same JD skill, so there are at least as many fuzzy matches as exact ones |
| HardMatching.FuzzyScoreAtLeastExact | src/matching/hard_matching.py:37-75 | with such a similarity, the fuzzy score at threshold 80 is never below the exact score |
| HardMatching.MatchDegree | src/matching/hard_matching.py:103-126 | the qualification is credited by the first resume degree that either rule accepts; the level rule is tried first; no earlier degree is accepted by either rule |
| HardMatching.QualificationMatch | src/matching/hard_matching.py:103-126 | a qualification gets no match exactly when no degree passes either rule; otherwise the match names the qualification and the first degree a rule accepts, tagged DegreeLevel exactly when the level rule accepts it and Field only when the field rule does |
| HardMatching.EducationCredits | src/matching/hard_matching.py:105-126 | the summed credit of n matches lies between 0.3n and 0.5n |
| HardMatching.ScanQualifications | src/matching/hard_matching.py:99-129 | each qualification is either matched or missing; the total is the sum of the credits of the matches (0.5 per level match, 0.3 per field match), at most 0.5 per qualification |
| HardMatching.ScanQualificationsMembers | src/matching/hard_matching.py:99-129 | a qualification is missing exactly when no degree passes a rule for it; every match is the one `QualificationMatch` gives its qualification; every qualification some degree passes is matched |
| HardMatching.DegreesOf | src/matching/hard_matching.py:92-96 | the resume degrees, lower-cased, one per education entry |
| HardMatching.EducationMatchOf | src/matching/hard_matching.py:85-140 | the score is the summed credit of the matches over the number of qualifications, capped at 1, so it lies in [0, 0.5] and is 0 without qualifications; a qualification is missing exactly when no degree passes a rule for it, every match is the first accepting degree with its rule, and every qualification some degree passes is matched |
| HardMatching.EducationMatchRules | src/matching/hard_matching.py:103-129 | every match names a resume degree, a level match passes the level rule and a field match the field rule; a missing qualification passes no rule with any degree |
| HardMatching.EducationScoreZero | src/matching/hard_matching.py:112-133 | with at least one qualification the education score is 0 exactly when nothing is matched |
| HardMatching.SingleLevelMatch | src/matching/hard_matching.py:103-114 | a degree and a qualification that both name a level give one degree-level match worth the full 0.5 |
| HardMatching.EducationScenario | tests/test_system.py:139-149 | "Bachelor of Technology in Computer Science" against "Bachelor's degree in Computer Science" is a degree-level match scoring 0.5 |
| HardMatching.DurationNumber | src/matching/hard_matching.py:200-209 | the number is taken from the first of the year, month and day patterns that finds one; there is none exactly when none of the three matches, and a number implies a digit in the duration |
| HardMatching.Divisor | src/matching/hard_matching.py:210-213 | the number is divided by 12 exactly when "month" occurs anywhere in the duration; otherwise by 365 exactly when "day" occurs, and else by 1 |
| HardMatching.TitleYears | src/matching/hard_matching.py:217-224 | without a number the title gives 3 years exactly for senior, lead or principal; otherwise 1 year exactly for junior, entry or fresher; otherwise 2 |
| HardMatching.DurationYears | src/matching/hard_matching.py:197-224 | the years of a duration are its number divided by the unit's divisor, or the title's guess when no pattern matches; never negative |
| HardMatching.EntryYears | src/matching/hard_matching.py:195-224 | an entry without a duration adds nothing; one with a duration adds its duration's years |
| HardMatching.EstimateExperienceYears | src/matching/hard_matching.py:191-226 | the estimate is the whole part of the summed entry years |
| HardMatching.EstimateMonotone | src/matching/hard_matching.py:191-226 | adding an experience entry never lowers the estimate |
| HardMatching.ExperienceLevel | src/matching/hard_matching.py:176-183 | the band is one of the four level names |
| HardMatching.LevelMonotone | src/matching/hard_matching.py:176-183 | more years never give a lower band |
| HardMatching.RequirementScore | src/matching/hard_matching.py:156-173 | meeting the minimum gives 1.0 exactly when a non-zero maximum is not exceeded, else 0.9 exactly beyond minimum + 2, else 0.8; below the minimum the score is the fraction of the minimum reached |
| HardMatching.ExperienceMatch | src/matching/hard_matching.py:142-189 | the score lies in [0,1]; without a requirement it is 0 and the analysis reports only the estimate; with one, "meets minimum" holds exactly when the estimate reaches the minimum, and the level is the estimate's band |
| HardMatching.ThreeYears | src/matching/hard_matching.py:200-214 | the duration "3 years" reads as the number 3 with divisor 1 |
| HardMatching.ExperienceScenario | tests/test_system.py:140-150 | one "Software Engineer" entry of "3 years" against a minimum of 3 years meets the minimum, scores 0.8 and is mid level |
| HardMatching.CertRequirements | src/matching/hard_matching.py:238-239 | the certification requirements are exactly the JD skills that contain a certification keyword, in order |
| HardMatching.MatchCertificate | src/matching/hard_matching.py:241-262 | a requirement is credited by the first resume certificate that contains it or is contained in it, or failing that, whose similarity exceeds 70; no earlier certificate passes either test |
| HardMatching.RequirementMatch | src/matching/hard_matching.py:243-262 | a requirement gets no match exactly when no certificate overlaps it or resembles it above 70; otherwise the match names the first certificate that passes, tagged exact exactly when it overlaps and fuzzy only when the similarity exceeds 70 |
| HardMatching.CertCredits | src/matching/hard_matching.py:243-262 | the summed credit of n matches lies between 0.7n and n |
| HardMatching.ScanRequirements | src/matching/hard_matching.py:241-266 | each requirement is matched or missing; the total is the sum of the credits of the matches (1 per exact match, 0.7 per fuzzy match), at most 1 per requirement |
| HardMatching.ScanRequirementsMembers | src/matching/hard_matching.py:241-266 | a requirement is missing exactly when no certificate passes for it; every match is the one `RequirementMatch` gives its requirement; every requirement some certificate passes is matched |
| HardMatching.CertificationMatchOf | src/matching/hard_matching.py:228-276 | the requirements are the certification-flavoured JD skills; the score is the summed credit of the matches over their number, capped at 1, so it lies in [0,1] and is 0 without requirements; a requirement is missing exactly when no certificate passes, every match is the first passing certificate with its test, and every requirement some certificate passes is matched |
| HardMatching.CertificationMatchTests | src/matching/hard_matching.py:241-265 | every match names a resume certificate, an exact match overlaps it and a fuzzy match resembles it above 70; a missing requirement passes neither test with any certificate |
| HardMatching.CertificationScoreZero | src/matching/hard_matching.py:251-269 | with at least one requirement the certification score is 0 exactly when nothing is matched |
| HardMatching.TfidfSimilarity | src/matching/hard_matching.py:278-294 | the TF-IDF cosine, or 0 when the vectoriser raises |
| HardMatching.Fuse | src/matching/hard_matching.py:321-337 | sub-scores in [0,1] fuse to a score in [0,1], and all ones fuse to 1 |
| HardMatching.FuseConstant | src/matching/hard_matching.py:321-328 | the six weights sum to 1 |
| HardMatching.FuseMonotone | src/matching/hard_matching.py:330-337 | raising any sub-score never lowers the hard score |
| HardMatching.CalculateHardMatchScore | src/matching/hard_matching.py:296-348 | the hard score is the weighted fusion of the six sub-scores, each computed from the resume and JD fields named in the source, and lies in [0,1] |
| HardMatching.PreferredSkillsIgnored | src/matching/hard_matching.py:307 | the preferred skills are read but never affect the result |
| HardMatching.NoRequiredSkills | src/matching/hard_matching.py:37 | without required skills both skill scores are 0 |
| HardMatching.FourOfFive | src/matching/hard_matching.py:22-45 | five required skills of which only the third is absent give four matches, one miss and score 0.8 |
| HardMatching.ExactScenario | tests/test_system.py:130-165 | the system-test skills give matches python, django, postgresql, git, miss fastapi, score 0.8 |
| SemanticMatching.OverallSimilarity | src/matching/semantic_matching.py:46-61 | the document similarity lies in [-1,1]; it is 0 when the embeddings are empty or have fewer than two rows, and otherwise the cosine of the first two rows |
| SemanticMatching.BestSentence | src/matching/semantic_matching.py:83-88 | `np.argmax` picks the first sentence with the highest similarity to the skill |
| SemanticMatching.SkillRecord | src/matching/semantic_matching.py:90-96 | a skill is recorded exactly when its best similarity exceeds 0.3; the record carries that similarity, in (0.3, 1] |
| SemanticMatching.ScanSkills | src/matching/semantic_matching.py:82-96 | the accepted records are at most one per skill, and their total similarity is at most their number |
| SemanticMatching.ScanKeeps | src/matching/semantic_matching.py:82-96 | a skill whose best sentence clears the threshold is among the records |
| SemanticMatching.ScanSource | src/matching/semantic_matching.py:82-96 | every record is the record of some skill |
| SemanticMatching.SkillRecordedIff | src/matching/semantic_matching.py:82-96 | a skill is among the matches exactly when its best sentence clears 0.3, and then it carries that sentence and similarity |
| SemanticMatching.Sentences | src/matching/semantic_matching.py:67 | splitting at ". " gives at least one piece, and the whole text when there is no separator |
| SemanticMatching.ScoreSkills | src/matching/semantic_matching.py:76-105 | the skill score is the accepted similarity averaged over all skills, in [0,1], with total and matched counts |
| SemanticMatching.ExtractSemanticSkills | src/matching/semantic_matching.py:63-109 | empty embeddings give the empty result; too few rows give the error result, whose message is numpy's `IndexError` text for the first skill without a row (index and size both the number of skill rows); otherwise the scan's result. No skills gives score 0 |
| SemanticMatching.ErrorAnalysis | src/matching/semantic_matching.py:168-177 | the error record of the language-model call: fit 0, no lists, "Unable to assess", "Error in analysis" |
| SemanticMatching.BulletItems | src/matching/semantic_matching.py:198-199 | each bullet item is stripped and lies on one line, and there is one per bullet match of the section |
| SemanticMatching.BulletItemsFacts | src/matching/semantic_matching.py:198-199 | the items are empty exactly when no bullet character is followed by a capture; otherwise the first item is the stripped capture of the first bullet match |
| SemanticMatching.BulletItemsOrigin | src/matching/semantic_matching.py:198-199 | every item is the stripped capture of some bullet match of the section |
| SemanticMatching.SectionBetween | src/matching/semantic_matching.py:197 | the section is the longest prefix of the text after the first head that contains neither the head nor the tail: it runs to the end or stops where one of them begins |
| SemanticMatching.SplitFirst | src/matching/semantic_matching.py:197 | the first piece of `split` is a prefix free of the separator, followed by the separator or the end of the text |
| SemanticMatching.FitScore | src/matching/semantic_matching.py:190-194 | text without digits gives fit score 0 |
| SemanticMatching.ParseLlmResponse | src/matching/semantic_matching.py:179-207 | the fallback parser: the fit score is the first digit run, or 0 without digits; strengths and missing skills are empty without their keyword, and otherwise the bullet items of the lower-cased section from "strengths" to "missing" and from "missing" to "experience" |
| SemanticMatching.OneBulletItem | src/matching/semantic_matching.py:198-199 | a section holding one line "- c" and line breaks yields exactly the item "c" |
| SemanticMatching.ListsScenario | src/matching/semantic_matching.py:196-205 | "strengths", a bullet "a", "missing", a bullet "b" give strengths ["a"] and missing skills ["b"]: the strengths section stops at "missing" |
| SemanticMatching.FitScoreIsFirstNumber | src/matching/semantic_matching.py:190-194 | the fit score is the value of the leftmost digit run |
| SemanticMatching.FitScoreNotClamped | src/matching/semantic_matching.py:190-194 | a bare "150" gives fit score 150: nothing caps it at 100 |
| SemanticMatching.ReadResponse | src/matching/semantic_matching.py:150-166 | the slice runs from the first `{` to just after the last `}`; the fallback parser runs when there is no `{` or the slice does not decode; a decoded object whose fields cannot be used gives an unusable analysis |
| SemanticMatching.UnclosedBraceFallsBack | src/matching/semantic_matching.py:155-165 | a `{` with no `}` gives the empty slice, which never decodes, so the fallback parser runs |
| SemanticMatching.LlmSemanticAnalysis | src/matching/semantic_matching.py:111-177 | a failed call gives the error record; otherwise the response is read as above |
| SemanticMatching.PromptSeesPrefixes | src/matching/semantic_matching.py:116-122 | only the first 2000 characters of each text reach the model |
| SemanticMatching.CertificationSkills | src/matching/semantic_matching.py:231-233 | exactly the required skills whose lower-cased text contains a certification keyword, in order |
| SemanticMatching.Pick | src/matching/semantic_matching.py:212-236 | the conditional items appear in their fixed order, each exactly when its condition holds |
| SemanticMatching.Conditional | src/matching/semantic_matching.py:212-236 | at most four items, in order, each one of the four conditional suggestions |
| SemanticMatching.ConditionalMembers | src/matching/semantic_matching.py:212-236 | each conditional item is present exactly when its condition holds |
| SemanticMatching.KeepFive | src/matching/semantic_matching.py:238-245 | adding the generic items and keeping five never drops a conditional item and always keeps the tailoring advice |
| SemanticMatching.KeepFiveOnlyConditional | src/matching/semantic_matching.py:238-245 | every kept item below rank 4 came from the conditional items |
| SemanticMatching.Suggestions | src/matching/semantic_matching.py:209-245 | 3 to 5 suggestions: all conditional items in order, then generic ones up to five, always including the tailoring advice |
| SemanticMatching.SkillsTriggered | src/matching/semantic_matching.py:214-216 | the learn-skills item is present exactly when the model reported missing skills |
| SemanticMatching.ExperienceTriggered | src/matching/semantic_matching.py:221-223 | the experience item is present exactly when the JD asks for a positive minimum of years |
| SemanticMatching.ProjectsTriggered | src/matching/semantic_matching.py:226-228 | the projects item is present exactly when the resume lists fewer than two projects |
| SemanticMatching.CertificationTriggered | src/matching/semantic_matching.py:231-236 | the certification item is present exactly when some required skill names a certification |
| SemanticMatching.KeptIffConditional | src/matching/semantic_matching.py:212-245 | an item below rank 4 is kept exactly when it is among the conditional items |
| SemanticMatching.KeptConditional | src/matching/semantic_matching.py:212-245 | a kept item below rank 4 is one of the four conditional suggestions |
| SemanticMatching.SkillSuggestionContents | src/matching/semantic_matching.py:215-216 | the learn-skills item names the first three missing skills, at most three |
| SemanticMatching.CertificationSuggestionContents | src/matching/semantic_matching.py:235-236 | the certification item names the first two certification skills, at most two |
| SemanticMatching.GenerateImprovementSuggestions | src/matching/semantic_matching.py:209-245 | the i-th line is the rendering of the i-th suggestion, so the lines keep the suggestions' order (conditional items, then the generic ones); 3 to 5 lines |
| SemanticMatching.SuggestionsDependOnlyOn | src/matching/semantic_matching.py:209-245 | the suggestions read only the missing skills, the minimum years, the number of projects and the required skills |
| SemanticMatching.SemanticScore | src/matching/semantic_matching.py:263-273 | zero inputs give 0; inputs in range give a score in [0,1] |
| SemanticMatching.SemanticScoreMonotone | src/matching/semantic_matching.py:269-273 | raising any input never lowers the semantic score |
| SemanticMatching.CalculateSemanticMatchScore | src/matching/semantic_matching.py:247-290 | the error record (score 0) exactly when the model's answer is unusable; otherwise the sub-results, the suggestions, the weights entry (0.3, 0.4, 0.3), and a score that is the sum of each part times its entry in those weights |
| SemanticMatching.SemanticScoreRange | src/matching/semantic_matching.py:269-273 | with a fit score in 0..100 the semantic score lies in [-0.3, 1], because only the document cosine can be negative |
| JdParser.CleanText | src/parsers/jd_parser.py:20-38 | the cleaned JD text is stripped, contains no newline, and every whitespace character left in it is a plain space |
| JdParser.HiringGroupEnd | src/parsers/jd_parser.py:45 | the lazy group ends at the first point where `\s+to`, a newline or the end of the text follows |
| JdParser.HiringAt | src/parsers/jd_parser.py:45 | the hiring pattern's group is non-empty and on one line |
| JdParser.CapitalLineAt | src/parsers/jd_parser.py:46 | the line pattern's group is one line of 6 to 51 characters |
| JdParser.TitleHit | src/parsers/jd_parser.py:43-56 | the hit comes from one of the five title patterns, the first that has one |
| JdParser.RankedTitleNeverChosen | src/parsers/jd_parser.py:47-48 | the fifth title pattern never supplies the title, because the fourth matches whenever it does and is tried first |
| JdParser.FallbackTitle | src/parsers/jd_parser.py:57-63 | the fallback is the first stripped line naming a role, and there is none exactly when no stripped line names one |
| JdParser.ChooseTitle | src/parsers/jd_parser.py:52-65 | the title is the stripped pattern hit; failing that, a line naming a role; failing that, "Software Engineer" |
| JdParser.ExtractJobTitle | src/parsers/jd_parser.py:40-65 | the title is stripped; it is the stripped hit of the first title pattern that matches; failing that, the first of the first five lines that names a role; failing that, "Software Engineer" |
| JdParser.SingleLineTitleFallback | src/parsers/jd_parser.py:57-65 | on one line of text, the fallback title is the stripped text when it names a role, and the default otherwise |
| JdParser.JoinAt | src/parsers/jd_parser.py:78 | the join pattern's group starts with a letter and lies on one line |
| JdParser.LastVerbBefore | src/parsers/jd_parser.py:79 | greedy backtracking stops at the last position followed by one of the verbs |
| JdParser.LeadingNameAt | src/parsers/jd_parser.py:79 | the leading-name group is 3 to 31 characters on one line, starting with a letter |
| JdParser.CompanyNameHit | src/parsers/jd_parser.py:76-86 | the first company pattern with a hit supplies a one-line group |
| JdParser.PlaceWordHit | src/parsers/jd_parser.py:91-92 | a city mention comes first; failing that, a work mode |
| JdParser.LocationHit | src/parsers/jd_parser.py:89-99 | the first location pattern with a hit supplies a one-line group; without a label it is a city or work-mode word |
| JdParser.CompanyName | src/parsers/jd_parser.py:82-86 | the name is the stripped first hit of the first name pattern that has one, and empty without a hit; it is on one line, and non-empty when only the unlabelled patterns hit |
| JdParser.CompanyLocation | src/parsers/jd_parser.py:95-99 | the location is the stripped first hit of the first location pattern that has one, and empty without a hit; it is on one line, and a place word when no label matched |
| JdParser.ExtractCompanyInfo | src/parsers/jd_parser.py:67-101 | the industry is never filled in; name and location are the stripped first hits of their pattern cascades |
| JdParser.LabelledCompany | src/parsers/jd_parser.py:74-86 | "Company: Acme" gives the company name "Acme" from the labelled pattern |
| JdParser.NoHeadingNoTexts | src/parsers/jd_parser.py:109-117 | with no section head in the text, no section text is found |
| JdParser.HitsInEach | src/parsers/jd_parser.py:148-172 | every hit is a lower-case vocabulary word |
| JdParser.ExtractRequiredSkills | src/parsers/jd_parser.py:103-126 | distinct lower-case vocabulary words: exactly the vocabulary hits inside the required-skills sections together with those of the whole text |
| JdParser.RequiredWithoutHeading | src/parsers/jd_parser.py:107-126 | without a required-skills heading the required skills are exactly the vocabulary words of the whole text |
| JdParser.ExtractPreferredSkills | src/parsers/jd_parser.py:128-146 | distinct lower-case vocabulary words |
| JdParser.PreferredNeedsHeading | src/parsers/jd_parser.py:133-146 | without a preferred-skills heading there are no preferred skills |
| JdParser.LongerThan | src/parsers/jd_parser.py:258 | exactly the pieces longer than the minimum are kept |
| JdParser.LongPieces | src/parsers/jd_parser.py:255-259 | every kept piece is stripped, longer than the minimum and free of separators; every piece long enough after stripping is kept |
| JdParser.Points | src/parsers/jd_parser.py:253-259 | every point is stripped, long enough and free of separators |
| JdParser.ExtractResponsibilities | src/parsers/jd_parser.py:240-261 | every responsibility is stripped, longer than 10 characters and free of separators |
| JdParser.ExtractBenefits | src/parsers/jd_parser.py:263-285 | every benefit is stripped, longer than 5 characters and free of separators |
| JdParser.ResponsibilitiesNeedHeading | src/parsers/jd_parser.py:245-253 | without a responsibilities heading there are no responsibilities |
| JdParser.BenefitsNeedHeading | src/parsers/jd_parser.py:268-277 | without a benefits heading or salary phrase there are no benefits |
| JdParser.LevelOf | src/parsers/jd_parser.py:211-215 | the level is the matched text of the first level pattern that occurs, and empty exactly when none occurs |
| JdParser.AtLeastYearsAt | src/parsers/jd_parser.py:220 | the "minimum/at least N years" match spans a digit run followed by a unit |
| JdParser.YearsOf | src/parsers/jd_parser.py:218-236 | the years come from the first hit of the first pattern that has one, tried in order: a range gives both bounds; "minimum/at least N years", "N+ years" and "N years of experience" give only the minimum; no hit gives (0, none), as does a text without digits |
| JdParser.PlusYears | src/parsers/jd_parser.py:219-235 | "3+ years" is not a range, since no second number follows the sign, and gives a minimum of 3 with no maximum |
| JdParser.ExtractExperienceRequirements | src/parsers/jd_parser.py:194-238 | the minimum and maximum years are those of `YearsOf` on the lower-cased text; the level is the matched text of the first level pattern that occurs, empty when none does; no description |
| JdParser.RangeBeatsEarlierPlus | src/parsers/jd_parser.py:218-236 | in "3+ years experience" followed by "3-5 years", the range pattern is tried first over the whole text, so the years are 3 to 5 |
| JdParser.ExperiencePhraseAt | src/parsers/jd_parser.py:183 | the group of the "years of experience" pattern starts with a digit |
| JdParser.AtLeastExperienceAt | src/parsers/jd_parser.py:184 | the group of the "at least N years of experience" pattern starts with a digit |
| JdParser.ExtractQualifications | src/parsers/jd_parser.py:174-192 | every qualification is led by a degree key or by a digit |
| JdParser.QualificationsOrder | src/parsers/jd_parser.py:179-190 | the degree phrases come first, then the year phrases |
| JdParser.DegreePhrases | src/parsers/jd_parser.py:180-182 | every degree phrase is non-empty and led by a key of its pattern |
| JdParser.YearPhrases | src/parsers/jd_parser.py:183-184 | every year phrase starts with a digit |
| JdParser.ParseJobDescription | src/parsers/jd_parser.py:287-330 | the record keeps the raw text, has no error, and holds the cleaned text and each extractor's result on the cleaned text: title, company, required and preferred skills, qualifications, experience requirement, responsibilities and benefits |
| JdParser.ParsedRecordShape | src/parsers/jd_parser.py:287-316 | the record's cleaned text is one line, and its company and experience records are present, with no industry and no description |
| JdParser.ParsedTitleFallback | src/parsers/jd_parser.py:57-65 | without a title-pattern hit, the parsed title is the cleaned text when it names a role, and "Software Engineer" otherwise |
| ResumeParser.AfterLast | src/parsers/resume_parser.py:98 | `split(c)[-1]` is the longest suffix without `c` |
| ResumeParser.Extension | src/parsers/resume_parser.py:98 | the extension holds no dot |
| ResumeParser.ExtractText | src/parsers/resume_parser.py:96-106 | ".pdf" goes to the PDF reader, ".docx" and ".doc" to the Word reader, and anything else gives "" |
| ResumeParser.FileName | src/parsers/resume_parser.py:308 | the name after the last '/' (the character before it is that '/'), or failing that after the last '\'; the whole path when it has neither |
| ResumeParser.PageFooterAt | src/parsers/resume_parser.py:116 | a page-footer match starts with "page " |
| ResumeParser.RemovePageFooters | src/parsers/resume_parser.py:116-125 | removing footers never lengthens the text or adds characters |
| ResumeParser.NoFooterUnchanged | src/parsers/resume_parser.py:116-125 | text without "page " is unchanged |
| ResumeParser.CleanText | src/parsers/resume_parser.py:108-127 | the cleaned resume text is stripped, contains no newline, and every whitespace character left in it is a plain space |
| ResumeParser.LastLabelled | src/parsers/resume_parser.py:143-148 | later e-mail and phone matches overwrite earlier ones: the last match with the label wins |
| ResumeParser.LabelledText | src/parsers/resume_parser.py:143-148 | "" without a match, otherwise the text of the last match with the label |
| ResumeParser.NameLine | src/parsers/resume_parser.py:151-159 | the name is the first stripped line that looks like a name, and there is none exactly when no line does |
| ResumeParser.ExtractContactInfo | src/parsers/resume_parser.py:129-161 | without a model all three fields are empty; when running the model on the text raises, that exception; otherwise e-mail and phone are the last matches, and the name is the first of the first five lines that looks like a name, stripped, or "" when none does |
| ResumeParser.SingleLineName | src/parsers/resume_parser.py:151-159 | on one line of text, with a model that does not raise, the name is that line, stripped, when it looks like a name, and "" otherwise |
| ResumeParser.ExtractSkills | src/parsers/resume_parser.py:163-184 | exactly the distinct vocabulary hits, lower-case and without duplicates |
| ResumeParser.EducationMatchesStripped | src/parsers/resume_parser.py:192-200 | every education match ends with a four-digit year and has nothing for `strip()` to remove |
| ResumeParser.EducationEntries | src/parsers/resume_parser.py:199-204 | one entry per match, with the match as the degree and empty institution and year |
| ResumeParser.ExtractEducation | src/parsers/resume_parser.py:186-206 | one entry per match of the three patterns, pattern by pattern, with the match as the degree and empty institution and year |
| ResumeParser.EducationEntryShape | src/parsers/resume_parser.py:192-194 | every degree text begins with a degree or institution word and ends with a four-digit year |
| ResumeParser.Window | src/parsers/resume_parser.py:225 | the lines searched after a key line are the following lines, fewer than the window size |
| ResumeParser.WindowTitle | src/parsers/resume_parser.py:225-234 | the title found after a key line is a stripped line that fits the rule; the last line has none |
| ResumeParser.WindowTitleIsFirst | src/parsers/resume_parser.py:225-234 | the title is the first window line that fits, and there is none exactly when no window line fits |
| ResumeParser.KeyLineTitles | src/parsers/resume_parser.py:220-234 | at most one title per key line, each fitting the rule; no key line or a single line gives none |
| ResumeParser.ExtractExperience | src/parsers/resume_parser.py:208-236 | stripped titles of 6 to 99 characters, with empty other fields, at most one per line; a one-line text gives none |
| ResumeParser.ExtractProjects | src/parsers/resume_parser.py:238-261 | stripped names longer than 10 characters, at most one per line; a one-line text gives none |
| ResumeParser.SecondAhead | src/parsers/resume_parser.py:269-270 | the lazy gap finds a second word exactly when one ends the match before the line ends |
| ResumeParser.HasPairMatch | src/parsers/resume_parser.py:269-270 | the two-word pattern finds a match exactly when it matches at some position |
| ResumeParser.ExtractCertifications | src/parsers/resume_parser.py:263-278 | lower-casing raises exactly when a vendor and a certification word share a line in either order; otherwise exactly the distinct acronym hits |
| ResumeParser.ErrorRecord | src/parsers/resume_parser.py:313-324 | the error record has empty text, collections and file name, and carries the message |
| ResumeParser.ParseResume | src/parsers/resume_parser.py:280-324 | the error record exactly when no text was read, the model raises on the cleaned text, or the certification step raises, with the message of the first of these; otherwise the raw and cleaned text, the file name, and each extractor's result on the cleaned text: contact record, skills, education, experience, projects and certifications |
| ResumeParser.UnsupportedFileRejected | src/parsers/resume_parser.py:100-106 | a file that is not pdf, docx or doc gives the error record |
| ResumeParser.ParsedName | src/parsers/resume_parser.py:151-159 | with a model loaded, the name is the whole cleaned text when it looks like a name, and "" otherwise |
| Patterns.FindWords | src/parsers/resume_parser.py:179-181 | `findall` of a `\b(...)\b` word list yields only words of the list |
| Patterns.FindLazy | src/parsers/resume_parser.py:197-199 | every match starts with a key of the pattern and, when the pattern ends with years, ends with four digits |
| Patterns.FindEachLazy | src/parsers/resume_parser.py:197-199 | the matches of several patterns, pattern by pattern, each led by a key of its pattern |
| Patterns.SearchLabel | src/parsers/jd_parser.py:77 | the labelled group is the leftmost match of a label and a colon |
| Patterns.FirstNumber | src/matching/semantic_matching.py:191 | the value of the leftmost digit run |
| Patterns.FindBullets | src/matching/semantic_matching.py:198 | `findall` of a bullet character, spaces and a rest of line yields non-empty one-line captures |
| Patterns.BulletsEmpty | src/matching/semantic_matching.py:198 | `findall` yields nothing exactly when no position holds a bullet match |
| Patterns.BulletsSkip | src/matching/semantic_matching.py:198 | the first capture is that of the leftmost bullet match, and the scan resumes after its end |
| Patterns.BulletsOrigin | src/matching/semantic_matching.py:198 | every capture is that of a bullet match at some position of the scan |
| Patterns.SearchNumberUnit | src/matching/hard_matching.py:200-207 | the number of the leftmost match of a number followed by a unit |
| Vocabulary.DistinctSkills | src/parsers/resume_parser.py:184 | exactly the distinct hits, without duplicates |
| Text.Strip | src/parsers/jd_parser.py:38 | `strip()` gives a stripped text no longer than the input, leaves stripped text unchanged, and is empty exactly for all-whitespace text |
| Text.OneLineSplit | src/parsers/resume_parser.py:151 | splitting text without a newline at "\n" gives the text itself |

## Left out

- The PDF and DOCX readers, spaCy, `fuzz.ratio`, `extractOne`'s preprocessing,
  the TF-IDF vectoriser, the sentence embeddings and their cosine, the Gemini
  call and `json.loads` are parameters. Only their ranges are assumed: ratios
  0..100, cosines in [-1,1], TF-IDF in [0,1].
- `os.getenv` and the `.env` file: the two weights are parameters of
  `NewEngine`. A weight that is not a number, which makes `float` raise, is
  not modelled.
- The clock: `_get_timestamp` is a parameter of `GenerateDetailedAnalysis`.
- Logging, and the text of exception messages that no record keeps.
- `generate_evaluation_summary`: it formats text for display and is not part
  of the scoring.
- `generate_embeddings`' model loading: a model that failed to load is the
  embedding parameter returning no rows.
- The database, the API, the dashboards and the clean-up scripts.
- Floating point: scores are reals, with no rounding.
- Unicode case folding: lower-casing, `\w` and `\d` are ASCII only.
- `list(set(...))` order: it depends on string hashing in Python. The model
  keeps the first occurrence, and contracts claim only membership and the
  absence of duplicates.
- Dictionaries of other shapes: every value the matchers and the engine read
  is modelled with the types the producing code gives it. The engine alone
  also models absent keys and values that are not numbers or dictionaries.
- The JD parser's `except` branch: no extractor raises on a string, so
  `ParseJobDescription` never produces the error record.
- ExtractQualifications: states only that each item is led by a degree key or
  a digit, and does not characterise exactly which phrases are found.
- ExtractCertifications: the acronym pattern runs on the lower-cased text,
  which equals the case-insensitive search followed by `lower()` under ASCII
  case folding.
- ExtractPreferredSkills: states that the items are distinct vocabulary words,
  but not which sections they come from.
- ExtractResponsibilities: states the shape of each item, but not which
  section text it came from.
- ExtractBenefits: states the shape of each item, but not which section text
  it came from.
- Evaluate: `main.py` is cited for the composition only; its HTTP handling,
  uploads and persistence are not modelled.

=== FILE: documents.dfy ===
/** The parsed documents that flow from the parsers into the matchers, and the
    value ranges of the external scoring services.  A Python dictionary with a
    fixed set of keys becomes a datatype; a key whose absence the code tests for
    becomes an `Option`. */
module Documents {
  import opened Wrappers

  // ---------------------------------------------------------------------------
  // Ranges of the external services

  /** A `fuzz.ratio` similarity. */
  type Ratio = r: int | 0 <= r <= 100

  /** A similarity in the unit interval (TF-IDF cosine of non-negative vectors). */
  type Unit = r: real | 0.0 <= r <= 1.0

  /** A cosine similarity of two embeddings. */
  type Cosine = r: real | -1.0 <= r <= 1.0

  // ---------------------------------------------------------------------------
  // Resume

  datatype ContactInfo = ContactInfo(email: string, phone: string, name: string)

  datatype EducationEntry = EducationEntry(degree: string, institution: string, year: string)

  /** `duration` is `None` when the entry has no "duration" key; `title` holds ""
      when the key is absent, as `exp.get('title', '')` reads it. */
  datatype ExperienceEntry = ExperienceEntry(title: string, company: string, duration: Option<string>, description: string)

  datatype ProjectEntry = ProjectEntry(name: string, description: string, technologies: string, url: string)

  /** `contactInfo` is `None` for the empty dictionary of the error record. */
  datatype Resume = Resume(
    rawText: string,
    cleanedText: string,
    contactInfo: Option<ContactInfo>,
    skills: seq<string>,
    education: seq<EducationEntry>,
    experience: seq<ExperienceEntry>,
    projects: seq<ProjectEntry>,
    certifications: seq<string>,
    filename: string,
    error: Option<string>)

  // ---------------------------------------------------------------------------
  // Job description

  datatype CompanyInfo = CompanyInfo(name: string, location: string, industry: string)

  datatype ExperienceRequirement = ExperienceRequirement(minYears: nat, maxYears: Option<nat>, level: string, description: string)

  /** `companyInfo` and `experienceRequirements` are `None` for the empty
      dictionaries of the error record. */
  datatype JobDescription = JobDescription(
    rawText: string,
    cleanedText: string,
    jobTitle: string,
    companyInfo: Option<CompanyInfo>,
    requiredSkills: seq<string>,
    preferredSkills: seq<string>,
    qualifications: seq<string>,
    experienceRequirements: Option<ExperienceRequirement>,
    responsibilities: seq<string>,
    benefits: seq<string>,
    error: Option<string>)
}

=== FILE: hard_matching.dfy ===
/** Rule-based matching of a parsed resume against a parsed job description:
    exact and fuzzy skill matching, education, experience and certification
    credit, a TF-IDF similarity, and their weighted fusion into one hard-match
    score. */
module HardMatching {
  import opened Wrappers
  import opened Text
  import opened Patterns
  import opened Documents

  /** The similarity services the matcher calls. */
  datatype Oracles = Oracles(
    /** `fuzz.ratio`. */
    ratio: (string, string) -> Ratio,
    /** The processor `process.extractOne` applies to the query and to every choice. */
    prep: string -> string,
    /** TF-IDF vectors fitted on both texts and their cosine, or the exception raised. */
    tfidf: (string, string) -> Result<Unit>)

  /** `n / d`, or 0 when there is nothing to divide by (`... if xs else 0`). */
  function Fraction(n: nat, d: nat): real {
    if d == 0 then 0.0 else n as real / d as real
  }

  lemma FractionBounds(n: nat, d: nat)
    requires n <= d
    ensures 0.0 <= Fraction(n, d) <= 1.0
    ensures Fraction(n, d) == 1.0 <==> d > 0 && n == d
    ensures Fraction(n, d) == 0.0 <==> n == 0
  {
    if d > 0 {
      assert Fraction(n, d) * d as real == n as real;
    }
  }

  lemma FractionMonotone(m: nat, n: nat, d: nat)
    requires m <= n
    ensures Fraction(m, d) <= Fraction(n, d)
  {
  }

  function Min(a: real, b: real): real {
    if a <= b then a else b
  }

  /** `min(total / (count if count else 1), 1.0)`. */
  function CappedMean(total: real, count: nat): real {
    var denom := if count == 0 then 1 else count;
    Min(total / denom as real, 1.0)
  }

  /** Per-item credit of at most `c` averages to at most `c`. */
  lemma CappedMeanBound(total: real, count: nat, c: real)
    requires 0.0 <= c && 0.0 <= total <= c * count as real
    ensures 0.0 <= CappedMean(total, count) <= c
    ensures count == 0 ==> CappedMean(total, count) == 0.0
  {
    if count > 0 {
      assert total / count as real <= c;
    }
  }

  // ---------------------------------------------------------------------------
  // Exact keyword match

  /** The elements of `xs` that are in `pool` (`keep`) or not in it (`!keep`), in order. */
  function Filter(xs: seq<string>, pool: seq<string>, keep: bool): (r: seq<string>)
    ensures forall x :: x in r <==> x in xs && ((x in pool) == keep)
    ensures |r| <= |xs|
  {
    if |xs| == 0 then []
    else (if (xs[0] in pool) == keep then [xs[0]] else []) + Filter(xs[1..], pool, keep)
  }

  /** `a` and `b` interleave to `xs`: every element of `xs` goes, in order, to
      exactly one of the two. */
  predicate Interleaves(xs: seq<string>, a: seq<string>, b: seq<string>)
    decreases |xs|
  {
    if |xs| == 0 then a == [] && b == []
    else
      || (|a| > 0 && a[0] == xs[0] && Interleaves(xs[1..], a[1..], b))
      || (|b| > 0 && b[0] == xs[0] && Interleaves(xs[1..], a, b[1..]))
  }

  lemma {:induction false} InterleavesLength(xs: seq<string>, a: seq<string>, b: seq<string>)
    requires Interleaves(xs, a, b)
    ensures |a| + |b| == |xs|
    decreases |xs|
  {
    if |xs| > 0 {
      if |a| > 0 && a[0] == xs[0] && Interleaves(xs[1..], a[1..], b) {
        InterleavesLength(xs[1..], a[1..], b);
      } else {
        InterleavesLength(xs[1..], a, b[1..]);
      }
    }
  }

  lemma {:induction false} FilterInterleaves(xs: seq<string>, pool: seq<string>)
    ensures Interleaves(xs, Filter(xs, pool, true), Filter(xs, pool, false))
    decreases |xs|
  {
    if |xs| > 0 {
      FilterInterleaves(xs[1..], pool);
      var a, b := Filter(xs, pool, true), Filter(xs, pool, false);
      if xs[0] in pool {
        assert a[1..] == Filter(xs[1..], pool, true);
        assert b == Filter(xs[1..], pool, false);
      } else {
        assert a == Filter(xs[1..], pool, true);
        assert b[1..] == Filter(xs[1..], pool, false);
      }
    }
  }

  /** The split of `jd` by membership in `rs`: the two parts interleave to
      `jd`, and the share of members is 1 exactly when all are members and 0
      exactly when none is. */
  lemma {:induction false} SplitFacts(jd: seq<string>, rs: seq<string>)
    ensures Interleaves(jd, Filter(jd, rs, true), Filter(jd, rs, false))
    ensures |Filter(jd, rs, true)| + |Filter(jd, rs, false)| == |jd|
    ensures 0.0 <= Fraction(|Filter(jd, rs, true)|, |jd|) <= 1.0
    ensures Fraction(|Filter(jd, rs, true)|, |jd|) == 1.0 <==> |jd| > 0 && forall x :: x in jd ==> x in rs
    ensures Fraction(|Filter(jd, rs, true)|, |jd|) == 0.0 <==> forall x :: x in jd ==> x !in rs
  {
    var exact, missing := Filter(jd, rs, true), Filter(jd, rs, false);
    FilterInterleaves(jd, rs);
    InterleavesLength(jd, exact, missing);
    FractionBounds(|exact|, |jd|);
    assert (forall x :: x in jd ==> x in rs) ==> missing == [] by {
      if |missing| > 0 {
        assert missing[0] in missing;
      }
    }
    assert (forall x :: x in jd ==> x !in rs) ==> exact == [] by {
      if |exact| > 0 {
        assert exact[0] in exact;
      }
    }
  }

  datatype ExactMatchResult = ExactMatchResult(
    exactMatches: seq<string>,
    missingSkills: seq<string>,
    exactMatchScore: real,
    totalRequiredSkills: nat,
    matchedSkillsCount: nat)

  /** `exact_keyword_match`: the lower-cased JD skills split into those the
      lower-cased resume list contains and those it does not. */
  function ExactKeywordMatch(resumeSkills: seq<string>, jdSkills: seq<string>): (r: ExactMatchResult)
    ensures Interleaves(LowerAll(jdSkills), r.exactMatches, r.missingSkills)
    ensures forall x :: x in r.exactMatches <==> x in LowerAll(jdSkills) && x in LowerAll(resumeSkills)
    ensures forall x :: x in r.missingSkills <==> x in LowerAll(jdSkills) && x !in LowerAll(resumeSkills)
    ensures r.totalRequiredSkills == |jdSkills| && r.matchedSkillsCount == |r.exactMatches|
    ensures r.exactMatchScore == Fraction(r.matchedSkillsCount, r.totalRequiredSkills)
    ensures 0.0 <= r.exactMatchScore <= 1.0
    ensures r.exactMatchScore == 1.0 <==>
      |jdSkills| > 0 && forall x :: x in LowerAll(jdSkills) ==> x in LowerAll(resumeSkills)
    ensures r.exactMatchScore == 0.0 <==> forall x :: x in LowerAll(jdSkills) ==> x !in LowerAll(resumeSkills)
  {
    var rs := LowerAll(resumeSkills);
    var jd := LowerAll(jdSkills);
    SplitFacts(jd, rs);
    ExactMatchResult(Filter(jd, rs, true), Filter(jd, rs, false), Fraction(|Filter(jd, rs, true)|, |jd|), |jd|, |Filter(jd, rs, true)|)
  }

  // ---------------------------------------------------------------------------
  // Fuzzy keyword match

  /** The score `process.extractOne` gives choice `c` for query `q`. */
  function Score(o: Oracles, q: string, c: string): Ratio {
    o.ratio(o.prep(q), o.prep(c))
  }

  /** The index of the choice `process.extractOne` returns: the first one with
      the highest score. */
  function BestIndex(o: Oracles, q: string, choices: seq<string>): (k: nat)
    requires |choices| > 0
    ensures k < |choices|
    ensures forall j :: 0 <= j < |choices| ==> Score(o, q, choices[j]) <= Score(o, q, choices[k])
    ensures forall j :: 0 <= j < k ==> Score(o, q, choices[j]) < Score(o, q, choices[k])
  {
    if |choices| == 1 then 0
    else
      var n := |choices| - 1;
      var k := BestIndex(o, q, choices[..n]);
      assert forall j :: 0 <= j < n ==> choices[..n][j] == choices[j];
      if Score(o, q, choices[n]) > Score(o, q, choices[k]) then n else k
  }

  /** The best score of `q` against a non-empty choice list. */
  function BestScore(o: Oracles, q: string, choices: seq<string>): (r: Ratio)
    requires |choices| > 0
    ensures forall c :: c in choices ==> Score(o, q, c) <= r
    ensures exists c :: c in choices && Score(o, q, c) == r
  {
    var k := BestIndex(o, q, choices);
    Score(o, q, choices[k])
  }

  datatype FuzzyMatch = FuzzyMatch(jdSkill: string, resumeSkill: string, similarityScore: Ratio)

  /** Which list a JD skill goes to. */
  datatype Bucket = FuzzyBucket | PartialBucket

  /** The bucket and entry for one JD skill, if its best score reaches 60. */
  function Classify(o: Oracles, js: string, rs: seq<string>, threshold: int): (r: Option<(Bucket, FuzzyMatch)>)
    ensures r.Some? ==> |rs| > 0 && r.value.1.jdSkill == js && r.value.1.resumeSkill in rs
    ensures r.Some? ==> r.value.1.similarityScore == BestScore(o, js, rs)
    ensures r.Some? && r.value.0 == FuzzyBucket <==> |rs| > 0 && BestScore(o, js, rs) >= threshold
    ensures r.Some? && r.value.0 == PartialBucket <==> |rs| > 0 && 60 <= BestScore(o, js, rs) < threshold
  {
    if |rs| == 0 then None
    else
      var k := BestIndex(o, js, rs);
      var score := Score(o, js, rs[k]);
      var m := FuzzyMatch(js, rs[k], score);
      if score >= threshold then Some((FuzzyBucket, m))
      else if score >= 60 then Some((PartialBucket, m))
      else None
  }

  /** The JD skill `js` goes to bucket `b`. */
  predicate InBucket(o: Oracles, js: string, rs: seq<string>, threshold: int, b: Bucket) {
    Classify(o, js, rs, threshold).Some? && Classify(o, js, rs, threshold).value.0 == b
  }

  /** The entries of the JD skills that land in bucket `b`, in JD order. */
  function Bucketed(o: Oracles, jd: seq<string>, rs: seq<string>, threshold: int, b: Bucket): (r: seq<FuzzyMatch>)
    ensures |r| <= |jd|
    ensures |rs| == 0 ==> r == []
    ensures forall m :: m in r ==>
      m.jdSkill in jd && InBucket(o, m.jdSkill, rs, threshold, b) && Classify(o, m.jdSkill, rs, threshold).value.1 == m
    ensures forall js :: js in jd && InBucket(o, js, rs, threshold, b) ==> Classify(o, js, rs, threshold).value.1 in r
  {
    if |jd| == 0 then []
    else
      var c := Classify(o, jd[0], rs, threshold);
      var rest := Bucketed(o, jd[1..], rs, threshold, b);
      assert forall js :: js in jd ==> js == jd[0] || js in jd[1..];
      if c.Some? && c.value.0 == b then [c.value.1] + rest else rest
  }

  /** A JD skill has an entry in bucket `b` exactly when it goes there. */
  lemma BucketedSkills(o: Oracles, jd: seq<string>, rs: seq<string>, threshold: int, b: Bucket)
    ensures forall x :: (exists m :: m in Bucketed(o, jd, rs, threshold, b) && m.jdSkill == x) <==>
      x in jd && InBucket(o, x, rs, threshold, b)
  {
    forall x | x in jd && InBucket(o, x, rs, threshold, b)
      ensures exists m :: m in Bucketed(o, jd, rs, threshold, b) && m.jdSkill == x
    {
      var m := Classify(o, x, rs, threshold).value.1;
      assert m in Bucketed(o, jd, rs, threshold, b) && m.jdSkill == x;
    }
  }

  lemma {:induction false} BucketedTotal(o: Oracles, jd: seq<string>, rs: seq<string>, threshold: int)
    ensures |Bucketed(o, jd, rs, threshold, FuzzyBucket)| + |Bucketed(o, jd, rs, threshold, PartialBucket)| <= |jd|
    decreases |jd|
  {
    if |jd| > 0 {
      BucketedTotal(o, jd[1..], rs, threshold);
    }
  }

  /** What the two buckets hold, for lists already lower-cased. */
  lemma BucketFacts(o: Oracles, jd: seq<string>, rs: seq<string>, threshold: int)
    ensures var fuzzy := Bucketed(o, jd, rs, threshold, FuzzyBucket);
      forall x :: (exists m :: m in fuzzy && m.jdSkill == x) <==> x in jd && |rs| > 0 && BestScore(o, x, rs) >= threshold
    ensures var partial := Bucketed(o, jd, rs, threshold, PartialBucket);
      forall x :: (exists m :: m in partial && m.jdSkill == x) <==> x in jd && |rs| > 0 && 60 <= BestScore(o, x, rs) < threshold
    ensures forall m :: m in Bucketed(o, jd, rs, threshold, FuzzyBucket) + Bucketed(o, jd, rs, threshold, PartialBucket) ==>
      m.resumeSkill in rs && m.similarityScore == BestScore(o, m.jdSkill, rs)
    ensures |Bucketed(o, jd, rs, threshold, FuzzyBucket)| + |Bucketed(o, jd, rs, threshold, PartialBucket)| <= |jd|
  {
    BucketedTotal(o, jd, rs, threshold);
    BucketedSkills(o, jd, rs, threshold, FuzzyBucket);
    BucketedSkills(o, jd, rs, threshold, PartialBucket);
  }

  datatype FuzzyMatchResult = FuzzyMatchResult(
    fuzzyMatches: seq<FuzzyMatch>,
    partialMatches: seq<FuzzyMatch>,
    fuzzyMatchScore: real,
    totalRequiredSkills: nat,
    matchedSkillsCount: nat)

  /** `fuzzy_keyword_match`: each lower-cased JD skill is compared with its best
      resume skill; a best score of at least `threshold` makes a fuzzy match and
      one from 60 up to the threshold a partial match. */
  function FuzzyKeywordMatch(o: Oracles, resumeSkills: seq<string>, jdSkills: seq<string>, threshold: int): (r: FuzzyMatchResult)
    ensures forall x :: (exists m :: m in r.fuzzyMatches && m.jdSkill == x) <==>
      x in LowerAll(jdSkills) && |resumeSkills| > 0 && BestScore(o, x, LowerAll(resumeSkills)) >= threshold
    ensures forall x :: (exists m :: m in r.partialMatches && m.jdSkill == x) <==>
      x in LowerAll(jdSkills) && |resumeSkills| > 0 && 60 <= BestScore(o, x, LowerAll(resumeSkills)) < threshold
    ensures forall m :: m in r.fuzzyMatches + r.partialMatches ==>
      m.resumeSkill in LowerAll(resumeSkills) && m.similarityScore == BestScore(o, m.jdSkill, LowerAll(resumeSkills))
    ensures forall m, n :: m in r.fuzzyMatches && n in r.partialMatches ==> m.jdSkill != n.jdSkill
    ensures |r.fuzzyMatches| + |r.partialMatches| <= |jdSkills|
    ensures |resumeSkills| == 0 ==> r.fuzzyMatches == [] && r.partialMatches == []
    ensures r.totalRequiredSkills == |jdSkills| && r.matchedSkillsCount == |r.fuzzyMatches|
    ensures r.fuzzyMatchScore == Fraction(r.matchedSkillsCount, r.totalRequiredSkills)
    ensures 0.0 <= r.fuzzyMatchScore <= 1.0
  {
    var rs := LowerAll(resumeSkills);
    var jd := LowerAll(jdSkills);
    var fuzzy := Bucketed(o, jd, rs, threshold, FuzzyBucket);
    var partial := Bucketed(o, jd, rs, threshold, PartialBucket);
    BucketFacts(o, jd, rs, threshold);
    FractionBounds(|fuzzy|, |jd|);
    FuzzyMatchResult(fuzzy, partial, Fraction(|fuzzy|, |jd|), |jd|, |fuzzy|)
  }

  /** When the similarity of a string with itself is 100, every JD skill the
      resume lists exactly is also a fuzzy match, so there are at least as many
      fuzzy matches as exact ones. */
  lemma {:induction false} ExactWithinFuzzy(o: Oracles, jd: seq<string>, rs: seq<string>, threshold: int)
    requires forall x :: o.ratio(x, x) == 100
    requires threshold <= 100
    ensures forall x :: x in Filter(jd, rs, true) ==>
      exists m :: m in Bucketed(o, jd, rs, threshold, FuzzyBucket) && m.jdSkill == x
    ensures |Filter(jd, rs, true)| <= |Bucketed(o, jd, rs, threshold, FuzzyBucket)|
    decreases |jd|
  {
    if |jd| > 0 {
      ExactWithinFuzzy(o, jd[1..], rs, threshold);
      if jd[0] in rs {
        assert Score(o, jd[0], jd[0]) == 100;
        assert BestScore(o, jd[0], rs) >= threshold;
      }
    }
    forall x | x in Filter(jd, rs, true)
      ensures exists m :: m in Bucketed(o, jd, rs, threshold, FuzzyBucket) && m.jdSkill == x
    {
      assert Score(o, x, x) == 100;
      BucketedSkills(o, jd, rs, threshold, FuzzyBucket);
    }
  }

  /** With a similarity that scores identical strings 100, the fuzzy score at
      the default threshold is at least the exact score. */
  lemma FuzzyScoreAtLeastExact(o: Oracles, resumeSkills: seq<string>, jdSkills: seq<string>)
    requires forall x :: o.ratio(x, x) == 100
    ensures FuzzyKeywordMatch(o, resumeSkills, jdSkills, 80).fuzzyMatchScore
         >= ExactKeywordMatch(resumeSkills, jdSkills).exactMatchScore
  {
    var rs, jd := LowerAll(resumeSkills), LowerAll(jdSkills);
    ExactWithinFuzzy(o, jd, rs, 80);
    FractionMonotone(|Filter(jd, rs, true)|, |Bucketed(o, jd, rs, 80, FuzzyBucket)|, |jd|);
  }

  // ---------------------------------------------------------------------------
  // Education match

  const DegreeLevels: seq<string> := ["bachelor", "master", "phd", "diploma"]
  const DegreeFields: seq<string> := ["computer", "engineering", "technology", "software", "it"]

  /** Both the (lower-cased) degree and the qualification name a degree level. */
  predicate LevelRule(degree: string, qual: string) {
    ContainsAny(degree, DegreeLevels) && ContainsAny(Lower(qual), DegreeLevels)
  }

  /** Both the (lower-cased) degree and the qualification name a technical field. */
  predicate FieldRule(degree: string, qual: string) {
    ContainsAny(degree, DegreeFields) && ContainsAny(Lower(qual), DegreeFields)
  }

  datatype EducationMatchType = DegreeLevel | Field

  datatype EducationMatch = EducationMatch(jdQualification: string, resumeDegree: string, matchType: EducationMatchType)

  /** The first index from `k` on whose element passes `first` or `second`,
      and whether `first` passed. */
  function FirstOfEither<T>(xs: seq<T>, first: T -> bool, second: T -> bool, k: nat): (r: Option<(nat, bool)>)
    decreases |xs| - k
    ensures r.Some? ==> k <= r.value.0 < |xs|
    ensures r.Some? ==> forall i :: k <= i < r.value.0 ==> !first(xs[i]) && !second(xs[i])
    ensures r.Some? ==> (r.value.1 <==> first(xs[r.value.0]))
    ensures r.Some? && !r.value.1 ==> second(xs[r.value.0])
    ensures r.None? ==> forall i :: k <= i < |xs| ==> !first(xs[i]) && !second(xs[i])
  {
    if k >= |xs| then None
    else if first(xs[k]) then Some((k, true))
    else if second(xs[k]) then Some((k, false))
    else FirstOfEither(xs, first, second, k + 1)
  }

  /** The first degree from index `k` on that either rule accepts for `qual`,
      and the rule that accepted it (the level rule is checked first). */
  function MatchDegree(qual: string, degrees: seq<string>, k: nat): (r: Option<(nat, EducationMatchType)>)
    ensures r.Some? ==> k <= r.value.0 < |degrees|
    ensures r.Some? ==> forall i :: k <= i < r.value.0 ==> !LevelRule(degrees[i], qual) && !FieldRule(degrees[i], qual)
    ensures r.Some? ==> (r.value.1 == DegreeLevel <==> LevelRule(degrees[r.value.0], qual))
    ensures r.Some? && r.value.1 == Field ==> FieldRule(degrees[r.value.0], qual)
    ensures r.None? ==> forall i :: k <= i < |degrees| ==> !LevelRule(degrees[i], qual) && !FieldRule(degrees[i], qual)
  {
    match FirstOfEither(degrees, d => LevelRule(d, qual), d => FieldRule(d, qual), k)
    case Some((i, level)) => Some((i, if level then DegreeLevel else Field))
    case None => None
  }

  function Credit(t: EducationMatchType): real {
    match t
    case DegreeLevel => 0.5
    case Field => 0.3
  }

  /** The match `education_match` records for `qual`: the first resume degree
      that a rule accepts, tagged with that rule, or nothing when no degree
      passes either rule. */
  function QualificationMatch(qual: string, degrees: seq<string>): (r: Option<EducationMatch>)
    ensures r.None? <==> forall d :: d in degrees ==> !LevelRule(d, qual) && !FieldRule(d, qual)
    ensures r.Some? ==> r.value.jdQualification == qual
    ensures r.Some? ==> exists i :: (0 <= i < |degrees| && degrees[i] == r.value.resumeDegree &&
      forall j :: 0 <= j < i ==> !LevelRule(degrees[j], qual) && !FieldRule(degrees[j], qual))
    ensures r.Some? ==> (r.value.matchType == DegreeLevel <==> LevelRule(r.value.resumeDegree, qual))
    ensures r.Some? && r.value.matchType == Field ==> FieldRule(r.value.resumeDegree, qual)
  {
    match MatchDegree(qual, degrees, 0)
    case None =>
      assert forall d :: d in degrees ==> !LevelRule(d, qual) && !FieldRule(d, qual) by {
        forall d | d in degrees
          ensures !LevelRule(d, qual) && !FieldRule(d, qual)
        {
          var i :| 0 <= i < |degrees| && degrees[i] == d;
        }
      }
      None
    case Some((i, t)) => Some(EducationMatch(qual, degrees[i], t))
  }

  /** The credit the matches earn together: 0.5 per level match, 0.3 per field match. */
  function EducationCredits(ms: seq<EducationMatch>): (r: real)
    ensures 0.3 * |ms| as real <= r <= 0.5 * |ms| as real
  {
    if |ms| == 0 then 0.0 else EducationCredits(ms[..|ms| - 1]) + Credit(ms[|ms| - 1].matchType)
  }

  datatype EducationScan = EducationScan(total: real, matches: seq<EducationMatch>, missing: seq<string>)

  /** The loop over the qualifications: credit, matches and misses so far. */
  function ScanQualifications(quals: seq<string>, degrees: seq<string>): (r: EducationScan)
    ensures |r.matches| + |r.missing| == |quals|
    ensures r.total == EducationCredits(r.matches)
    ensures 0.0 <= r.total <= 0.5 * |quals| as real
    decreases |quals|
  {
    if |quals| == 0 then EducationScan(0.0, [], [])
    else
      var n := |quals| - 1;
      var prev := ScanQualifications(quals[..n], degrees);
      match QualificationMatch(quals[n], degrees)
      case None => EducationScan(prev.total, prev.matches, prev.missing + [quals[n]])
      case Some(m) =>
        var ms := prev.matches + [m];
        assert ms[..|ms| - 1] == prev.matches;
        EducationScan(prev.total + Credit(m.matchType), ms, prev.missing)
  }

  /** Which qualifications the loop matches and which it misses: a miss is a
      qualification no degree passes, every match is the one
      `QualificationMatch` records, and every qualification some degree passes
      is matched. */
  lemma {:induction false} ScanQualificationsMembers(quals: seq<string>, degrees: seq<string>)
    ensures var r := ScanQualifications(quals, degrees);
      && (forall q :: q in r.missing <==> q in quals && QualificationMatch(q, degrees).None?)
      && (forall m :: m in r.matches ==> m.jdQualification in quals && QualificationMatch(m.jdQualification, degrees) == Some(m))
      && (forall q :: q in quals && QualificationMatch(q, degrees).Some? ==> QualificationMatch(q, degrees).value in r.matches)
    decreases |quals|
  {
    if |quals| > 0 {
      var n := |quals| - 1;
      ScanQualificationsMembers(quals[..n], degrees);
      assert quals == quals[..n] + [quals[n]];
    }
  }

  datatype EducationMatchResult = EducationMatchResult(
    educationScore: real,
    educationMatches: seq<EducationMatch>,
    missingQualifications: seq<string>,
    totalQualifications: nat)

  function DegreesOf(education: seq<EducationEntry>): (r: seq<string>)
    ensures |r| == |education|
    ensures forall i :: 0 <= i < |r| ==> r[i] == Lower(education[i].degree)
  {
    seq(|education|, i requires 0 <= i < |education| => Lower(education[i].degree))
  }

  /** `education_match`: each qualification earns the credit of the first
      resume degree a rule accepts; the total is averaged over the
      qualifications and capped at 1. */
  function EducationMatchOf(education: seq<EducationEntry>, quals: seq<string>): (r: EducationMatchResult)
    ensures r.educationScore == CappedMean(EducationCredits(r.educationMatches), |quals|)
    ensures |r.educationMatches| + |r.missingQualifications| == |quals|
    ensures 0.0 <= r.educationScore <= 0.5
    ensures |quals| == 0 ==> r.educationScore == 0.0
    ensures forall q :: q in r.missingQualifications <==> q in quals && QualificationMatch(q, DegreesOf(education)).None?
    ensures forall m :: m in r.educationMatches ==>
      m.jdQualification in quals && QualificationMatch(m.jdQualification, DegreesOf(education)) == Some(m)
    ensures forall q :: q in quals && QualificationMatch(q, DegreesOf(education)).Some? ==>
      QualificationMatch(q, DegreesOf(education)).value in r.educationMatches
    ensures r.totalQualifications == |quals|
  {
    var degrees := DegreesOf(education);
    var scan := ScanQualifications(quals, degrees);
    ScanQualificationsMembers(quals, degrees);
    CappedMeanHalf(scan.total, |quals|);
    EducationMatchResult(CappedMean(scan.total, |quals|), scan.matches, scan.missing, |quals|)
  }

  /** A capped mean over at least one item is 0 exactly when the total is. */
  lemma CappedMeanZero(total: real, count: nat)
    requires count > 0 && total >= 0.0
    ensures CappedMean(total, count) == 0.0 <==> total == 0.0
  {
    var q := total / count as real;
    assert q * count as real == total;
  }

  /** The full-credit instance of `CappedMeanBound`. */
  lemma CappedMeanUnit(total: real, count: nat)
    requires 0.0 <= total <= count as real
    ensures 0.0 <= CappedMean(total, count) <= 1.0
    ensures count == 0 ==> CappedMean(total, count) == 0.0
  {
    CappedMeanBound(total, count, 1.0);
  }

  /** The half-credit instance of `CappedMeanBound`. */
  lemma CappedMeanHalf(total: real, count: nat)
    requires 0.0 <= total <= 0.5 * count as real
    ensures 0.0 <= CappedMean(total, count) <= 0.5
    ensures count == 0 ==> CappedMean(total, count) == 0.0
  {
    CappedMeanBound(total, count, 0.5);
  }

  /** Every recorded match names a degree of the resume and the rule that
      accepted it, and every missing qualification is one no degree passes. */
  lemma EducationMatchRules(education: seq<EducationEntry>, quals: seq<string>)
    ensures var r := EducationMatchOf(education, quals);
      && (forall m :: m in r.educationMatches ==> m.resumeDegree in DegreesOf(education))
      && (forall m :: m in r.educationMatches && m.matchType == DegreeLevel ==> LevelRule(m.resumeDegree, m.jdQualification))
      && (forall m :: m in r.educationMatches && m.matchType == Field ==> FieldRule(m.resumeDegree, m.jdQualification))
      && (forall q :: q in r.missingQualifications ==>
            forall d :: d in DegreesOf(education) ==> !LevelRule(d, q) && !FieldRule(d, q))
  {
    var r := EducationMatchOf(education, quals);
    var degrees := DegreesOf(education);
    forall m | m in r.educationMatches
      ensures m.resumeDegree in degrees
    {
      var i :| 0 <= i < |degrees| && degrees[i] == QualificationMatch(m.jdQualification, degrees).value.resumeDegree &&
        forall j :: 0 <= j < i ==> !LevelRule(degrees[j], m.jdQualification) && !FieldRule(degrees[j], m.jdQualification);
    }
  }

  /** With at least one qualification, the education score is 0 exactly when
      no qualification is matched: every match earns at least 0.3. */
  lemma {:induction false} EducationScoreZero(education: seq<EducationEntry>, quals: seq<string>)
    requires |quals| > 0
    ensures var r := EducationMatchOf(education, quals);
      r.educationScore == 0.0 <==> r.educationMatches == []
  {
    var r := EducationMatchOf(education, quals);
    CappedMeanZero(EducationCredits(r.educationMatches), |quals|);
  }

  // ---------------------------------------------------------------------------
  // Experience estimate and match

  /** `(\d+)\s*(?:years?|yrs?)`, `(\d+)\s*(?:months?|mos?)`, `(\d+)\s*(?:days?|d)`:
      a unit only has to start at the end of the spaces, so the shortest form of
      each alternative decides whether it matches. */
  const YearUnits: seq<Word> := ["year", "yr"]
  const MonthUnits: seq<Word> := ["month", "mo"]
  const DayUnits: seq<Word> := ["day", "d"]

  /** The number the first duration pattern with a hit finds in `d`. */
  function DurationNumber(d: string): (r: Option<nat>)
    ensures r.None? <==>
      && SearchNumberUnit(d, "", YearUnits, 0).None?
      && SearchNumberUnit(d, "", MonthUnits, 0).None?
      && SearchNumberUnit(d, "", DayUnits, 0).None?
    ensures r.Some? ==> exists k :: 0 <= k < |d| && IsDigit(d[k])
  {
    var y := SearchNumberUnit(d, "", YearUnits, 0);
    if y.Some? then y
    else
      var m := SearchNumberUnit(d, "", MonthUnits, 0);
      if m.Some? then m else SearchNumberUnit(d, "", DayUnits, 0)
  }

  /** What the number is divided by: 12 when "month" occurs anywhere in the
      duration, else 365 when "day" does. */
  function Divisor(d: string): (r: nat)
    ensures r == 1 || r == 12 || r == 365
    ensures Contains(d, "month") <==> r == 12
    ensures !Contains(d, "month") ==> (r == 365 <==> Contains(d, "day"))
  {
    if Contains(d, "month") then 12 else if Contains(d, "day") then 365 else 1
  }

  /** The years a title-only entry is assumed to cover. */
  function TitleYears(title: string): (r: nat)
    ensures 1 <= r <= 3
    ensures ContainsAny(Lower(title), ["senior", "lead", "principal"]) <==> r == 3
    ensures r == 1 <==> !ContainsAny(Lower(title), ["senior", "lead", "principal"])
                        && ContainsAny(Lower(title), ["junior", "entry", "fresher"])
  {
    var t := Lower(title);
    if ContainsAny(t, ["senior", "lead", "principal"]) then 3
    else if ContainsAny(t, ["junior", "entry", "fresher"]) then 1
    else 2
  }

  /** The years a lower-cased duration text stands for: its number divided by
      the unit's length in the year, or the title's guess without a number. */
  function DurationYears(d: string, title: string): (r: real)
    ensures r >= 0.0
    ensures DurationNumber(d).None? ==> r == TitleYears(title) as real
    ensures DurationNumber(d).Some? ==> r * Divisor(d) as real == DurationNumber(d).value as real
  {
    match DurationNumber(d)
    case Some(n) => n as real / Divisor(d) as real
    case None => TitleYears(title) as real
  }

  /** The years one experience entry adds to the estimate: none without a
      duration. */
  function EntryYears(e: ExperienceEntry): (r: real)
    ensures r >= 0.0
    ensures e.duration.None? ==> r == 0.0
    ensures e.duration.Some? ==> r == DurationYears(Lower(e.duration.value), e.title)
  {
    match e.duration
    case None => 0.0
    case Some(raw) => DurationYears(Lower(raw), e.title)
  }

  function TotalYears(entries: seq<ExperienceEntry>): (r: real)
    ensures r >= 0.0
  {
    if |entries| == 0 then 0.0 else TotalYears(entries[..|entries| - 1]) + EntryYears(entries[|entries| - 1])
  }

  /** `_estimate_experience_years`: the whole part of the summed entry years. */
  function EstimateExperienceYears(entries: seq<ExperienceEntry>): (r: nat)
    ensures r as real <= TotalYears(entries) < r as real + 1.0
  {
    TotalYears(entries).Floor
  }

  /** Adding an entry never lowers the estimate. */
  lemma EstimateMonotone(entries: seq<ExperienceEntry>, e: ExperienceEntry)
    ensures EstimateExperienceYears(entries) <= EstimateExperienceYears(entries + [e])
  {
    assert (entries + [e])[..|entries|] == entries;
  }

  /** The band of an estimate. */
  function ExperienceLevel(years: nat): (r: string)
    ensures r in ["entry_level", "mid_level", "senior_level", "principal_level"]
  {
    if years <= 2 then "entry_level"
    else if years <= 5 then "mid_level"
    else if years <= 8 then "senior_level"
    else "principal_level"
  }

  function LevelRank(level: string): nat {
    if level == "entry_level" then 0
    else if level == "mid_level" then 1
    else if level == "senior_level" then 2
    else 3
  }

  lemma LevelMonotone(a: nat, b: nat)
    requires a <= b
    ensures LevelRank(ExperienceLevel(a)) <= LevelRank(ExperienceLevel(b))
  {
  }

  /** The score of an estimate against a requirement. */
  function RequirementScore(years: nat, req: ExperienceRequirement): (r: real)
    ensures 0.0 <= r <= 1.0
    ensures years >= req.minYears ==> r >= 0.8
    ensures years >= req.minYears ==>
      (r == 1.0 <==> req.maxYears.Some? && req.maxYears.value != 0 && years <= req.maxYears.value)
    ensures years >= req.minYears && r != 1.0 ==> (r == 0.9 <==> years > req.minYears + 2) && (r == 0.8 || r == 0.9)
    ensures years < req.minYears ==> r < 1.0 && r * req.minYears as real == years as real
  {
    if years >= req.minYears then
      if req.maxYears.Some? && req.maxYears.value != 0 && years <= req.maxYears.value then 1.0
      else if years > req.minYears + 2 then 0.9
      else 0.8
    else
      var q := years as real / req.minYears as real;
      assert q * req.minYears as real == years as real;
      q
  }

  datatype ExperienceAnalysis = ExperienceAnalysis(meetsMinimum: bool, experienceLevel: string, yearsEstimated: nat)

  datatype ExperienceMatchResult = ExperienceMatchResult(
    experienceScore: real,
    experienceAnalysis: ExperienceAnalysis,
    jdRequirements: Option<ExperienceRequirement>)

  /** `experience_match`. */
  function ExperienceMatch(entries: seq<ExperienceEntry>, req: Option<ExperienceRequirement>): (r: ExperienceMatchResult)
    ensures 0.0 <= r.experienceScore <= 1.0
    ensures r.experienceAnalysis.yearsEstimated == EstimateExperienceYears(entries)
    ensures req.None? ==> r.experienceScore == 0.0 && r.experienceAnalysis == ExperienceAnalysis(false, "", EstimateExperienceYears(entries))
    ensures req.Some? ==> r.experienceScore == RequirementScore(EstimateExperienceYears(entries), req.value)
    ensures req.Some? ==> (r.experienceAnalysis.meetsMinimum <==> EstimateExperienceYears(entries) >= req.value.minYears)
    ensures req.Some? ==> r.experienceAnalysis.experienceLevel == ExperienceLevel(EstimateExperienceYears(entries))
    ensures r.jdRequirements == req
  {
    var years := EstimateExperienceYears(entries);
    match req
    case None => ExperienceMatchResult(0.0, ExperienceAnalysis(false, "", years), req)
    case Some(q) =>
      ExperienceMatchResult(RequirementScore(years, q), ExperienceAnalysis(years >= q.minYears, ExperienceLevel(years), years), req)
  }

  // ---------------------------------------------------------------------------
  // Certification match

  const CertKeywords: seq<string> := ["certified", "certification", "certificate", "aws", "azure", "gcp", "pmp", "scrum"]

  /** The JD skills that mention a certification keyword, in order. */
  function CertRequirements(jd: seq<string>): (r: seq<string>)
    ensures forall x :: x in r <==> x in jd && ContainsAny(x, CertKeywords)
    ensures |r| <= |jd|
  {
    if |jd| == 0 then []
    else (if ContainsAny(jd[0], CertKeywords) then [jd[0]] else []) + CertRequirements(jd[1..])
  }

  predicate Overlaps(a: string, b: string) {
    Contains(b, a) || Contains(a, b)
  }

  datatype CertMatchType = ExactCert | FuzzyCert

  datatype CertificationMatch = CertificationMatch(jdCertification: string, resumeCertification: string, matchType: CertMatchType)

  /** The first resume certificate from index `k` on that a requirement accepts:
      by substring in either direction, or else by a similarity above 70. */
  function MatchCertificate(o: Oracles, req: string, certs: seq<string>, k: nat): (r: Option<(nat, CertMatchType)>)
    decreases |certs| - k
    ensures r.Some? ==> k <= r.value.0 < |certs|
    ensures r.Some? ==> forall i :: k <= i < r.value.0 ==> !Overlaps(req, certs[i]) && o.ratio(req, certs[i]) <= 70
    ensures r.Some? ==> (r.value.1 == ExactCert <==> Overlaps(req, certs[r.value.0]))
    ensures r.Some? && r.value.1 == FuzzyCert ==> o.ratio(req, certs[r.value.0]) > 70
    ensures r.None? ==> forall i :: k <= i < |certs| ==> !Overlaps(req, certs[i]) && o.ratio(req, certs[i]) <= 70
  {
    if k >= |certs| then None
    else if Overlaps(req, certs[k]) then Some((k, ExactCert))
    else if o.ratio(req, certs[k]) > 70 then Some((k, FuzzyCert))
    else MatchCertificate(o, req, certs, k + 1)
  }

  function CertCredit(t: CertMatchType): real {
    match t
    case ExactCert => 1.0
    case FuzzyCert => 0.7
  }

  /** The match `certification_match` records for requirement `req`: the first
      resume certificate that overlaps it or, failing that, resembles it above
      70, tagged with the test it passed; nothing when no certificate passes. */
  function RequirementMatch(o: Oracles, req: string, certs: seq<string>): (r: Option<CertificationMatch>)
    ensures r.None? <==> forall c :: c in certs ==> !Overlaps(req, c) && o.ratio(req, c) <= 70
    ensures r.Some? ==> r.value.jdCertification == req
    ensures r.Some? ==> exists i :: (0 <= i < |certs| && certs[i] == r.value.resumeCertification &&
      forall j :: 0 <= j < i ==> !Overlaps(req, certs[j]) && o.ratio(req, certs[j]) <= 70)
    ensures r.Some? ==> (r.value.matchType == ExactCert <==> Overlaps(req, r.value.resumeCertification))
    ensures r.Some? && r.value.matchType == FuzzyCert ==> o.ratio(req, r.value.resumeCertification) > 70
  {
    match MatchCertificate(o, req, certs, 0)
    case None =>
      assert forall c :: c in certs ==> !Overlaps(req, c) && o.ratio(req, c) <= 70 by {
        forall c | c in certs
          ensures !Overlaps(req, c) && o.ratio(req, c) <= 70
        {
          var i :| 0 <= i < |certs| && certs[i] == c;
        }
      }
      None
    case Some((i, t)) => Some(CertificationMatch(req, certs[i], t))
  }

  /** The credit the matches earn together: 1 per exact match, 0.7 per fuzzy one. */
  function CertCredits(ms: seq<CertificationMatch>): (r: real)
    ensures 0.7 * |ms| as real <= r <= |ms| as real
  {
    if |ms| == 0 then 0.0 else CertCredits(ms[..|ms| - 1]) + CertCredit(ms[|ms| - 1].matchType)
  }

  datatype CertificationScan = CertificationScan(total: real, matches: seq<CertificationMatch>, missing: seq<string>)

  /** The loop over the requirements: credit, matches and misses so far. */
  function ScanRequirements(o: Oracles, reqs: seq<string>, certs: seq<string>): (r: CertificationScan)
    ensures |r.matches| + |r.missing| == |reqs|
    ensures r.total == CertCredits(r.matches)
    ensures 0.0 <= r.total <= |reqs| as real
    decreases |reqs|
  {
    if |reqs| == 0 then CertificationScan(0.0, [], [])
    else
      var n := |reqs| - 1;
      var prev := ScanRequirements(o, reqs[..n], certs);
      match RequirementMatch(o, reqs[n], certs)
      case None => CertificationScan(prev.total, prev.matches, prev.missing + [reqs[n]])
      case Some(m) =>
        var ms := prev.matches + [m];
        assert ms[..|ms| - 1] == prev.matches;
        CertificationScan(prev.total + CertCredit(m.matchType), ms, prev.missing)
  }

  /** Which requirements the loop matches and which it misses: a miss is a
      requirement no certificate passes, every match is the one
      `RequirementMatch` records, and every requirement some certificate passes
      is matched. */
  lemma {:induction false} ScanRequirementsMembers(o: Oracles, reqs: seq<string>, certs: seq<string>)
    ensures var r := ScanRequirements(o, reqs, certs);
      && (forall q :: q in r.missing <==> q in reqs && RequirementMatch(o, q, certs).None?)
      && (forall m :: m in r.matches ==> m.jdCertification in reqs && RequirementMatch(o, m.jdCertification, certs) == Some(m))
      && (forall q :: q in reqs && RequirementMatch(o, q, certs).Some? ==> RequirementMatch(o, q, certs).value in r.matches)
    decreases |reqs|
  {
    if |reqs| > 0 {
      var n := |reqs| - 1;
      ScanRequirementsMembers(o, reqs[..n], certs);
      assert reqs == reqs[..n] + [reqs[n]];
    }
  }

  datatype CertificationMatchResult = CertificationMatchResult(
    certificationScore: real,
    certificationMatches: seq<CertificationMatch>,
    missingCertifications: seq<string>,
    totalCertRequirements: nat)

  /** `certification_match`: the certification-flavoured JD skills, each
      credited by the first resume certificate that matches it; the credit is
      averaged over the requirements and capped at 1. */
  function CertificationMatchOf(o: Oracles, resumeCerts: seq<string>, jdSkills: seq<string>): (r: CertificationMatchResult)
    ensures r.totalCertRequirements == |CertRequirements(LowerAll(jdSkills))|
    ensures r.certificationScore == CappedMean(CertCredits(r.certificationMatches), r.totalCertRequirements)
    ensures |r.certificationMatches| + |r.missingCertifications| == r.totalCertRequirements
    ensures forall q :: q in r.missingCertifications <==>
      q in CertRequirements(LowerAll(jdSkills)) && RequirementMatch(o, q, LowerAll(resumeCerts)).None?
    ensures forall m :: m in r.certificationMatches ==>
      m.jdCertification in CertRequirements(LowerAll(jdSkills)) &&
      RequirementMatch(o, m.jdCertification, LowerAll(resumeCerts)) == Some(m)
    ensures forall q :: q in CertRequirements(LowerAll(jdSkills)) && RequirementMatch(o, q, LowerAll(resumeCerts)).Some? ==>
      RequirementMatch(o, q, LowerAll(resumeCerts)).value in r.certificationMatches
    ensures 0.0 <= r.certificationScore <= 1.0
    ensures r.totalCertRequirements == 0 ==> r.certificationScore == 0.0
  {
    var certs := LowerAll(resumeCerts);
    var reqs := CertRequirements(LowerAll(jdSkills));
    var scan := ScanRequirements(o, reqs, certs);
    ScanRequirementsMembers(o, reqs, certs);
    CappedMeanUnit(scan.total, |reqs|);
    CertificationMatchResult(CappedMean(scan.total, |reqs|), scan.matches, scan.missing, |reqs|)
  }

  /** Every recorded match names a resume certificate and the test it passed,
      and every missing requirement is one no certificate passes. */
  lemma CertificationMatchTests(o: Oracles, resumeCerts: seq<string>, jdSkills: seq<string>)
    ensures var r := CertificationMatchOf(o, resumeCerts, jdSkills);
      && (forall m :: m in r.certificationMatches ==> m.resumeCertification in LowerAll(resumeCerts))
      && (forall m :: m in r.certificationMatches && m.matchType == ExactCert ==> Overlaps(m.jdCertification, m.resumeCertification))
      && (forall m :: m in r.certificationMatches && m.matchType == FuzzyCert ==> o.ratio(m.jdCertification, m.resumeCertification) > 70)
      && (forall q :: q in r.missingCertifications ==>
            forall c :: c in LowerAll(resumeCerts) ==> !Overlaps(q, c) && o.ratio(q, c) <= 70)
  {
    var r := CertificationMatchOf(o, resumeCerts, jdSkills);
    var certs := LowerAll(resumeCerts);
    forall m | m in r.certificationMatches
      ensures m.resumeCertification in certs
    {
      var i :| 0 <= i < |certs| && certs[i] == RequirementMatch(o, m.jdCertification, certs).value.resumeCertification &&
        forall j :: 0 <= j < i ==> !Overlaps(m.jdCertification, certs[j]) && o.ratio(m.jdCertification, certs[j]) <= 70;
    }
  }

  /** With at least one requirement, the certification score is 0 exactly when
      no requirement is matched: every match earns at least 0.7. */
  lemma CertificationScoreZero(o: Oracles, resumeCerts: seq<string>, jdSkills: seq<string>)
    requires |CertRequirements(LowerAll(jdSkills))| > 0
    ensures var r := CertificationMatchOf(o, resumeCerts, jdSkills);
      r.certificationScore == 0.0 <==> r.certificationMatches == []
  {
    var r := CertificationMatchOf(o, resumeCerts, jdSkills);
    CappedMeanZero(CertCredits(r.certificationMatches), r.totalCertRequirements);
  }

  // ---------------------------------------------------------------------------
  // TF-IDF and fusion

  /** `tfidf_similarity`: the cosine of the TF-IDF vectors, or 0 when the
      vectoriser or the cosine raises. */
  function TfidfSimilarity(o: Oracles, resumeText: string, jdText: string): (r: Unit)
    ensures o.tfidf(resumeText, jdText).Failure? ==> r == 0.0
    ensures o.tfidf(resumeText, jdText).Success? ==> r == o.tfidf(resumeText, jdText).value
  {
    match o.tfidf(resumeText, jdText)
    case Success(v) => v
    case Failure(_) => 0.0
  }

  const ExactWeight: real := 0.3
  const FuzzyWeight: real := 0.2
  const EducationWeight: real := 0.15
  const ExperienceWeight: real := 0.15
  const CertificationWeight: real := 0.1
  const TfidfWeight: real := 0.1

  datatype SubScores = SubScores(exact: real, fuzzy: real, education: real, experience: real, certification: real, tfidf: real)

  predicate InUnit(s: SubScores) {
    && 0.0 <= s.exact <= 1.0 && 0.0 <= s.fuzzy <= 1.0 && 0.0 <= s.education <= 1.0
    && 0.0 <= s.experience <= 1.0 && 0.0 <= s.certification <= 1.0 && 0.0 <= s.tfidf <= 1.0
  }

  predicate AtMost(a: SubScores, b: SubScores) {
    && a.exact <= b.exact && a.fuzzy <= b.fuzzy && a.education <= b.education
    && a.experience <= b.experience && a.certification <= b.certification && a.tfidf <= b.tfidf
  }

  /** The weighted sum of the six sub-scores. */
  function Fuse(s: SubScores): (r: real)
    ensures InUnit(s) ==> 0.0 <= r <= 1.0
    ensures s == SubScores(1.0, 1.0, 1.0, 1.0, 1.0, 1.0) ==> r == 1.0
  {
    s.exact * ExactWeight + s.fuzzy * FuzzyWeight + s.education * EducationWeight
    + s.experience * ExperienceWeight + s.certification * CertificationWeight + s.tfidf * TfidfWeight
  }

  /** The fusion weights sum to one, so equal sub-scores fuse to their common value. */
  lemma FuseConstant(v: real)
    ensures Fuse(SubScores(v, v, v, v, v, v)) == v
  {
  }

  lemma FuseMonotone(a: SubScores, b: SubScores)
    requires AtMost(a, b)
    ensures Fuse(a) <= Fuse(b)
  {
  }

  datatype HardMatchResult = HardMatchResult(
    hardMatchScore: real,
    exactSkillMatch: ExactMatchResult,
    fuzzySkillMatch: FuzzyMatchResult,
    educationMatch: EducationMatchResult,
    experienceMatch: ExperienceMatchResult,
    certificationMatch: CertificationMatchResult,
    tfidfSimilarity: real)

  function SubScoresOf(h: HardMatchResult): SubScores {
    SubScores(h.exactSkillMatch.exactMatchScore, h.fuzzySkillMatch.fuzzyMatchScore, h.educationMatch.educationScore,
              h.experienceMatch.experienceScore, h.certificationMatch.certificationScore, h.tfidfSimilarity)
  }

  /** The dictionary `calculate_hard_match_score` returns: the full result, or
      the record with score 0.0 and the message of the exception. */
  datatype HardOutcome = HardMatched(result: HardMatchResult) | HardFailed(error: string)

  /** `calculate_hard_match_score`. */
  function CalculateHardMatchScore(o: Oracles, resume: Resume, jd: JobDescription): (r: HardOutcome)
    ensures r.HardMatched?
    ensures 0.0 <= r.result.hardMatchScore <= 1.0
    ensures InUnit(SubScoresOf(r.result)) && r.result.hardMatchScore == Fuse(SubScoresOf(r.result))
    ensures r.result.exactSkillMatch == ExactKeywordMatch(resume.skills, jd.requiredSkills)
    ensures r.result.fuzzySkillMatch == FuzzyKeywordMatch(o, resume.skills, jd.requiredSkills, 80)
    ensures r.result.educationMatch == EducationMatchOf(resume.education, jd.qualifications)
    ensures r.result.experienceMatch == ExperienceMatch(resume.experience, jd.experienceRequirements)
    ensures r.result.certificationMatch == CertificationMatchOf(o, resume.certifications, jd.requiredSkills)
    ensures r.result.tfidfSimilarity == TfidfSimilarity(o, resume.cleanedText, jd.cleanedText)
  {
    var h := HardMatchResult(
      0.0,
      ExactKeywordMatch(resume.skills, jd.requiredSkills),
      FuzzyKeywordMatch(o, resume.skills, jd.requiredSkills, 80),
      EducationMatchOf(resume.education, jd.qualifications),
      ExperienceMatch(resume.experience, jd.experienceRequirements),
      CertificationMatchOf(o, resume.certifications, jd.requiredSkills),
      TfidfSimilarity(o, resume.cleanedText, jd.cleanedText));
    HardMatched(h.(hardMatchScore := Fuse(SubScoresOf(h))))
  }

  /** The preferred skills of the job description never enter the hard score. */
  lemma PreferredSkillsIgnored(o: Oracles, resume: Resume, jd: JobDescription, preferred: seq<string>)
    ensures CalculateHardMatchScore(o, resume, jd.(preferredSkills := preferred)) == CalculateHardMatchScore(o, resume, jd)
  {
  }

  /** With no required skills both skill scores are 0. */
  lemma NoRequiredSkills(o: Oracles, resumeSkills: seq<string>, threshold: int)
    ensures ExactKeywordMatch(resumeSkills, []).exactMatchScore == 0.0
    ensures FuzzyKeywordMatch(o, resumeSkills, [], threshold).fuzzyMatchScore == 0.0
  {
  }

  // ---------------------------------------------------------------------------
  // Scenarios

  /** `Filter` distributes over concatenation. */
  lemma {:induction false} FilterAppend(xs: seq<string>, ys: seq<string>, pool: seq<string>, keep: bool)
    ensures Filter(xs + ys, pool, keep) == Filter(xs, pool, keep) + Filter(ys, pool, keep)
    decreases |xs|
  {
    if |xs| == 0 {
      assert xs + ys == ys;
    } else {
      assert (xs + ys)[1..] == xs[1..] + ys;
      FilterAppend(xs[1..], ys, pool, keep);
    }
  }

  /** A list whose elements all pass (or all fail) the test is kept whole (or dropped). */
  lemma {:induction false} FilterUniform(xs: seq<string>, pool: seq<string>, keep: bool, pass: bool)
    requires forall k :: 0 <= k < |xs| ==> ((xs[k] in pool) == keep) == pass
    ensures Filter(xs, pool, keep) == if pass then xs else []
    decreases |xs|
  {
    if |xs| > 0 {
      FilterUniform(xs[1..], pool, keep, pass);
      if pass {
        assert [xs[0]] + xs[1..] == xs;
      }
    }
  }

  /** The matches of `p + q + t` when only the middle part is missing from `rs`. */
  lemma {:induction false} MatchesAroundGap(p: seq<string>, q: seq<string>, t: seq<string>, rs: seq<string>)
    requires forall k :: 0 <= k < |p| ==> p[k] in rs
    requires forall k :: 0 <= k < |q| ==> q[k] !in rs
    requires forall k :: 0 <= k < |t| ==> t[k] in rs
    ensures Filter(p + q + t, rs, true) == p + t
  {
    FilterAppend(p + q, t, rs, true);
    FilterAppend(p, q, rs, true);
    FilterUniform(p, rs, true, true);
    FilterUniform(q, rs, true, false);
    FilterUniform(t, rs, true, true);
    assert p + [] == p;
  }

  /** The missing skills of `p + q + t` when only the middle part is missing from `rs`. */
  lemma {:induction false} MissingInGap(p: seq<string>, q: seq<string>, t: seq<string>, rs: seq<string>)
    requires forall k :: 0 <= k < |p| ==> p[k] in rs
    requires forall k :: 0 <= k < |q| ==> q[k] !in rs
    requires forall k :: 0 <= k < |t| ==> t[k] in rs
    ensures Filter(p + q + t, rs, false) == q
  {
    FilterAppend(p + q, t, rs, false);
    FilterAppend(p, q, rs, false);
    FilterUniform(p, rs, false, false);
    FilterUniform(q, rs, false, true);
    FilterUniform(t, rs, false, false);
    assert [] + q + [] == q;
  }

  /** Five lower-case resume skills against five required skills of which the
      third is the only one the resume lacks: four matches, score 4/5. */
  lemma {:induction false} FourOfFive(a: string, b: string, c: string, d: string, e: string, f: string)
    requires IsLower(a) && IsLower(b) && IsLower(c) && IsLower(d) && IsLower(e) && IsLower(f)
    requires f != a && f != b && f != c && f != d && f != e
    ensures var r := ExactKeywordMatch([a, b, d, e, c], [a, b, f, d, e]);
      && r.exactMatches == [a, b, d, e]
      && r.missingSkills == [f]
      && r.exactMatchScore == 0.8
  {
    var rs := [a, b, d, e, c];
    var jd := [a, b, f, d, e];
    assert ExactKeywordMatch(rs, jd) == ExactMatchResult([a, b, d, e], [f], Fraction(4, 5), 5, 4) by {
      LowerAllOfLower(rs);
      LowerAllOfLower(jd);
      assert jd == [a, b] + [f] + [d, e];
      MatchesAroundGap([a, b], [f], [d, e], rs);
      MissingInGap([a, b], [f], [d, e], rs);
      assert [a, b] + [d, e] == [a, b, d, e];
    }
  }

  /** The system-test fixture: resume [python, django, postgresql, git, docker]
      against required [python, django, fastapi, postgresql, git]. */
  lemma ExactScenario()
    ensures var r := ExactKeywordMatch(["python", "django", "postgresql", "git", "docker"],
                                       ["python", "django", "fastapi", "postgresql", "git"]);
      && r.exactMatches == ["python", "django", "postgresql", "git"]
      && r.missingSkills == ["fastapi"]
      && r.exactMatchScore == 0.8
  {
    assert "fastapi"[0] == 'f';
    FourOfFive("python", "django", "docker", "postgresql", "git", "fastapi");
  }

  /** One degree and one qualification that the level rule pairs: a single
      degree-level match worth the full 0.5. */
  lemma {:induction false} SingleLevelMatch(e: EducationEntry, q: string)
    requires LevelRule(Lower(e.degree), q)
    ensures var r := EducationMatchOf([e], [q]);
      && r.educationMatches == [EducationMatch(q, Lower(e.degree), DegreeLevel)]
      && r.missingQualifications == []
      && r.educationScore == 0.5
  {
    var degrees := DegreesOf([e]);
    var m := EducationMatch(q, Lower(e.degree), DegreeLevel);
    assert MatchDegree(q, degrees, 0) == Some((0, DegreeLevel));
    assert QualificationMatch(q, degrees) == Some(m);
    assert [q][..0] == [];
    assert [m][..0] == [];
    assert EducationCredits([m]) == 0.5;
  }

  /** Text that begins with "Bachelor" names a degree level. */
  lemma StartsWithBachelor(s: string, rest: string)
    requires s == "Bachelor" + rest
    ensures ContainsAny(Lower(s), DegreeLevels)
  {
    assert Lower(s)[0..8] == "bachelor";
    ContainsAt(Lower(s), "bachelor", 0);
    assert DegreeLevels[0] == "bachelor";
  }

  const DegreeRest: string := " of Technology in Computer Science"
  const QualificationRest: string := "'s degree in Computer Science"

  /** The system-test fixture: degree "Bachelor of Technology in Computer
      Science" against the qualification "Bachelor's degree in Computer Science". */
  lemma EducationScenario()
    ensures var r := EducationMatchOf([EducationEntry("Bachelor" + DegreeRest, "", "")], ["Bachelor" + QualificationRest]);
      && r.educationMatches == [EducationMatch("Bachelor" + QualificationRest, Lower("Bachelor" + DegreeRest), DegreeLevel)]
      && r.educationScore == 0.5
  {
    StartsWithBachelor("Bachelor" + DegreeRest, DegreeRest);
    StartsWithBachelor("Bachelor" + QualificationRest, QualificationRest);
    SingleLevelMatch(EducationEntry("Bachelor" + DegreeRest, "", ""), "Bachelor" + QualificationRest);
  }

  /** The duration "3 years" reads as 3 whole years. */
  lemma ThreeYears(s: string)
    requires s == "3 years"
    ensures DurationNumber(s) == Some(3)
    ensures Divisor(s) == 1
  {
    assert IsDigit(s[0]) && !IsDigit(s[1]);
    assert DigitEnd(s, 0) == 1;
    assert IsSpace(s[1]) && !IsSpace(s[2]);
    assert SpaceEnd(s, 1) == 2;
    assert s[2..6] == "year";
    assert FirstAt(s, 2, YearUnits) == Some("year");
    assert s[0..1] == "3";
    assert DigitsValue("3") == 3;
    assert NumberUnitAt(s, 0, "", YearUnits) == Some(3);
    assert !Contains(s, "month") by {
      assert forall k :: 0 <= k <= |s| ==> !At(s, k, "month");
    }
    assert !Contains(s, "day") by {
      forall k | 0 <= k <= |s|
        ensures !At(s, k, "day")
      {
        if k + 3 <= |s| {
          assert s[k..k + 3][0] == s[k] != 'd';
        }
      }
    }
  }

  /** The system-test fixture: one "Software Engineer" entry of "3 years"
      against a minimum of 3 years with no maximum. */
  lemma ExperienceScenario()
    ensures var r := ExperienceMatch([ExperienceEntry("Software Engineer", "", Some("3 years"), "")],
                                     Some(ExperienceRequirement(3, None, "mid_level", "")));
      && r.experienceScore == 0.8
      && r.experienceAnalysis == ExperienceAnalysis(true, "mid_level", 3)
  {
    var d := "3 years";
    LowerOfLower(d);
    ThreeYears(d);
    var entries := [ExperienceEntry("Software Engineer", "", Some(d), "")];
    assert entries[..0] == [];
    assert TotalYears(entries) == 3.0;
  }
}

=== FILE: jd_parser.dfy ===
/** The job-description parser: text cleaning, then pattern-based extraction of
    the title, company, skills, qualifications, experience requirement,
    responsibilities and benefits.  Every extractor runs on the cleaned text,
    which is a single line. */
module JdParser {
  import opened Wrappers
  import opened Text
  import opened Patterns
  import opened Vocabulary
  import opened Documents

  // ---------------------------------------------------------------------------
  // Cleaning

  const JdHeaders: seq<Word> := ["job description", "job posting", "career opportunity", "we are hiring", "join our team"]

  /** Whitespace runs become one space, runs of newlines one newline, the posting
      headers are deleted case-insensitively, and the ends are stripped. */
  function CleanText(text: string): (r: string)
    ensures PlainSpaced(r) && IsStripped(r)
    ensures '\n' !in r
  {
    var spaced := CollapseSpaces(text);
    var lines := CollapseRuns(spaced, '\n');
    var bare := RemoveAllCi(lines, JdHeaders);
    var r := Strip(bare);
    PlainSpacedKept(spaced, lines);
    PlainSpacedKept(lines, bare);
    PlainSpacedKept(bare, r);
    r
  }

  // ---------------------------------------------------------------------------
  // Job title

  const TitleLabels: seq<Word> := ["position", "role", "title", "job"]
  const HiringHeads: seq<Word> := ["we are looking for", "seeking", "hiring"]
  const TitleAreas: seq<Word> := ["software", "data", "web", "mobile", "devops", "cloud", "ai", "ml"]
  const TitleRoles: seq<Word> := ["engineer", "developer", "analyst", "scientist", "architect", "consultant"]
  const TitleRanks: seq<Word> := ["senior", "junior", "lead", "principal"]
  const FallbackKeywords: seq<string> := ["engineer", "developer", "analyst", "scientist", "architect", "consultant", "manager"]
  const DefaultTitle: string := "Software Engineer"

  /** The line names a role: `any(k in line.lower() for k in keywords)`. */
  predicate NamesRole(line: string) {
    ContainsAny(Lower(line), FallbackKeywords)
  }

  /** `\s+to` at `e`, case-insensitively. */
  predicate ToFollows(s: string, e: nat)
    requires e <= |s|
  {
    var t := SpaceEnd(s, e);
    t > e && AtCi(s, t, "to")
  }

  /** The end of the lazy group `[^\n]+?` whose first character lies before `e`:
      the first position where `\s+to`, a newline or the end of the text follows. */
  function HiringGroupEnd(s: string, e: nat): (r: nat)
    requires e <= |s|
    ensures e <= r <= |s|
    ensures forall k :: e <= k < r ==> s[k] != '\n'
    ensures r == |s| || s[r] == '\n' || ToFollows(s, r)
    decreases |s| - e
  {
    if e == |s| || s[e] == '\n' || ToFollows(s, e) then e else HiringGroupEnd(s, e + 1)
  }

  /** Where the group of `\s+(?:a|an)?\s*([^\n]+?)` starts, for a head ending at
      `p` followed by the whitespace run `s[p..q)`.  The article is tried as `a`
      first, so the longer `an` never matches; when only whitespace follows, the
      backtracking puts the group on the article itself or on the last
      whitespace character that is not a newline. */
  function HiringGroupStart(s: string, p: nat, q: nat): (r: Option<nat>)
    requires p < q <= |s|
    requires q == |s| || !IsSpace(s[q])
    ensures r.Some? ==> p < r.value < |s| && s[r.value] != '\n'
  {
    if q < |s| then
      if LowerChar(s[q]) == 'a' then
        match SpaceLineGroup(s, q + 1)
        case Some(g) => Some(g.0)
        case None => Some(q)
      else Some(q)
    else LastNonNewline(s, p + 1, q)
  }

  /** `(?:we are looking for|seeking|hiring)\s+(?:a|an)?\s*([^\n]+?)(?:\s+to|$|\n)`
      at `i`: the group.  No two heads match at one position. */
  function HiringAt(s: string, i: nat): (r: Option<string>)
    ensures r.Some? ==> '\n' !in r.value && |r.value| > 0
  {
    match FirstAtCi(s, i, HiringHeads)
    case None => None
    case Some(h) =>
      var p := i + |h|;
      var q := SpaceEnd(s, p);
      if q == p then None
      else match HiringGroupStart(s, p, q)
        case None => None
        case Some(b) =>
          var e := HiringGroupEnd(s, b + 1);
          assert forall k :: b <= k < e ==> s[k] != '\n';
          Some(s[b..e])
  }

  /** `^([A-Z][^.\n]{5,50})(?:\n|$)` at `k`, case-insensitive so that the first
      character may be any letter: the group.  A shorter run would end before a
      character other than a newline, so only the whole run can match. */
  function CapitalLineAt(s: string, k: nat): (r: Option<string>)
    ensures r.Some? ==> '\n' !in r.value && 6 <= |r.value| <= 51
  {
    if k < |s| && (k == 0 || s[k - 1] == '\n') && IsLetter(s[k]) then
      var e := RunEnd(s, k + 1, {'.', '\n'});
      if 5 <= e - (k + 1) <= 50 && (e == |s| || s[e] == '\n') then
        assert forall j :: k <= j < e ==> s[j] != '\n';
        Some(s[k..e])
      else None
    else None
  }

  /** `(?:software|...|ml)\s+(?:engineer|...|consultant)` at `i`: the end of the
      match.  No two areas, and no two roles, match at one position. */
  function AreaRoleAt(s: string, i: nat): (r: Option<nat>)
    ensures r.Some? ==> i < r.value <= |s|
  {
    match FirstAtCi(s, i, TitleAreas)
    case None => None
    case Some(a) =>
      var q := SpaceEnd(s, i + |a|);
      if q == i + |a| then None
      else match FirstAtCi(s, q, TitleRoles)
        case None => None
        case Some(w) => Some(q + |w|)
  }

  /** `(?:senior|junior|lead|principal)\s+` followed by the area-role pattern. */
  function RankedRoleAt(s: string, i: nat): (r: Option<nat>)
    ensures r.Some? ==> i < r.value <= |s|
  {
    match FirstAtCi(s, i, TitleRanks)
    case None => None
    case Some(k) =>
      var q := SpaceEnd(s, i + |k|);
      if q == i + |k| then None else AreaRoleAt(s, q)
  }

  /** The first hit of the first of the five title patterns that has one, with
      the pattern's number: `findall(...)[0]` of the first non-empty `findall`. */
  function TitleHit(s: string): (r: Option<(nat, string)>)
    ensures r.Some? ==> 1 <= r.value.0 <= 5
  {
    match SearchLabel(s, TitleLabels, 0)
    case Some(g) => Some((1, g))
    case None =>
    match FirstHit(s, HiringAt, 0)
    case Some(h) => Some((2, h.1))
    case None =>
    match FirstHit(s, CapitalLineAt, 0)
    case Some(h) => Some((3, h.1))
    case None =>
    match FirstHit(s, AreaRoleAt, 0)
    case Some(h) => Some((4, s[h.0..h.1]))
    case None =>
    match FirstHit(s, RankedRoleAt, 0)
    case Some(h) => Some((5, s[h.0..h.1]))
    case None => None
  }

  /** Every text the ranked pattern matches also holds a match of the plain
      area-role pattern, which is tried first: the fifth pattern never decides
      the title. */
  lemma {:induction false} RankedTitleNeverChosen(s: string)
    ensures TitleHit(s).Some? ==> TitleHit(s).value.0 != 5
  {
    match FirstHit(s, RankedRoleAt, 0)
    case None =>
    case Some(h) =>
      var k := h.0;
      var rank := FirstAtCi(s, k, TitleRanks).value;
      var q := SpaceEnd(s, k + |rank|);
      assert AreaRoleAt(s, q).Some?;
      assert FirstHit(s, AreaRoleAt, 0).Some?;
  }

  /** The first stripped line among `lines` holding a role keyword. */
  function FallbackTitle(lines: seq<string>): (r: Option<string>)
    ensures r.Some? ==> IsStripped(r.value) && NamesRole(r.value)
    ensures r.Some? ==> exists k :: 0 <= k < |lines| && r.value == Strip(lines[k])
    ensures r.None? <==> forall k :: 0 <= k < |lines| ==> !NamesRole(Strip(lines[k]))
  {
    var stripped := StripAll(lines);
    match FirstIndex(stripped, NamesRole)
    case Some(k) => Some(stripped[k])
    case None => None
  }

  /** The stripped pattern hit if there is one; failing that, the first of
      `lines` naming a role; failing that, "Software Engineer". */
  function ChooseTitle(hit: Option<(nat, string)>, lines: seq<string>): (r: string)
    ensures IsStripped(r)
    ensures hit.Some? ==> r == Strip(hit.value.1)
    ensures hit.None? ==> r == DefaultTitle || NamesRole(r)
    ensures hit.None? && FallbackTitle(lines).None? ==> r == DefaultTitle
  {
    match hit
    case Some(h) => Strip(h.1)
    case None =>
      match FallbackTitle(lines)
      case Some(line) => line
      case None => DefaultTitle
  }

  /** The title: the stripped hit of the first title pattern that matches;
      failing that, the first of the first five lines naming a role; failing
      that, "Software Engineer". */
  function ExtractJobTitle(text: string): (r: string)
    ensures IsStripped(r)
    ensures TitleHit(text).Some? ==> r == Strip(TitleHit(text).value.1)
    ensures var fallback := FallbackTitle(Take(Split(text, "\n"), 5));
      TitleHit(text).None? && fallback.Some? ==> r == fallback.value && NamesRole(r)
    ensures TitleHit(text).None? && FallbackTitle(Take(Split(text, "\n"), 5)).None? ==> r == DefaultTitle
  {
    ChooseTitle(TitleHit(text), Take(Split(text, "\n"), 5))
  }

  /** On one line of text the fallback sees only that line: the title is the
      stripped text when it names a role, and the default otherwise. */
  lemma {:induction false} SingleLineTitleFallback(text: string)
    requires '\n' !in text
    requires TitleHit(text).None?
    ensures ExtractJobTitle(text) == (if NamesRole(Strip(text)) then Strip(text) else DefaultTitle)
  {
    var lines := Take(Split(text, "\n"), 5);
    OneLineSplit(text);
    assert lines == [text];
    assert Strip(lines[0]) == Strip(text);
    if NamesRole(Strip(text)) {
      assert FallbackTitle(lines).Some?;
    } else {
      assert FallbackTitle(lines).None?;
    }
  }

  // ---------------------------------------------------------------------------
  // Company

  const CompanyLabels: seq<Word> := ["at", "company", "organization"]
  const JoinHeads: seq<Word> := ["join", "work with"]
  const CompanyVerbs: seq<Word> := ["is", "seeks", "hiring"]
  const LocationLabels: seq<Word> := ["location", "based in", "office in"]

  /** A one-line literal with no whitespace at either end. */
  type Token = w: Word | IsStripped(w) && '\n' !in w witness "a"

  const Cities: seq<Token> := ["hyderabad", "bangalore", "pune", "delhi", "mumbai", "chennai", "kolkata", "gurgaon", "noida"]
  const WorkModes: seq<Token> := ["remote", "hybrid", "onsite"]

  /** `(?:join|work with)\s+([A-Z][^.\n]+)` at `i`, case-insensitive: the group. */
  function JoinAt(s: string, i: nat): (r: Option<string>)
    ensures r.Some? ==> '\n' !in r.value && |r.value| >= 2 && IsLetter(r.value[0])
  {
    match FirstAtCi(s, i, JoinHeads)
    case None => None
    case Some(h) =>
      var q := SpaceEnd(s, i + |h|);
      if q > i + |h| && q < |s| && IsLetter(s[q]) then
        var e := RunEnd(s, q + 1, {'.', '\n'});
        if e > q + 1 then
          assert forall j :: q <= j < e ==> s[j] != '\n';
          Some(s[q..e])
        else None
      else None
  }

  /** `\s+(?:verbs)` at `m`, case-insensitive. */
  predicate VerbFollows(s: string, m: nat, verbs: seq<Word>)
    requires m <= |s|
  {
    var t := SpaceEnd(s, m);
    t > m && FirstAtCi(s, t, verbs).Some?
  }

  /** The largest `m` in `[lo, hi]` followed by one of `verbs`. */
  function LastVerbBefore(s: string, lo: nat, hi: nat, verbs: seq<Word>): (r: Option<nat>)
    requires lo <= hi <= |s|
    ensures r.Some? ==> lo <= r.value <= hi && VerbFollows(s, r.value, verbs)
    ensures r.Some? ==> forall m :: r.value < m <= hi ==> !VerbFollows(s, m, verbs)
    ensures r.None? ==> forall m :: lo <= m <= hi ==> !VerbFollows(s, m, verbs)
    decreases hi - lo
  {
    if VerbFollows(s, hi, verbs) then Some(hi)
    else if hi == lo then None
    else LastVerbBefore(s, lo, hi - 1, verbs)
  }

  /** `^([A-Z][^.\n]{2,30})(?:\s+is|\s+seeks|\s+hiring)` at `k`, case-insensitive:
      the group.  The greedy run gives characters back until a verb follows. */
  function LeadingNameAt(s: string, k: nat): (r: Option<string>)
    ensures r.Some? ==> '\n' !in r.value && 3 <= |r.value| <= 31 && IsLetter(r.value[0])
  {
    if k < |s| && (k == 0 || s[k - 1] == '\n') && IsLetter(s[k]) then
      var e := RunEnd(s, k + 1, {'.', '\n'});
      var hi := if e - (k + 1) > 30 then k + 31 else e;
      if hi < k + 3 then None
      else match LastVerbBefore(s, k + 3, hi, CompanyVerbs)
        case Some(m) =>
          assert forall j :: k <= j < m ==> s[j] != '\n';
          Some(s[k..m])
        case None => None
    else None
  }

  /** The first hit of the first company-name pattern that has one. */
  function CompanyNameHit(s: string): (r: Option<string>)
    ensures r.Some? ==> '\n' !in r.value
    ensures r.Some? && SearchLabel(s, CompanyLabels, 0).None? ==> |r.value| > 0 && IsLetter(r.value[0])
  {
    match SearchLabel(s, CompanyLabels, 0)
    case Some(g) => Some(g)
    case None =>
    match FirstHit(s, JoinAt, 0)
    case Some(h) => Some(h.1)
    case None =>
    match FirstHit(s, LeadingNameAt, 0)
    case Some(h) => Some(h.1)
    case None => None
  }

  /** Text that is, up to case, one of the cities or work modes. */
  predicate IsPlaceWord(v: string) {
    exists w :: (w in Cities || w in WorkModes) && Lower(v) == w
  }

  /** Text that lower-cases to a one-line token is on one line. */
  lemma OneLineLikeToken(v: string, w: Token)
    requires Lower(v) == w
    ensures '\n' !in v
  {
    forall k | 0 <= k < |v|
      ensures v[k] != '\n'
    {
      assert LowerChar(v[k]) == w[k];
    }
  }

  /** The leftmost city mention, or failing that the leftmost work mode. */
  function PlaceWordHit(s: string): (r: Option<string>)
    ensures r.Some? ==> IsPlaceWord(r.value) && '\n' !in r.value
  {
    var city := SearchLiteralsCi(s, Cities, 0);
    if city.Some? then
      var w :| w in Cities && Lower(city.value) == w;
      OneLineLikeToken(city.value, w);
      city
    else
      var mode := SearchLiteralsCi(s, WorkModes, 0);
      if mode.Some? then
        var w :| w in WorkModes && Lower(mode.value) == w;
        OneLineLikeToken(mode.value, w);
        mode
      else None
  }

  /** The first hit of the first location pattern that has one. */
  function LocationHit(s: string): (r: Option<string>)
    ensures r.Some? ==> '\n' !in r.value
    ensures r.Some? && SearchLabel(s, LocationLabels, 0).None? ==> IsPlaceWord(r.value)
  {
    match SearchLabel(s, LocationLabels, 0)
    case Some(g) => Some(g)
    case None => PlaceWordHit(s)
  }

  /** Lower-casing changes no character's whitespace status, so text whose
      lower-case form is a token is itself stripped. */
  lemma StrippedLikeToken(v: string, w: Token)
    requires Lower(v) == w
    ensures IsStripped(v)
  {
    assert LowerChar(v[0]) == w[0];
    assert LowerChar(v[|v| - 1]) == w[|w| - 1];
  }

  lemma LocationWordStripped(text: string)
    ensures SearchLabel(text, LocationLabels, 0).None? && LocationHit(text).Some? ==>
      IsStripped(LocationHit(text).value)
  {
    if SearchLabel(text, LocationLabels, 0).None? && LocationHit(text).Some? {
      var w :| (w in Cities || w in WorkModes) && Lower(LocationHit(text).value) == w;
      StrippedLikeToken(LocationHit(text).value, w);
    }
  }

  /** The company name: the stripped hit of the first name pattern with one. */
  function CompanyName(text: string): (r: string)
    ensures IsStripped(r) && '\n' !in r
    ensures CompanyNameHit(text).None? ==> r == ""
    ensures CompanyNameHit(text).Some? ==> r == Strip(CompanyNameHit(text).value)
    ensures CompanyNameHit(text).Some? && SearchLabel(text, CompanyLabels, 0).None? ==> r != ""
  {
    match CompanyNameHit(text)
    case Some(n) => Strip(n)
    case None => ""
  }

  /** The location: the stripped hit of the first location pattern with one. */
  function CompanyLocation(text: string): (r: string)
    ensures IsStripped(r) && '\n' !in r
    ensures LocationHit(text).None? ==> r == ""
    ensures LocationHit(text).Some? ==> r == Strip(LocationHit(text).value)
    ensures SearchLabel(text, LocationLabels, 0).None? && r != "" ==> IsPlaceWord(r)
  {
    LocationWordStripped(text);
    match LocationHit(text)
    case Some(l) => Strip(l)
    case None => ""
  }

  /** The company record: name and location from the first pattern with a hit,
      stripped; industry is never filled in. */
  function ExtractCompanyInfo(text: string): (r: CompanyInfo)
    ensures r.industry == ""
    ensures r.name == CompanyName(text) && r.location == CompanyLocation(text)
  {
    CompanyInfo(CompanyName(text), CompanyLocation(text), "")
  }

  /** A labelled company line names the company: "Company: Acme" gives "Acme",
      whatever the later patterns would have found. */
  lemma LabelledCompany(s: string)
    requires s == "Company: Acme"
    ensures ExtractCompanyInfo(s).name == "Acme"
  {
    assert !AtCi(s, 0, "at") by { assert Lower(s[0..2])[0] == 'c'; }
    assert s[0..7] == "Company";
    assert Lower("Company") == "company";
    assert AtCi(s, 0, "company") && s[7] == ':';
    assert IsSpace(s[8]) && !IsSpace(s[9]);
    assert SpaceEnd(s, 8) == 9;
    assert RunEnd(s, 9, {'\n'}) == |s|;
    assert LabelGroups(s, 0, CompanyLabels, 1) == Some(s[9..13]);
    assert s[9] == 'A' && s[10] == 'c' && s[11] == 'm' && s[12] == 'e';
    assert s[9..13] == "Acme";
    assert CompanyLabels[0] == "at" && !AtCi(s, 0, CompanyLabels[0]);
    assert LabelGroups(s, 0, CompanyLabels, 0) == Some("Acme");
    assert SearchLabel(s, CompanyLabels, 0) == Some("Acme");
    assert IsStripped("Acme");
  }

  // ---------------------------------------------------------------------------
  // Sections and skills

  const RequiredSections: seq<Section> := [
    Section(["required", "must have", "mandatory", "essential", "core"], ["skills", "qualifications", "requirements", "requirement"], true),
    Section(["candidate must have", "candidates should have", "you must have"], [], true),
    Section(["minimum", "basic"], ["requirements", "requirement", "qualifications", "qualification"], true)]

  const PreferredSections: seq<Section> := [
    Section(["preferred", "good to have", "nice to have", "bonus", "plus", "advantage"], [], true),
    Section(["additional", "extra", "optional"], ["skills", "qualifications", "qualification"], true),
    Section(["would be great", "ideal candidate"], [], true)]

  const ResponsibilitySections: seq<Section> := [
    Section(["responsibilities", "duties", "what you will do", "key responsibilities", "key responsibilitie"], [], true),
    Section(["role and responsibilities", "role and responsibilitie", "job responsibilities", "job responsibilitie"], [], true)]

  const BenefitSections: seq<Section> := [
    Section(["benefits", "perks", "compensation", "package"], [], true),
    Section(["we offer", "what we offer"], [], true),
    Section(["competitive", "attractive"], ["salary", "package", "compensation"], false)]

  /** `findall` of each section pattern on `lower`, pattern by pattern. */
  function SectionTexts(lower: string, secs: seq<Section>): seq<string>
    decreases |secs|
  {
    if |secs| == 0 then [] else FindSections(lower, secs[0], 0) + SectionTexts(lower, secs[1..])
  }

  /** No head of any of `secs` occurs in `lower`. */
  predicate NoHeading(lower: string, secs: seq<Section>) {
    forall j, k, h :: 0 <= j < |secs| && 0 <= k < |lower| && h in secs[j].heads ==> !At(lower, k, h)
  }

  lemma {:induction false} NoHeadingNoTexts(lower: string, secs: seq<Section>)
    requires NoHeading(lower, secs)
    ensures SectionTexts(lower, secs) == []
    decreases |secs|
  {
    if |secs| > 0 {
      NoHeadNoSections(lower, secs[0], 0);
      assert NoHeading(lower, secs[1..]) by {
        forall j, k, h | 0 <= j < |secs| - 1 && 0 <= k < |lower| && h in secs[1..][j].heads
          ensures !At(lower, k, h)
        {
          assert secs[1..][j] == secs[j + 1];
        }
      }
      NoHeadingNoTexts(lower, secs[1..]);
    }
  }

  /** `_extract_skills_from_text` on each text in turn, hits concatenated. */
  function HitsInEach(texts: seq<string>): (r: seq<string>)
    ensures forall w :: w in r ==> InVocabulary(w, JdSkillPatterns) && IsLower(w)
  {
    if |texts| == 0 then [] else SkillHits(texts[0], JdSkillPatterns) + HitsInEach(texts[1..])
  }

  /** Required skills: the vocabulary hits inside every required-skills section
      and in the whole text, lower-cased and without duplicates. */
  function ExtractRequiredSkills(text: string): (r: seq<string>)
    ensures NoDuplicates(r)
    ensures forall w :: w in r ==> IsLower(w) && InVocabulary(w, JdSkillPatterns)
    ensures forall w :: w in r <==>
      w in HitsInEach(SectionTexts(Lower(text), RequiredSections)) || w in SkillHits(text, JdSkillPatterns)
  {
    DistinctSkills(HitsInEach(SectionTexts(Lower(text), RequiredSections)) + SkillHits(text, JdSkillPatterns))
  }

  /** Without a required-skills heading the required skills are exactly the
      vocabulary words the whole text mentions. */
  lemma RequiredWithoutHeading(text: string)
    requires NoHeading(Lower(text), RequiredSections)
    ensures forall w :: w in ExtractRequiredSkills(text) <==> w in SkillHits(text, JdSkillPatterns)
  {
    NoHeadingNoTexts(Lower(text), RequiredSections);
  }

  /** Preferred skills: the vocabulary hits inside the preferred-skills sections,
      lower-cased and without duplicates. */
  function ExtractPreferredSkills(text: string): (r: seq<string>)
    ensures NoDuplicates(r)
    ensures forall w :: w in r ==> IsLower(w) && InVocabulary(w, JdSkillPatterns)
  {
    DistinctSkills(HitsInEach(SectionTexts(Lower(text), PreferredSections)))
  }

  /** Skills mentioned outside any preferred-skills section are not preferred:
      with no such heading there are none. */
  lemma PreferredNeedsHeading(text: string)
    requires NoHeading(Lower(text), PreferredSections)
    ensures ExtractPreferredSkills(text) == []
  {
    NoHeadingNoTexts(Lower(text), PreferredSections);
  }

  // ---------------------------------------------------------------------------
  // Responsibilities and benefits

  const PointSeparators: set<char> := {'•', '-', '*', '\n'}

  /** A kept fragment: stripped, longer than `minLen`, free of separators. */
  predicate IsPoint(p: string, minLen: nat) {
    IsStripped(p) && |p| > minLen && Clear(p, PointSeparators)
  }

  /** `p` holds none of `seps`. */
  predicate Clear(p: string, seps: set<char>) {
    forall i :: 0 <= i < |p| ==> p[i] !in seps
  }

  /** Stripping adds no character. */
  lemma StripClear(s: string, seps: set<char>)
    requires Clear(s, seps)
    ensures Clear(Strip(s), seps)
  {
  }

  /** Every stripped piece is stripped and still clear of `seps`. */
  lemma StripAllClear(pieces: seq<string>, seps: set<char>)
    requires forall k :: 0 <= k < |pieces| ==> Clear(pieces[k], seps)
    ensures forall p :: p in StripAll(pieces) ==> IsStripped(p) && Clear(p, seps)
  {
    var stripped := StripAll(pieces);
    forall p | p in stripped
      ensures IsStripped(p) && Clear(p, seps)
    {
      var k :| 0 <= k < |stripped| && stripped[k] == p;
      StripClear(pieces[k], seps);
    }
  }

  /** The elements of `xs` longer than `minLen`, in order. */
  function LongerThan(xs: seq<string>, minLen: nat): (r: seq<string>)
    ensures forall p :: p in r <==> p in xs && |p| > minLen
  {
    if |xs| == 0 then []
    else (if |xs[0]| > minLen then [xs[0]] else []) + LongerThan(xs[1..], minLen)
  }

  /** The stripped pieces longer than `minLen`, in order. */
  function LongPieces(pieces: seq<string>, minLen: nat): (r: seq<string>)
    requires forall k :: 0 <= k < |pieces| ==> Clear(pieces[k], PointSeparators)
    ensures forall p :: p in r ==> IsPoint(p, minLen)
    ensures forall k :: 0 <= k < |pieces| && |Strip(pieces[k])| > minLen ==> Strip(pieces[k]) in r
  {
    var stripped := StripAll(pieces);
    StripAllClear(pieces, PointSeparators);
    assert forall k :: 0 <= k < |pieces| ==> Strip(pieces[k]) in stripped;
    LongerThan(stripped, minLen)
  }

  /** `re.split(r'[•\-\*\n]', t)` of each text, stripped, keeping pieces longer
      than `minLen`. */
  function Points(texts: seq<string>, minLen: nat): (r: seq<string>)
    ensures forall p :: p in r ==> IsPoint(p, minLen)
  {
    if |texts| == 0 then []
    else LongPieces(SplitAny(texts[0], PointSeparators), minLen) + Points(texts[1..], minLen)
  }

  /** Responsibilities: the bullet fragments of the responsibility sections,
      each stripped and longer than 10 characters. */
  function ExtractResponsibilities(text: string): (r: seq<string>)
    ensures forall p :: p in r ==> IsPoint(p, 10)
  {
    Points(SectionTexts(Lower(text), ResponsibilitySections), 10)
  }

  /** Benefits: the bullet fragments of the benefit sections and the
      "competitive salary"-style phrases, each stripped and longer than 5. */
  function ExtractBenefits(text: string): (r: seq<string>)
    ensures forall p :: p in r ==> IsPoint(p, 5)
  {
    Points(SectionTexts(Lower(text), BenefitSections), 5)
  }

  /** Without a section heading there is nothing to list. */
  lemma ResponsibilitiesNeedHeading(text: string)
    requires NoHeading(Lower(text), ResponsibilitySections)
    ensures ExtractResponsibilities(text) == []
  {
    NoHeadingNoTexts(Lower(text), ResponsibilitySections);
  }

  lemma BenefitsNeedHeading(text: string)
    requires NoHeading(Lower(text), BenefitSections)
    ensures ExtractBenefits(text) == []
  {
    NoHeadingNoTexts(Lower(text), BenefitSections);
  }

  // ---------------------------------------------------------------------------
  // Experience requirement

  /** One alternative of a level pattern: a phrase, or `<span>\s*years?`. */
  datatype LevelAlt = Phrase(w: Word) | YearsSpan(span: Word)

  const LevelPatterns: seq<seq<LevelAlt>> := [
    [Phrase("entry level"), Phrase("junior"), Phrase("fresher"), YearsSpan("0-2")],
    [Phrase("mid level"), Phrase("intermediate"), YearsSpan("2-5")],
    [Phrase("senior"), Phrase("lead"), YearsSpan("5-8")],
    [Phrase("principal"), Phrase("architect"), YearsSpan("8+")]]

  /** The end of `a` matched at `i`, if it matches. */
  function LevelAltAt(s: string, i: nat, a: LevelAlt): (r: Option<nat>)
    ensures r.Some? ==> i < r.value <= |s|
  {
    match a
    case Phrase(w) => if At(s, i, w) then Some(i + |w|) else None
    case YearsSpan(span) =>
      if At(s, i, span) then
        var q := SpaceEnd(s, i + |span|);
        if At(s, q, "year") then Some(if q + 4 < |s| && s[q + 4] == 's' then q + 5 else q + 4) else None
      else None
  }

  /** The end of the first alternative of `alts` that matches at `i`. */
  function LevelAltsAt(s: string, i: nat, alts: seq<LevelAlt>): (r: Option<nat>)
    ensures r.Some? ==> i < r.value <= |s|
  {
    if |alts| == 0 then None
    else match LevelAltAt(s, i, alts[0])
      case Some(e) => Some(e)
      case None => LevelAltsAt(s, i, alts[1..])
  }

  /** `re.search(pattern, lower).group(0)`. */
  function LevelSearch(lower: string, alts: seq<LevelAlt>): (r: Option<string>)
    ensures r.Some? ==> |r.value| > 0
  {
    match FirstHit(lower, (s: string, i: nat) => LevelAltsAt(s, i, alts), 0)
    case Some(h) => Some(lower[h.0..h.1])
    case None => None
  }

  /** The matched text of the first level pattern that occurs, or "". */
  function LevelOf(lower: string, pats: seq<seq<LevelAlt>>): (r: string)
    ensures r == "" <==> forall k :: 0 <= k < |pats| ==> LevelSearch(lower, pats[k]).None?
    ensures r != "" ==> exists k :: 0 <= k < |pats| && LevelSearch(lower, pats[k]) == Some(r)
  {
    if |pats| == 0 then ""
    else match LevelSearch(lower, pats[0])
      case Some(t) => t
      case None =>
        var r := LevelOf(lower, pats[1..]);
        assert forall k :: 1 <= k < |pats| ==> pats[k] == pats[1..][k - 1];
        r
  }

  const YearUnits: seq<Word> := ["year", "yr"]

  predicate HasDigit(s: string) {
    exists k :: 0 <= k < |s| && IsDigit(s[k])
  }

  /** `(\d+)\s*[-+]\s*(\d+)\s*(?:years?|yrs?)` at `i`: both numbers.  Each greedy
      run is followed by a character it cannot contain, so only the whole runs
      are tried. */
  function RangeAt(s: string, i: nat): (r: Option<(nat, nat)>)
    ensures r.Some? ==> i < |s| && IsDigit(s[i])
  {
    if i < |s| && IsDigit(s[i]) then
      var d := DigitEnd(s, i);
      var p := SpaceEnd(s, d);
      if p < |s| && (s[p] == '-' || s[p] == '+') then
        var q := SpaceEnd(s, p + 1);
        if q < |s| && IsDigit(s[q]) then
          var d2 := DigitEnd(s, q);
          if FirstAt(s, SpaceEnd(s, d2), YearUnits).Some? then Some((DigitsValue(s[i..d]), DigitsValue(s[q..d2]))) else None
        else None
      else None
    else None
  }

  /** The end of `(?:years?|yrs?)` at `u`, with its optional `s`. */
  function UnitEnd(s: string, u: nat): (r: Option<nat>)
    ensures r.Some? ==> u < r.value <= |s|
  {
    match FirstAt(s, u, YearUnits)
    case None => None
    case Some(w) =>
      var e := u + |w|;
      Some(if e < |s| && s[e] == 's' then e + 1 else e)
  }

  const AtLeastHeads: seq<Word> := ["minimum", "at least"]

  /** `(?:minimum|at least)\s+(\d+)\s+(?:years?|yrs?)` at `i`: where the digits
      start and end, and where the unit ends. */
  function AtLeastYearsAt(s: string, i: nat): (r: Option<(nat, nat, nat)>)
    ensures r.Some? ==> i < r.value.0 < r.value.1 < r.value.2 <= |s|
    ensures r.Some? ==> forall k :: r.value.0 <= k < r.value.1 ==> IsDigit(s[k])
  {
    match FirstAt(s, i, AtLeastHeads)
    case None => None
    case Some(h) =>
      var p := i + |h|;
      var q := SpaceEnd(s, p);
      if q > p && q < |s| && IsDigit(s[q]) then
        var d := DigitEnd(s, q);
        var u := SpaceEnd(s, d);
        if u > d then
          match UnitEnd(s, u)
          case Some(e) => Some((q, d, e))
          case None => None
        else None
      else None
  }

  function AtLeastAt(s: string, i: nat): (r: Option<nat>)
    ensures r.Some? ==> HasDigit(s)
  {
    match AtLeastYearsAt(s, i)
    case Some(m) => Some(DigitsValue(s[m.0..m.1]))
    case None => None
  }

  /** `(\d+)\+\s*(?:years?|yrs?)` at `i`. */
  function PlusAt(s: string, i: nat): (r: Option<nat>)
    ensures r.Some? ==> HasDigit(s)
  {
    if i < |s| && IsDigit(s[i]) then NumberUnitAt(s, i, "+", YearUnits) else None
  }

  /** The end of `(?:of\s+)?(?:experience|exp)` at `w`.  Taking `of` is tried
      first; without it the word would have to start at the `o`, which it
      cannot, and `experience` begins with `exp`. */
  function ExpWordEnd(s: string, w: nat): (r: Option<nat>)
    requires w <= |s|
    ensures r.Some? ==> w < r.value <= |s|
  {
    var x := if At(s, w, "of") then SpaceEnd(s, w + 2) else w;
    if At(s, w, "of") && x > w + 2 then
      match FirstAt(s, x, ["experience", "exp"])
      case Some(t) => Some(x + |t|)
      case None => None
    else match FirstAt(s, w, ["experience", "exp"])
      case Some(t) => Some(w + |t|)
      case None => None
  }

  /** `(\d+)\s*(?:years?|yrs?)\s+(?:of\s+)?(?:experience|exp)` at `i`. */
  function ExperienceYearsAt(s: string, i: nat): (r: Option<nat>)
    ensures r.Some? ==> HasDigit(s)
  {
    if i < |s| && IsDigit(s[i]) then
      var d := DigitEnd(s, i);
      match UnitEnd(s, SpaceEnd(s, d))
      case None => None
      case Some(e) =>
        var w := SpaceEnd(s, e);
        if w > e && ExpWordEnd(s, w).Some? then Some(DigitsValue(s[i..d])) else None
    else None
  }

  /** The years of the first of the four year patterns with a hit: a range
      gives both bounds, the others only the minimum; none gives (0, None). */
  function YearsOf(lower: string): (r: (nat, Option<nat>))
    ensures r.1.Some? <==> FirstHit(lower, RangeAt, 0).Some?
    ensures FirstHit(lower, RangeAt, 0).Some? ==>
      r.0 == FirstHit(lower, RangeAt, 0).value.1.0 && r.1 == Some(FirstHit(lower, RangeAt, 0).value.1.1)
    ensures FirstHit(lower, RangeAt, 0).None? && FirstHit(lower, AtLeastAt, 0).Some? ==>
      r == (FirstHit(lower, AtLeastAt, 0).value.1, None)
    ensures FirstHit(lower, RangeAt, 0).None? && FirstHit(lower, AtLeastAt, 0).None? && FirstHit(lower, PlusAt, 0).Some? ==>
      r == (FirstHit(lower, PlusAt, 0).value.1, None)
    ensures (FirstHit(lower, RangeAt, 0).None? && FirstHit(lower, AtLeastAt, 0).None? && FirstHit(lower, PlusAt, 0).None? &&
             FirstHit(lower, ExperienceYearsAt, 0).Some?) ==>
      r == (FirstHit(lower, ExperienceYearsAt, 0).value.1, None)
    ensures (FirstHit(lower, RangeAt, 0).None? && FirstHit(lower, AtLeastAt, 0).None? && FirstHit(lower, PlusAt, 0).None? &&
             FirstHit(lower, ExperienceYearsAt, 0).None?) ==>
      r == (0, None)
    ensures !HasDigit(lower) ==> r == (0, None)
  {
    match FirstHit(lower, RangeAt, 0)
    case Some(h) => (h.1.0, Some(h.1.1))
    case None =>
    match FirstHit(lower, AtLeastAt, 0)
    case Some(h) => (h.1, None)
    case None =>
    match FirstHit(lower, PlusAt, 0)
    case Some(h) => (h.1, None)
    case None =>
    match FirstHit(lower, ExperienceYearsAt, 0)
    case Some(h) => (h.1, None)
    case None => (0, None)
  }

  /** "3+ years" is not a range, because no second number follows the sign: the
      plus pattern reads it as a minimum of 3 with no maximum. */
  lemma PlusYears(s: string)
    requires s == "3+ years"
    ensures YearsOf(s) == (3, None)
  {
    assert IsDigit(s[0]) && !IsDigit(s[1]) && !IsSpace(s[1]) && IsSpace(s[2]) && !IsSpace(s[3]);
    assert DigitEnd(s, 0) == 1 && SpaceEnd(s, 1) == 1 && SpaceEnd(s, 2) == 3;
    assert forall k :: 1 <= k < |s| ==> !IsDigit(s[k]);
    assert RangeAt(s, 0).None?;
    assert FirstHit(s, RangeAt, 0).None?;
    forall k | 0 <= k <= |s|
      ensures AtLeastAt(s, k).None?
    {
      forall h | h in AtLeastHeads
        ensures !At(s, k, h)
      {
        if k + |h| <= |s| {
          assert s[k..k + |h|][0] == s[k];
          assert s[k..k + |h|][1] == s[k + 1];
        }
      }
    }
    assert FirstHit(s, AtLeastAt, 0).None?;
    assert At(s, 1, "+");
    assert s[3..7] == "year";
    assert FirstAt(s, 3, YearUnits) == Some("year");
    assert s[0..1] == "3";
    assert DigitsValue("3") == 3;
    assert PlusAt(s, 0) == Some(3);
  }

  /** A range anywhere wins over an earlier "N+ years": the range pattern is
      tried first over the whole text.  With digit-free text around them,
      "3+ years experience" followed by "3-5 years" gives 3 to 5 years, as in
      the system-test posting. */
  lemma RangeBeatsEarlierPlus(a: string, b: string, c: string, s: string)
    requires forall i :: 0 <= i < |a| ==> !IsDigit(a[i])
    requires forall i :: 0 <= i < |b| ==> !IsDigit(b[i])
    requires s == a + "3+ years experience" + b + "3-5 years" + c
    ensures YearsOf(s) == (3, Some(5))
  {
    var m := |a|;
    var k := |a| + 19 + |b|;
    PlusNoRange(a, b, c, s);
    assert s[k..k + 9] == "3-5 years";
    RangeHit(s, k);
    forall j | 0 <= j < k
      ensures RangeAt(s, j).None?
    {
      if j != m {
        DigitsAround(a, b, c, s, j);
      }
    }
    var h := FirstHit(s, RangeAt, 0);
    assert h.Some?;
    assert h.value.0 == k;
    assert h.value.1 == (3, 5);
  }

  /** Only the "3" of "3+" is a digit before the range. */
  lemma DigitsAround(a: string, b: string, c: string, s: string, j: nat)
    requires forall i :: 0 <= i < |a| ==> !IsDigit(a[i])
    requires forall i :: 0 <= i < |b| ==> !IsDigit(b[i])
    requires s == a + "3+ years experience" + b + "3-5 years" + c
    requires j < |a| + 19 + |b| && j != |a|
    ensures !IsDigit(s[j])
  {
    var plus := "3+ years experience";
    if j < |a| {
      assert s[j] == a[j];
    } else if j < |a| + 19 {
      assert s[j] == plus[j - |a|];
    } else {
      assert s[j] == b[j - |a| - 19];
    }
  }

  /** The "3+" starts no range: no digit follows the sign. */
  lemma PlusNoRange(a: string, b: string, c: string, s: string)
    requires s == a + "3+ years experience" + b + "3-5 years" + c
    ensures RangeAt(s, |a|).None?
  {
    var m := |a|;
    var t := s[m..m + 4];
    assert t == "3+ y";
    assert s[m] == t[0] && s[m + 1] == t[1] && s[m + 2] == t[2] && s[m + 3] == t[3];
    assert DigitEnd(s, m + 1) == m + 1;
    assert DigitEnd(s, m) == m + 1;
    assert SpaceEnd(s, m + 1) == m + 1;
    assert SpaceEnd(s, m + 3) == m + 3;
    assert SpaceEnd(s, m + 2) == m + 3;
  }

  /** "3-5 years" is a range from 3 to 5. */
  lemma RangeHit(s: string, k: nat)
    requires k + 9 <= |s| && s[k..k + 9] == "3-5 years"
    ensures RangeAt(s, k) == Some((3, 5))
  {
    var t := s[k..k + 9];
    assert s[k] == t[0] && s[k + 1] == t[1] && s[k + 2] == t[2] && s[k + 3] == t[3] && s[k + 4] == t[4];
    assert DigitEnd(s, k + 1) == k + 1;
    assert DigitEnd(s, k) == k + 1;
    assert SpaceEnd(s, k + 1) == k + 1;
    assert SpaceEnd(s, k + 2) == k + 2;
    assert DigitEnd(s, k + 3) == k + 3;
    assert DigitEnd(s, k + 2) == k + 3;
    assert SpaceEnd(s, k + 4) == k + 4;
    assert SpaceEnd(s, k + 3) == k + 4;
    assert s[k + 5] == t[5] && s[k + 6] == t[6] && s[k + 7] == t[7];
    assert s[k + 4..k + 8] == "year";
    assert FirstAt(s, k + 4, YearUnits) == Some("year");
    assert s[k..k + 1] == "3" && s[k + 2..k + 3] == "5";
    assert DigitsValue("3") == 3 && DigitsValue("5") == 5;
    assert RangeAt(s, k) == Some((DigitsValue(s[k..k + 1]), DigitsValue(s[k + 2..k + 3])));
  }

  /** The experience requirement: level from the first level pattern that occurs,
      years from the first year pattern with a hit, no description. */
  function ExtractExperienceRequirements(text: string): (r: ExperienceRequirement)
    ensures r.description == ""
    ensures r.level == "" <==> forall k :: 0 <= k < |LevelPatterns| ==> LevelSearch(Lower(text), LevelPatterns[k]).None?
    ensures r.level != "" ==> exists k :: 0 <= k < |LevelPatterns| && LevelSearch(Lower(text), LevelPatterns[k]) == Some(r.level)
    ensures r.level == LevelOf(Lower(text), LevelPatterns)
    ensures (r.minYears, r.maxYears) == YearsOf(Lower(text))
    ensures r.maxYears.Some? <==> FirstHit(Lower(text), RangeAt, 0).Some?
    ensures !HasDigit(Lower(text)) ==> r.minYears == 0 && r.maxYears.None?
  {
    var lower := Lower(text);
    var years := YearsOf(lower);
    ExperienceRequirement(years.0, years.1, LevelOf(lower, LevelPatterns), "")
  }

  // ---------------------------------------------------------------------------
  // Qualifications

  const Subjects: seq<Atom> := [Lit("computer science"), Lit("engineering"), Lit("technology"), Lit("it"), Lit("software")]

  const DegreeInSubject: LazyPattern := LazyPattern(DegreeKeys, [Connectives, Subjects])
  const AbbreviatedDegreeInSubject: LazyPattern := LazyPattern(AbbreviatedDegreeKeys, [Connectives, Subjects])
  const DegreeWordInSubject: LazyPattern := LazyPattern(["degree", "graduation"], [Connectives, Subjects])

  const ExperienceHeads: seq<Word> := ["years of experience", "year of experience", "experience level"]

  /** The end of the run of `+`, `-` and whitespace at `p` (`[\+\-\s]*`). */
  function SignSpaceEnd(s: string, p: nat): (r: nat)
    requires p <= |s|
    ensures p <= r <= |s|
    decreases |s| - p
  {
    if p < |s| && (s[p] == '+' || s[p] == '-' || IsSpace(s[p])) then SignSpaceEnd(s, p + 1) else p
  }

  /** `(?:years? of experience|experience level):?\s*(\d+[\+\-\s]*(?:years?|yrs?))`
      at `i`: the end of the match and the group. */
  function ExperiencePhraseAt(s: string, i: nat): (r: Option<(nat, string)>)
    ensures r.Some? ==> i < r.value.0 <= |s| && |r.value.1| > 0 && IsDigit(r.value.1[0])
  {
    match FirstAt(s, i, ExperienceHeads)
    case None => None
    case Some(h) =>
      var p := i + |h|;
      var q := SpaceEnd(s, if p < |s| && s[p] == ':' then p + 1 else p);
      if q < |s| && IsDigit(s[q]) then
        match UnitEnd(s, SignSpaceEnd(s, DigitEnd(s, q)))
        case Some(e) => Some((e, s[q..e]))
        case None => None
      else None
  }

  /** `(?:minimum|at least)\s+(\d+)\s+(?:years?|yrs?)\s+(?:of\s+)?(?:experience|exp)`
      at `i`: the end of the match and the digits. */
  function AtLeastExperienceAt(s: string, i: nat): (r: Option<(nat, string)>)
    ensures r.Some? ==> i < r.value.0 <= |s| && |r.value.1| > 0 && IsDigit(r.value.1[0])
  {
    match AtLeastYearsAt(s, i)
    case None => None
    case Some(m) =>
      var w := SpaceEnd(s, m.2);
      if w > m.2 then
        match ExpWordEnd(s, w)
        case Some(f) => Some((f, s[m.0..m.1]))
        case None => None
      else None
  }

  const DegreePatterns: seq<LazyPattern> := [DegreeInSubject, AbbreviatedDegreeInSubject, DegreeWordInSubject]

  /** A phrase led by a key of one of the degree patterns. */
  predicate DegreeLed(q: string) {
    LedBy(q, DegreePatterns)
  }

  /** A phrase that starts with a digit. */
  predicate DigitLed(q: string) {
    |q| > 0 && IsDigit(q[0])
  }

  /** Qualifications: the degree phrases of the three degree patterns, then the
      year phrases of the two experience patterns, all on the lower-cased text. */
  function ExtractQualifications(text: string): (r: seq<string>)
    ensures forall q :: q in r ==> DegreeLed(q) || DigitLed(q)
  {
    var degrees := DegreePhrases(Lower(text));
    var years := YearPhrases(Lower(text));
    ConcatEither(degrees, years, DegreeLed, DigitLed);
    degrees + years
  }

  /** The degree phrases come first and every later item starts with a digit. */
  lemma QualificationsOrder(text: string)
    ensures var r := ExtractQualifications(text);
      var n := |DegreePhrases(Lower(text))|;
      n <= |r| &&
      (forall k :: 0 <= k < n ==> DegreeLed(r[k])) &&
      (forall k :: n <= k < |r| ==> DigitLed(r[k]))
  {
    var degrees := DegreePhrases(Lower(text));
    var years := YearPhrases(Lower(text));
    assert ExtractQualifications(text) == degrees + years;
    ConcatSplits(degrees, years, DegreeLed, DigitLed);
  }

  /** The matches of the three degree patterns, pattern by pattern. */
  function DegreePhrases(lower: string): (r: seq<string>)
    ensures forall q :: q in r ==> |q| > 0 && DegreeLed(q)
  {
    FindEachLazy(lower, DegreePatterns)
  }

  /** The year groups of the two experience patterns, pattern by pattern. */
  function YearPhrases(lower: string): (r: seq<string>)
    ensures forall q :: q in r ==> DigitLed(q)
  {
    FindAll(lower, ExperiencePhraseAt, 0) + FindAll(lower, AtLeastExperienceAt, 0)
  }

  // ---------------------------------------------------------------------------
  // Whole document

  /** `parse_job_description`: every extractor runs on the cleaned text.  No
      extractor can raise on a string, so the error record is never produced. */
  function ParseJobDescription(text: string): (r: JobDescription)
    ensures r.rawText == text && r.error.None?
    ensures r.cleanedText == CleanText(text)
    ensures r.jobTitle == ExtractJobTitle(r.cleanedText)
    ensures r.companyInfo == Some(ExtractCompanyInfo(r.cleanedText))
    ensures r.requiredSkills == ExtractRequiredSkills(r.cleanedText)
    ensures r.preferredSkills == ExtractPreferredSkills(r.cleanedText)
    ensures r.qualifications == ExtractQualifications(r.cleanedText)
    ensures r.experienceRequirements == Some(ExtractExperienceRequirements(r.cleanedText))
    ensures r.responsibilities == ExtractResponsibilities(r.cleanedText)
    ensures r.benefits == ExtractBenefits(r.cleanedText)
  {
    var cleaned := CleanText(text);
    JobDescription(
      text, cleaned, ExtractJobTitle(cleaned), Some(ExtractCompanyInfo(cleaned)),
      ExtractRequiredSkills(cleaned), ExtractPreferredSkills(cleaned), ExtractQualifications(cleaned),
      Some(ExtractExperienceRequirements(cleaned)), ExtractResponsibilities(cleaned), ExtractBenefits(cleaned),
      None)
  }

  /** The parsed record always carries a company record with no industry and an
      experience record with no description, and its cleaned text is one line. */
  lemma ParsedRecordShape(text: string)
    ensures var r := ParseJobDescription(text);
      '\n' !in r.cleanedText &&
      r.companyInfo.Some? && r.companyInfo.value.industry == "" &&
      r.experienceRequirements.Some? && r.experienceRequirements.value.description == ""
  {
  }

  /** Inside the parser the title fallback always sees exactly one line. */
  lemma ParsedTitleFallback(text: string)
    requires TitleHit(CleanText(text)).None?
    ensures var cleaned := CleanText(text);
      ParseJobDescription(text).jobTitle ==
        (if NamesRole(cleaned) then cleaned else DefaultTitle)
  {
    SingleLineTitleFallback(CleanText(text));
  }
}

=== FILE: patterns.dfy ===
/** Hand-written scanners for the handful of regular-expression shapes the parsers
    use.  Each scanner follows Python's `re` semantics for its shape: the leftmost
    match wins, alternatives are tried in the order written, greedy repetition
    takes the longest run first and lazy repetition the shortest, and `findall`
    resumes scanning where the previous match ended.  Where a shape cannot
    backtrack profitably (a greedy run followed by a character the run cannot
    contain) the scanner takes the greedy choice directly. */
module Patterns {
  import opened Wrappers
  import opened Text

  /** A non-empty literal; every alternative of every pattern is one. */
  type Word = w: string | |w| > 0 witness "a"

  // ---------------------------------------------------------------------------
  // `\b(w1|w2|...)\b` with `re.findall`

  predicate WordAt(s: string, k: int) {
    0 <= k < |s| && IsWordChar(s[k])
  }

  /** Python's `\b` at position `i`: a word character on exactly one side. */
  predicate Boundary(s: string, i: nat) {
    WordAt(s, i - 1) != WordAt(s, i)
  }

  function WordAltFrom(s: string, i: nat, alts: seq<Word>, k: nat): (r: Option<Word>)
    decreases |alts| - k
    ensures r.Some? ==> r.value in alts && At(s, i, r.value) && Boundary(s, i + |r.value|)
  {
    if k >= |alts| then None
    else if At(s, i, alts[k]) && Boundary(s, i + |alts[k]|) then Some(alts[k])
    else WordAltFrom(s, i, alts, k + 1)
  }

  /** The alternative `\b(alts)\b` matches at `i`, if any: the first one, in order,
      that is present and ends at a word boundary. */
  function WordAltAt(s: string, i: nat, alts: seq<Word>): (r: Option<Word>)
    ensures r.Some? ==> r.value in alts && At(s, i, r.value)
    ensures r.Some? ==> Boundary(s, i) && Boundary(s, i + |r.value|)
  {
    if Boundary(s, i) then WordAltFrom(s, i, alts, 0) else None
  }

  /** `re.findall(r'\b(alts)\b', s[i:])`, keeping the position of `s[i-1]` for `\b`. */
  function FindWords(s: string, alts: seq<Word>, i: nat): (r: seq<Word>)
    requires i <= |s|
    ensures forall w :: w in r ==> w in alts
    decreases |s| - i
  {
    if i == |s| then []
    else match WordAltAt(s, i, alts)
      case Some(w) => [w] + FindWords(s, alts, i + |w|)
      case None => FindWords(s, alts, i + 1)
  }

  /** The hits of several patterns, pattern by pattern (`skills.extend(findall(...))`). */
  function FindAllWords(s: string, patterns: seq<seq<Word>>): (r: seq<string>)
    ensures forall w :: w in r ==> exists k :: 0 <= k < |patterns| && w in patterns[k]
  {
    if |patterns| == 0 then []
    else
      var here := FindWords(s, patterns[0], 0);
      var rest := FindAllWords(s, patterns[1..]);
      assert forall w :: w in rest ==> exists k :: 1 <= k < |patterns| && w in patterns[k];
      here + rest
  }

  /** The first alternative present at `i`, in order (no boundaries). */
  function FirstAt(s: string, i: nat, alts: seq<Word>): (r: Option<Word>)
    ensures r.Some? ==> r.value in alts && At(s, i, r.value)
  {
    if |alts| == 0 then None
    else if At(s, i, alts[0]) then Some(alts[0])
    else FirstAt(s, i, alts[1..])
  }

  /** Case-insensitive `FirstAt`. */
  function FirstAtCi(s: string, i: nat, alts: seq<Word>): (r: Option<Word>)
    ensures r.Some? ==> r.value in alts && AtCi(s, i, r.value)
  {
    if |alts| == 0 then None
    else if AtCi(s, i, alts[0]) then Some(alts[0])
    else FirstAtCi(s, i, alts[1..])
  }

  /** `re.search('(?:alts)', s)` for plain literals matched case-insensitively:
      the text of the leftmost match. */
  function SearchLiteralsCi(s: string, alts: seq<Word>, i: nat): (r: Option<string>)
    requires i <= |s|
    ensures r.Some? ==> exists w :: w in alts && Lower(r.value) == w
    decreases |s| - i
  {
    match FirstAtCi(s, i, alts)
    case Some(w) => Some(s[i..i + |w|])
    case None => if i == |s| then None else SearchLiteralsCi(s, alts, i + 1)
  }

  // ---------------------------------------------------------------------------
  // Searching with a matcher given as a function

  /** `re.search` for a pattern whose match at a position, if any, is described
      by `at`: the leftmost position where it matches, with what it yields. */
  function FirstHit<T(==)>(s: string, at: (string, nat) -> Option<T>, i: nat): (r: Option<(nat, T)>)
    requires i <= |s|
    ensures r.Some? ==> i <= r.value.0 <= |s| && at(s, r.value.0) == Some(r.value.1)
    ensures r.Some? ==> forall k :: i <= k < r.value.0 ==> at(s, k).None?
    ensures r.None? ==> forall k :: i <= k <= |s| ==> at(s, k).None?
    decreases |s| - i
  {
    match at(s, i)
    case Some(x) => Some((i, x))
    case None => if i == |s| then None else FirstHit(s, at, i + 1)
  }

  /** `re.findall(pattern, s[i:])` for a pattern whose match at a position is
      described by `at` as the end of the match and the text `findall` yields. */
  function FindAll(s: string, at: (string, nat) -> Option<(nat, string)>, i: nat): (r: seq<string>)
    requires i <= |s|
    ensures forall g :: g in r ==> exists k :: i <= k < |s| && at(s, k).Some? && at(s, k).value.1 == g
    decreases |s| - i
  {
    if i == |s| then []
    else match at(s, i)
      case Some(m) => [m.1] + FindAll(s, at, if i < m.0 <= |s| then m.0 else i + 1)
      case None => FindAll(s, at, i + 1)
  }

  // ---------------------------------------------------------------------------
  // Section captures on lower-case text: `(?:heads)\s+(?:tails):?\s*([^.]*)`
  // when tails are given, `(?:heads):?\s*([^.]*)` otherwise

  /** A section pattern.  With `tails` non-empty the heads must be followed by
      whitespace and one of the tails.  With `captures` the match continues with
      `:?\s*([^.]*)` and `findall` yields the group; without it `findall` yields
      the whole match. */
  datatype Section = Section(heads: seq<Word>, tails: seq<Word>, captures: bool)

  /** What `findall` yields for a match of `sec` that started at `i` and whose
      heads and tails end at `p`, with the end of the whole match. */
  function SectionTail(s: string, i: nat, p: nat, sec: Section): (r: (nat, string))
    requires i < p <= |s|
    ensures p <= r.0 <= |s|
    ensures sec.captures ==> '.' !in r.1
  {
    if !sec.captures then (p, s[i..p])
    else
      var p2 := if p < |s| && s[p] == ':' then p + 1 else p;
      var q := SpaceEnd(s, p2);
      var e := RunEnd(s, q, {'.'});
      (e, s[q..e])
  }

  /** The rest of the pattern after head `h` matched at `i`.  A shorter `\s+`
      would leave a space where the first letter of a tail is required, so only
      the whole whitespace run is tried. */
  function SectionAfterHead(s: string, i: nat, h: Word, sec: Section): (r: Option<(nat, string)>)
    requires At(s, i, h)
    ensures r.Some? ==> i < r.value.0 <= |s|
    ensures r.Some? && sec.captures ==> '.' !in r.value.1
  {
    var p := i + |h|;
    if |sec.tails| == 0 then Some(SectionTail(s, i, p, sec))
    else
      var q := SpaceEnd(s, p);
      if q == p then None
      else match FirstAt(s, q, sec.tails)
        case None => None
        case Some(t) => Some(SectionTail(s, i, q + |t|, sec))
  }

  function SectionFrom(s: string, i: nat, sec: Section, k: nat): (r: Option<(nat, string)>)
    decreases |sec.heads| - k
    ensures r.Some? ==> i < r.value.0 <= |s|
    ensures r.Some? && sec.captures ==> '.' !in r.value.1
  {
    if k >= |sec.heads| then None
    else
      var h := sec.heads[k];
      var here := if At(s, i, h) then SectionAfterHead(s, i, h, sec) else None;
      if here.Some? then here else SectionFrom(s, i, sec, k + 1)
  }

  /** `re.findall(sec, s[i:])`. */
  function FindSections(s: string, sec: Section, i: nat): (r: seq<string>)
    requires i <= |s|
    ensures sec.captures ==> forall g :: g in r ==> '.' !in g
    decreases |s| - i
  {
    if i == |s| then []
    else match SectionFrom(s, i, sec, 0)
      case Some(m) => [m.1] + FindSections(s, sec, m.0)
      case None => FindSections(s, sec, i + 1)
  }

  /** A section pattern whose heads occur nowhere in `s` finds nothing. */
  lemma {:induction false} NoHeadNoSections(s: string, sec: Section, i: nat)
    requires i <= |s|
    requires forall k, h :: 0 <= k < |s| && h in sec.heads ==> !At(s, k, h)
    ensures FindSections(s, sec, i) == []
    decreases |s| - i
  {
    if i < |s| {
      NoHeadSectionFrom(s, sec, i, 0);
      NoHeadNoSections(s, sec, i + 1);
    }
  }

  lemma {:induction false} NoHeadSectionFrom(s: string, sec: Section, i: nat, k: nat)
    requires i < |s|
    requires forall j, h :: 0 <= j < |s| && h in sec.heads ==> !At(s, j, h)
    ensures SectionFrom(s, i, sec, k).None?
    decreases |sec.heads| - k
  {
    if k < |sec.heads| {
      assert !At(s, i, sec.heads[k]);
      NoHeadSectionFrom(s, sec, i, k + 1);
    }
  }

  // ---------------------------------------------------------------------------
  // `\s*([^\n]+)` and the label shape `(?:labels):\s*([^\n]+)`

  /** The largest `c` in `[lo, hi)` with `s[c] != '\n'`. */
  function LastNonNewline(s: string, lo: nat, hi: nat): (r: Option<nat>)
    requires lo <= hi <= |s|
    ensures r.Some? ==> lo <= r.value < hi && s[r.value] != '\n'
    ensures r.Some? ==> forall k :: r.value < k < hi ==> s[k] == '\n'
    ensures r.None? ==> forall k :: lo <= k < hi ==> s[k] == '\n'
    decreases hi - lo
  {
    if hi == lo then None
    else if s[hi - 1] != '\n' then Some(hi - 1)
    else LastNonNewline(s, lo, hi - 1)
  }

  /** `\s*([^\n]+)` matched at `p`: the group's start and end.  Greedy `\s*`
      first takes the whole whitespace run; only when that run reaches the end of
      the text does it give characters back, and then the group starts at the
      last of them that is not a newline. */
  function SpaceLineGroup(s: string, p: nat): (r: Option<(nat, nat)>)
    requires p <= |s|
    ensures r.Some? ==> p <= r.value.0 < r.value.1 <= |s|
    ensures r.Some? ==> forall k :: r.value.0 <= k < r.value.1 ==> s[k] != '\n'
    ensures r.Some? ==> r.value.1 == |s| || s[r.value.1] == '\n'
    ensures r.None? ==> forall k :: p <= k < |s| ==> s[k] == '\n'
  {
    var b := SpaceEnd(s, p);
    if b < |s| then Some((b, RunEnd(s, b, {'\n'})))
    else match LastNonNewline(s, p, b)
      case None => None
      case Some(c) => Some((c, RunEnd(s, c, {'\n'})))
  }

  /** The group of the leftmost match of `(?:labels):\s*([^\n]+)`, case-insensitive. */
  function SearchLabel(s: string, labels: seq<Word>, i: nat): (r: Option<string>)
    requires i <= |s|
    ensures r.Some? ==> '\n' !in r.value && |r.value| > 0
    decreases |s| - i
  {
    match LabelGroups(s, i, labels, 0)
    case Some(g) => Some(g)
    case None => if i == |s| then None else SearchLabel(s, labels, i + 1)
  }

  function LabelGroups(s: string, i: nat, labels: seq<Word>, k: nat): (r: Option<string>)
    decreases |labels| - k
    ensures r.Some? ==> '\n' !in r.value && |r.value| > 0
  {
    if k >= |labels| then None
    else
      var l := labels[k];
      if AtCi(s, i, l) && i + |l| < |s| && s[i + |l|] == ':' then
        match SpaceLineGroup(s, i + |l| + 1)
        case Some(g) => Some(s[g.0..g.1])
        case None => LabelGroups(s, i, labels, k + 1)
      else LabelGroups(s, i, labels, k + 1)
  }

  // ---------------------------------------------------------------------------
  // Bullets: `[•\-\*]\s*([^\n]+)` with `re.findall`

  const Bullets: set<char> := {'•', '-', '*'}

  /** The group of a bullet match starting at `k`: a bullet character, then
      `\s*([^\n]+)`. */
  function BulletGroupAt(s: string, k: nat): (r: Option<(nat, nat)>)
    requires k < |s|
    ensures r.Some? ==> s[k] in Bullets && k < r.value.0 < r.value.1 <= |s|
  {
    if s[k] in Bullets then SpaceLineGroup(s, k + 1) else None
  }

  /** The text of the bullet group at `k`. */
  function BulletText(s: string, k: nat): string
    requires k < |s| && BulletGroupAt(s, k).Some?
  {
    s[BulletGroupAt(s, k).value.0..BulletGroupAt(s, k).value.1]
  }

  /** `re.findall(r'[•\-\*]\s*([^\n]+)', s[i:])`; `BulletsEmpty`, `BulletsSkip`
      and `BulletsOrigin` say which groups it yields. */
  function FindBullets(s: string, i: nat): (r: seq<string>)
    requires i <= |s|
    ensures forall g :: g in r ==> '\n' !in g && |g| > 0
    decreases |s| - i
  {
    if i == |s| then []
    else
      match BulletGroupAt(s, i)
      case Some(g) => [BulletText(s, i)] + FindBullets(s, g.1)
      case None => FindBullets(s, i + 1)
  }

  /** One step of the scan. */
  lemma BulletsStep(s: string, i: nat)
    requires i < |s|
    ensures BulletGroupAt(s, i).Some? ==>
      FindBullets(s, i) == [BulletText(s, i)] + FindBullets(s, BulletGroupAt(s, i).value.1)
    ensures BulletGroupAt(s, i).None? ==> FindBullets(s, i) == FindBullets(s, i + 1)
  {
  }

  /** No bullet match from `i` exactly when nothing is found. */
  lemma {:induction false} BulletsEmpty(s: string, i: nat)
    requires i <= |s|
    ensures FindBullets(s, i) == [] <==> forall k :: i <= k < |s| ==> BulletGroupAt(s, k).None?
    decreases |s| - i
  {
    if i < |s| {
      BulletsStep(s, i);
      if BulletGroupAt(s, i).None? {
        BulletsEmpty(s, i + 1);
      }
    }
  }

  /** Positions without a bullet match are skipped: from `i`, the scan yields
      what it yields from the first bullet match `k`. */
  lemma {:induction false} BulletsSkip(s: string, i: nat, k: nat)
    requires i <= k < |s| && BulletGroupAt(s, k).Some?
    requires forall j :: i <= j < k ==> BulletGroupAt(s, j).None?
    ensures FindBullets(s, i) == [BulletText(s, k)] + FindBullets(s, BulletGroupAt(s, k).value.1)
    decreases k - i
  {
    BulletsStep(s, i);
    if i < k {
      BulletsSkip(s, i + 1, k);
    }
  }

  /** Every item found from `i` is the group of a bullet match at or after `i`. */
  lemma {:induction false} BulletsOrigin(s: string, i: nat)
    requires i <= |s|
    ensures forall x :: x in FindBullets(s, i) ==> exists k :: (i <= k < |s| && BulletGroupAt(s, k).Some? &&
      x == BulletText(s, k))
    decreases |s| - i
  {
    if i < |s| {
      BulletsStep(s, i);
      match BulletGroupAt(s, i)
      case Some(g) =>
        BulletsOrigin(s, g.1);
      case None =>
        BulletsOrigin(s, i + 1);
    }
  }

  // ---------------------------------------------------------------------------
  // Numbers: `re.search(r'(\d+)')` and `(\d+)<infix>\s*(?:units)`

  /** The value of the leftmost digit run at or after `i`, if any. */
  function FirstNumber(s: string, i: nat): (r: Option<nat>)
    requires i <= |s|
    ensures r.None? <==> forall k :: i <= k < |s| ==> !IsDigit(s[k])
    decreases |s| - i
  {
    if i == |s| then None
    else if IsDigit(s[i]) then Some(DigitsValue(s[i..DigitEnd(s, i)]))
    else FirstNumber(s, i + 1)
  }

  /** When `k` holds the first digit at or after `i`, the leftmost run starts
      there and its value is the number. */
  lemma {:induction false} FirstNumberAt(s: string, i: nat, k: nat)
    requires i <= k < |s| && IsDigit(s[k])
    requires forall j :: i <= j < k ==> !IsDigit(s[j])
    ensures FirstNumber(s, i) == Some(DigitsValue(s[k..DigitEnd(s, k)]))
    decreases k - i
  {
    if i < k {
      FirstNumberAt(s, i + 1, k);
    }
  }

  /** `(\d+)<infix>\s*(?:units)` matched at `i`: the number.  A shorter digit run
      or whitespace run would leave a digit or a space where the infix or a unit
      must start, so only the greedy runs are tried. */
  function NumberUnitAt(s: string, i: nat, infix: string, units: seq<Word>): (r: Option<nat>)
    requires i <= |s|
  {
    if i < |s| && IsDigit(s[i]) then
      var d := DigitEnd(s, i);
      if At(s, d, infix) then
        var q := SpaceEnd(s, d + |infix|);
        if FirstAt(s, q, units).Some? then Some(DigitsValue(s[i..d])) else None
      else None
    else None
  }

  /** The number of the leftmost match of `(\d+)<infix>\s*(?:units)` in `s[i:]`. */
  function SearchNumberUnit(s: string, infix: string, units: seq<Word>, i: nat): (r: Option<nat>)
    requires i <= |s|
    ensures r.Some? ==> exists k :: i <= k < |s| && IsDigit(s[k])
    decreases |s| - i
  {
    if i == |s| then None
    else match NumberUnitAt(s, i, infix, units)
      case Some(n) => Some(n)
      case None => SearchNumberUnit(s, infix, units, i + 1)
  }

  // ---------------------------------------------------------------------------
  // Lazy chains: `(?:keys).*?(?:a1|a2).*?(?:b1|b2)...` where `.` excludes `\n`

  /** One alternative of a chain stage: a literal, `\d{4}`, or `\d{4}-\d{4}`. */
  datatype Atom = Lit(w: Word) | FourDigits | YearRange

  predicate DigitsAt(s: string, k: nat, n: nat) {
    k + n <= |s| && forall j :: k <= j < k + n ==> IsDigit(s[j])
  }

  /** Only year atoms among `alts`: whatever they match ends in four digits. */
  predicate YearsOnly(alts: seq<Atom>) {
    forall a :: a in alts ==> !a.Lit?
  }

  /** The last stage of `stages` matches only years. */
  predicate LastYears(stages: seq<seq<Atom>>) {
    |stages| > 0 && YearsOnly(stages[|stages| - 1])
  }

  /** `s[from..e]` ends with four digits. */
  predicate EndsInYear(s: string, from: nat, e: nat) {
    from + 4 <= e && DigitsAt(s, e - 4, 4)
  }

  /** Length of `a` matched case-insensitively at `k`, if it matches. */
  function AtomAt(s: string, k: nat, a: Atom): (r: Option<nat>)
    ensures r.Some? ==> r.value > 0 && k + r.value <= |s|
    ensures r.Some? && !a.Lit? ==> EndsInYear(s, k, k + r.value)
  {
    match a
    case Lit(w) => if AtCi(s, k, w) then Some(|w|) else None
    case FourDigits => if DigitsAt(s, k, 4) then Some(4) else None
    case YearRange =>
      if DigitsAt(s, k, 4) && k + 4 < |s| && s[k + 4] == '-' && DigitsAt(s, k + 5, 4) then Some(9) else None
  }

  /** The end of a match of `stages` starting at `p`: each stage is `.*?(alts)`.
      The lazy `.*?` tries the nearest position first and each alternative in
      order, and moves on when the rest of the chain fails, as backtracking does. */
  function Chain(s: string, p: nat, stages: seq<seq<Atom>>): (r: Option<nat>)
    requires p <= |s|
    ensures r.Some? ==> p <= r.value <= |s|
    ensures r.Some? && LastYears(stages) ==> EndsInYear(s, p, r.value)
    decreases |stages|, |s| - p + 2, 0
  {
    if |stages| == 0 then Some(p) else ChainSkip(s, p, p, stages)
  }

  /** Stage `stages[0]` tried with its `.*?` having skipped `s[p..m)`. */
  function ChainSkip(s: string, p: nat, m: nat, stages: seq<seq<Atom>>): (r: Option<nat>)
    requires p <= m <= |s| && |stages| > 0
    ensures r.Some? ==> m <= r.value <= |s|
    ensures r.Some? && LastYears(stages) ==> EndsInYear(s, m, r.value)
    decreases |stages|, |s| - m + 1, 1
  {
    match ChainAlts(s, m, stages[0], stages[1..])
    case Some(e) => Some(e)
    case None => if m < |s| && s[m] != '\n' then ChainSkip(s, p, m + 1, stages) else None
  }

  function ChainAlts(s: string, m: nat, alts: seq<Atom>, rest: seq<seq<Atom>>): (r: Option<nat>)
    requires m <= |s|
    ensures r.Some? ==> m <= r.value <= |s|
    ensures r.Some? && (if |rest| == 0 then YearsOnly(alts) else LastYears(rest)) ==> EndsInYear(s, m, r.value)
    decreases |rest| + 1, 0, |alts| + 2
  {
    if |alts| == 0 then None
    else match AtomAt(s, m, alts[0])
      case Some(n) =>
        (match Chain(s, m + n, rest)
         case Some(e) => Some(e)
         case None => ChainAlts(s, m, alts[1..], rest))
      case None => ChainAlts(s, m, alts[1..], rest)
  }

  /** A pattern `(keys)` followed by lazy stages, matched case-insensitively. */
  datatype LazyPattern = LazyPattern(keys: seq<Word>, stages: seq<seq<Atom>>)

  /** `t` begins with one of `keys`, case-insensitively. */
  predicate StartsWithKey(t: string, keys: seq<Word>) {
    exists k :: 0 <= k < |keys| && AtCi(t, 0, keys[k])
  }

  /** The end of a match of `(keys)` and then `stages` starting at `i`: the
      first key, in order, for which the rest of the pattern matches. */
  function LazyKeys(s: string, i: nat, keys: seq<Word>, stages: seq<seq<Atom>>): (r: Option<nat>)
    ensures r.Some? ==> i < r.value <= |s|
    ensures r.Some? ==> StartsWithKey(s[i..r.value], keys)
    ensures r.Some? && LastYears(stages) ==> EndsInYear(s, i, r.value)
  {
    if |keys| == 0 then None
    else if AtCi(s, i, keys[0]) then
      match Chain(s, i + |keys[0]|, stages)
      case Some(e) => Some(e)
      case None => LazyKeys(s, i, keys[1..], stages)
    else LazyKeys(s, i, keys[1..], stages)
  }

  /** The texts of all non-overlapping matches of `pat` in `s[i:]`
      (`m.group(0)` for each `m` of `re.finditer`, or `re.findall` without groups). */
  function FindLazy(s: string, pat: LazyPattern, i: nat): (r: seq<string>)
    requires i <= |s|
    ensures forall t :: t in r ==> |t| > 0 && StartsWithKey(t, pat.keys)
    ensures LastYears(pat.stages) ==> forall t :: t in r ==> EndsInYear(t, 0, |t|)
    decreases |s| - i
  {
    if i == |s| then []
    else match LazyKeys(s, i, pat.keys, pat.stages)
      case Some(e) => [s[i..e]] + FindLazy(s, pat, e)
      case None => FindLazy(s, pat, i + 1)
  }

  /** A non-empty text that starts with a key of one of `pats`. */
  predicate LedBy(t: string, pats: seq<LazyPattern>) {
    exists p :: p in pats && |t| > 0 && StartsWithKey(t, p.keys)
  }

  /** The matches of each pattern in turn, each pattern scanned over the whole
      text (one `re.finditer` per pattern). */
  function FindEachLazy(s: string, pats: seq<LazyPattern>): (r: seq<string>)
    ensures forall t :: t in r ==> LedBy(t, pats)
    ensures (forall p :: p in pats ==> LastYears(p.stages)) ==> forall t :: t in r ==> EndsInYear(t, 0, |t|)
  {
    if |pats| == 0 then []
    else FindLazy(s, pats[0], 0) + FindEachLazy(s, pats[1..])
  }
}

=== FILE: resume_parser.dfy ===
/** `ResumeParser` (src/parsers/resume_parser.py): reads a resume file through
    text extractors, normalises the text and pulls out contact details, skills,
    education, experience, projects and certifications with fixed patterns.
    The PDF/DOCX readers and the spaCy matcher are parameters. */
module ResumeParser {
  import opened Wrappers
  import opened Text
  import opened Patterns
  import opened Vocabulary
  import opened Documents

  // ---------------------------------------------------------------------------
  // Reading the file (`extract_text`, `parse_resume`'s file name)

  /** The part of `s` after its last `c`: `s.split(c)[-1]`, which is the longest
      suffix of `s` without `c`. */
  function AfterLast(s: string, c: char): (r: string)
    ensures |r| <= |s| && r == s[|s| - |r|..]
    ensures c !in r
    ensures |r| < |s| ==> s[|s| - |r| - 1] == c
  {
    var k := RFind(s, c);
    s[k + 1..]
  }

  /** The lower-cased extension of `path`: everything after its last dot. */
  function Extension(path: string): (r: string)
    ensures '.' !in r
  {
    AfterLast(Lower(path), '.')
  }

  predicate IsPdf(path: string) {
    Extension(path) == "pdf"
  }

  predicate IsWordDocument(path: string) {
    Extension(path) == "docx" || Extension(path) == "doc"
  }

  /** `extract_text`: the PDF reader for ".pdf" files, the DOCX reader for ".docx"
      and ".doc" files, and "" for anything else.  Each reader already falls back
      to its second library and then to "", so both are total. */
  function ExtractText(path: string, pdf: string -> string, docx: string -> string): (r: string)
    ensures !IsPdf(path) && !IsWordDocument(path) ==> r == ""
    ensures IsPdf(path) ==> r == pdf(path)
    ensures IsWordDocument(path) ==> r == docx(path)
  {
    if IsPdf(path) then pdf(path)
    else if IsWordDocument(path) then docx(path)
    else ""
  }

  /** The file name reported for `path`: the part after the last '/', or when
      there is none, after the last '\'. */
  function FileName(path: string): (r: string)
    ensures |r| <= |path| && r == path[|path| - |r|..]
    ensures '/' !in r
    ensures '/' !in path ==> '\\' !in r
    ensures '/' !in path && '\\' !in path ==> r == path
    ensures '/' in path ==> |r| < |path| && path[|path| - |r| - 1] == '/'
    ensures '/' !in path && '\\' in path ==> |r| < |path| && path[|path| - |r| - 1] == '\\'
  {
    var c := if '/' in path then '/' else '\\';
    var r := AfterLast(path, c);
    assert |r| == |path| ==> r == path;
    r
  }

  // ---------------------------------------------------------------------------
  // Cleaning (`clean_text`)

  /** `page \d+ of \d+` at `i`, case-insensitively: the end of the match.  The
      digit runs are greedy and the literal after each cannot start with a
      digit, so no backtracking is needed. */
  function PageFooterAt(s: string, i: nat): (r: Option<nat>)
    ensures r.Some? ==> i < r.value <= |s| && AtCi(s, i, "page ")
  {
    if !AtCi(s, i, "page ") then None
    else
      var d1 := DigitEnd(s, i + 5);
      if d1 == i + 5 || !AtCi(s, d1, " of ") then None
      else
        var d2 := DigitEnd(s, d1 + 4);
        if d2 == d1 + 4 then None else Some(d2)
  }

  /** `re.sub(r'page \d+ of \d+', '', s, flags=re.IGNORECASE)`. */
  function RemovePageFooters(s: string): (r: string)
    ensures |r| <= |s|
    ensures forall i :: 0 <= i < |r| ==> r[i] in s
    decreases |s|
  {
    if |s| == 0 then ""
    else match PageFooterAt(s, 0)
      case Some(e) => RemovePageFooters(s[e..])
      case None => [s[0]] + RemovePageFooters(s[1..])
  }

  /** Text with no page footer anywhere passes through unchanged. */
  lemma {:induction false} NoFooterUnchanged(s: string)
    requires forall i :: 0 <= i < |s| ==> !AtCi(s, i, "page ")
    ensures RemovePageFooters(s) == s
    decreases |s|
  {
    if |s| > 0 {
      assert !AtCi(s, 0, "page ");
      forall i | 0 <= i < |s| - 1
        ensures !AtCi(s[1..], i, "page ")
      {
        assert !AtCi(s, i + 1, "page ");
        if i + 5 <= |s| - 1 {
          assert s[1..][i..i + 5] == s[i + 1..i + 6];
        }
      }
      NoFooterUnchanged(s[1..]);
    }
  }

  const ResumeHeaders: seq<Word> := ["confidential", "private", "resume", "curriculum vitae", "cv"]

  /** Whitespace runs become one space, runs of newlines one newline, page
      footers and the boilerplate words are deleted case-insensitively, and the
      ends are stripped.  Since `\s` already covers the newline, the result is
      always a single line. */
  function CleanText(text: string): (r: string)
    ensures PlainSpaced(r) && IsStripped(r)
    ensures '\n' !in r
  {
    var spaced := CollapseSpaces(text);
    var lines := CollapseRuns(spaced, '\n');
    var footless := RemovePageFooters(lines);
    var bare := RemoveAllCi(footless, ResumeHeaders);
    var r := Strip(bare);
    PlainSpacedKept(spaced, lines);
    PlainSpacedKept(lines, footless);
    PlainSpacedKept(footless, bare);
    PlainSpacedKept(bare, r);
    r
  }

  // ---------------------------------------------------------------------------
  // Contact details (`extract_contact_info`)

  datatype SpanLabel = EmailSpan | PhoneSpan | SkillSpan

  /** One match of the spaCy matcher: its label and the text it covers. */
  datatype Span = Span(kind: SpanLabel, text: string)

  /** The loaded model's tokenizer and matcher, from text to matches in order.
      A failure carries the message of the exception the model raises; spaCy
      raises, for one, on a text longer than its `max_length`. */
  type Matcher = string -> Result<seq<Span>>

  /** The position of the last match with label `wanted`: later matches overwrite earlier
      ones in the result dictionary. */
  function LastLabelled(spans: seq<Span>, wanted: SpanLabel): (r: Option<nat>)
    ensures r.Some? ==> r.value < |spans| && spans[r.value].kind == wanted
    ensures r.Some? ==> forall j :: r.value < j < |spans| ==> spans[j].kind != wanted
    ensures r.None? <==> forall j :: 0 <= j < |spans| ==> spans[j].kind != wanted
  {
    if |spans| == 0 then None
    else if spans[|spans| - 1].kind == wanted then Some(|spans| - 1)
    else
      var r := LastLabelled(spans[..|spans| - 1], wanted);
      assert forall j :: 0 <= j < |spans| - 1 ==> spans[..|spans| - 1][j] == spans[j];
      r
  }

  /** The text of the last match with label `wanted`, or "" when there is none. */
  function LabelledText(spans: seq<Span>, wanted: SpanLabel): (r: string)
    ensures (forall j :: 0 <= j < |spans| ==> spans[j].kind != wanted) ==> r == ""
    ensures (exists j :: 0 <= j < |spans| && spans[j].kind == wanted) ==>
      exists k :: 0 <= k < |spans| && spans[k] == Span(wanted, r) &&
        forall j :: k < j < |spans| ==> spans[j].kind != wanted
  {
    match LastLabelled(spans, wanted)
    case Some(k) => spans[k].text
    case None => ""
  }

  const NameStopWords: seq<string> := ["resume", "cv", "curriculum", "vitae", "email", "phone", "address"]

  /** A stripped line taken for the candidate's name: 3 to 49 characters with no
      boilerplate word inside. */
  predicate LooksLikeName(line: string) {
    2 < |line| < 50 && !ContainsAny(Lower(line), NameStopWords)
  }

  /** The first of `lines`, stripped, that looks like a name. */
  function NameLine(lines: seq<string>): (r: Option<string>)
    ensures r.Some? ==> IsStripped(r.value) && LooksLikeName(r.value)
    ensures r.Some? ==> exists k :: (0 <= k < |lines| && r.value == Strip(lines[k]) &&
      forall j :: 0 <= j < k ==> !LooksLikeName(Strip(lines[j])))
    ensures r.None? <==> forall k :: 0 <= k < |lines| ==> !LooksLikeName(Strip(lines[k]))
  {
    var stripped := StripAll(lines);
    match FirstIndex(stripped, LooksLikeName)
    case Some(k) => Some(stripped[k])
    case None => None
  }

  /** The contact record: empty without a model; the model's exception when
      running it on the text raises; otherwise the last e-mail and phone
      matches, and the first of the first five lines that looks like a name. */
  function ExtractContactInfo(text: string, nlp: Option<Matcher>): (r: Result<ContactInfo>)
    ensures nlp.None? ==> r == Success(ContactInfo("", "", ""))
    ensures nlp.Some? ==> (r.Failure? <==> nlp.value(text).Failure?)
    ensures nlp.Some? && nlp.value(text).Failure? ==> r == Failure(nlp.value(text).error)
    ensures nlp.Some? && r.Success? ==>
      && r.value.email == LabelledText(nlp.value(text).value, EmailSpan)
      && r.value.phone == LabelledText(nlp.value(text).value, PhoneSpan)
      && r.value.name == (match NameLine(Take(Split(text, "\n"), 5)) case Some(n) => n case None => "")
    ensures r.Success? && r.value.name != "" ==> IsStripped(r.value.name) && LooksLikeName(r.value.name)
  {
    match nlp
    case None => Success(ContactInfo("", "", ""))
    case Some(matcher) =>
      match matcher(text)
      case Failure(e) => Failure(e)
      case Success(spans) =>
        var name := match NameLine(Take(Split(text, "\n"), 5))
          case Some(n) => n
          case None => "";
        Success(ContactInfo(LabelledText(spans, EmailSpan), LabelledText(spans, PhoneSpan), name))
  }

  /** On one line of text the name is that line, stripped, if it looks like a
      name, and "" otherwise. */
  lemma {:induction false} SingleLineName(text: string, matcher: Matcher)
    requires '\n' !in text
    requires matcher(text).Success?
    ensures ExtractContactInfo(text, Some(matcher)).Success?
    ensures ExtractContactInfo(text, Some(matcher)).value.name ==
      (if LooksLikeName(Strip(text)) then Strip(text) else "")
  {
    var lines := Take(Split(text, "\n"), 5);
    OneLineSplit(text);
    assert lines == [text];
    assert Strip(lines[0]) == Strip(text);
    if LooksLikeName(Strip(text)) {
      assert NameLine(lines).Some?;
    } else {
      assert NameLine(lines).None?;
    }
  }

  // ---------------------------------------------------------------------------
  // Skills (`extract_skills`)

  /** The vocabulary hits of the seven skill patterns, lower-cased and without
      duplicates. */
  function ExtractSkills(text: string): (r: seq<string>)
    ensures NoDuplicates(r)
    ensures forall w :: w in r ==> IsLower(w) && InVocabulary(w, CommonSkillPatterns)
    ensures forall w :: w in r <==> w in SkillHits(text, CommonSkillPatterns)
  {
    DistinctSkills(SkillHits(text, CommonSkillPatterns))
  }

  // ---------------------------------------------------------------------------
  // Education (`extract_education`)

  /** `(\d{4}|\d{4}-\d{4})`. */
  const Years: seq<Atom> := [FourDigits, YearRange]

  const InstitutionKeys: seq<Word> := ["university", "college", "institute"]

  /** The three education patterns, in order: a degree word, a connective, a
      year; an abbreviated degree, a connective, a year; an institution word, a
      year.  Each `.*?` stays within a line. */
  const EducationPatterns: seq<LazyPattern> := [
    LazyPattern(DegreeKeys, [Connectives, Years]),
    LazyPattern(AbbreviatedDegreeKeys, [Connectives, Years]),
    LazyPattern(InstitutionKeys, [Years])]

  /** Every key of every pattern starts with a visible character. */
  predicate KeysStartVisible(pats: seq<LazyPattern>) {
    forall p, k :: p in pats && 0 <= k < |p.keys| ==> !IsSpace(p.keys[k][0])
  }

  lemma EducationKeysStartVisible()
    ensures KeysStartVisible(EducationPatterns)
  {
    assert forall k :: 0 <= k < |DegreeKeys| ==> IsLetter(DegreeKeys[k][0]);
    assert forall k :: 0 <= k < |AbbreviatedDegreeKeys| ==> IsLetter(AbbreviatedDegreeKeys[k][0]);
    assert forall k :: 0 <= k < |InstitutionKeys| ==> IsLetter(InstitutionKeys[k][0]);
  }

  /** A match that starts with a visible key and ends with a digit has nothing
      for `strip()` to remove. */
  lemma MatchIsStripped(t: string, keys: seq<Word>)
    requires StartsWithKey(t, keys) && EndsInYear(t, 0, |t|)
    requires forall k :: 0 <= k < |keys| ==> !IsSpace(keys[k][0])
    ensures IsStripped(t)
  {
    var k :| 0 <= k < |keys| && AtCi(t, 0, keys[k]);
    assert LowerChar(t[0]) == Lower(t[0..|keys[k]|])[0] == keys[k][0];
    assert IsDigit(t[|t| - 1]);
  }

  /** Every education pattern ends with the year stage. */
  lemma EducationPatternsEndInYears()
    ensures forall p :: p in EducationPatterns ==> LastYears(p.stages)
  {
    assert YearsOnly(Years);
    assert LastYears(EducationPatterns[0].stages);
    assert LastYears(EducationPatterns[1].stages);
    assert LastYears(EducationPatterns[2].stages);
  }

  /** Every education match ends with a year and has nothing for `strip()` to
      remove. */
  lemma EducationMatchesStripped(text: string)
    ensures forall t :: t in FindEachLazy(text, EducationPatterns) ==> EndsInYear(t, 0, |t|)
    ensures forall t :: t in FindEachLazy(text, EducationPatterns) ==> IsStripped(t)
  {
    EducationKeysStartVisible();
    EducationPatternsEndInYears();
    forall t | t in FindEachLazy(text, EducationPatterns)
      ensures IsStripped(t)
    {
      var p :| p in EducationPatterns && StartsWithKey(t, p.keys);
      MatchIsStripped(t, p.keys);
    }
  }

  /** One entry per degree text, with no institution and no year. */
  function EducationEntries(degrees: seq<string>): (r: seq<EducationEntry>)
    ensures |r| == |degrees|
    ensures forall k :: 0 <= k < |r| ==> r[k].degree == degrees[k]
    ensures forall e :: e in r ==> e.institution == "" && e.year == ""
  {
    seq(|degrees|, k requires 0 <= k < |degrees| => EducationEntry(degrees[k], "", ""))
  }

  /** One entry per match of the education patterns, pattern by pattern: the
      stripped match as the degree and empty institution and year. */
  function ExtractEducation(text: string): (r: seq<EducationEntry>)
    ensures var ms := FindEachLazy(text, EducationPatterns);
      |r| == |ms| && forall k :: 0 <= k < |r| ==> r[k].degree == ms[k]
    ensures forall e :: e in r ==> e.institution == "" && e.year == ""
  {
    var ms := FindEachLazy(text, EducationPatterns);
    EducationMatchesStripped(text);
    StripAllStripped(ms);
    EducationEntries(StripAll(ms))
  }

  /** The degrees of entries built one per text are among those texts. */
  lemma DegreesAmong(r: seq<EducationEntry>, ms: seq<string>)
    requires |r| == |ms| && forall k :: 0 <= k < |r| ==> r[k].degree == ms[k]
    ensures forall e :: e in r ==> e.degree in ms
  {
    forall e | e in r
      ensures e.degree in ms
    {
      var k :| 0 <= k < |r| && r[k] == e;
      assert e.degree == ms[k];
    }
  }

  /** Every education degree text begins with a degree or institution word
      and ends with a four-digit year. */
  lemma EducationEntryShape(text: string)
    ensures forall e :: e in ExtractEducation(text) ==>
      LedBy(e.degree, EducationPatterns) && EndsInYear(e.degree, 0, |e.degree|)
  {
    EducationMatchesStripped(text);
    DegreesAmong(ExtractEducation(text), FindEachLazy(text, EducationPatterns));
  }

  // ---------------------------------------------------------------------------
  // Experience and projects (`extract_experience`, `extract_projects`)

  /** A line-scanning rule: a line containing one of `keys` (lower-cased) is
      followed by a search of the next `window - 1` lines for the first whose
      stripped text is longer than `minLen` and, if given, shorter than `maxLen`. */
  datatype LineRule = LineRule(keys: seq<string>, window: nat, minLen: nat, maxLen: Option<nat>)

  const ExperienceRule: LineRule := LineRule(["experience", "work", "employment"], 10, 5, Some(100))
  const ProjectRule: LineRule := LineRule(["project", "portfolio", "github", "repository"], 5, 10, None)

  predicate Fits(line: string, rule: LineRule) {
    rule.minLen < |line| && (rule.maxLen.None? || |line| < rule.maxLen.value)
  }

  predicate IsKeyLine(line: string, rule: LineRule) {
    ContainsAny(Lower(line), rule.keys)
  }

  function Min(a: nat, b: nat): nat {
    if a <= b then a else b
  }

  function Max(a: nat, b: nat): nat {
    if a <= b then b else a
  }

  /** The lines after a key line at `i` that are searched for its title. */
  function Window(lines: seq<string>, rule: LineRule, i: nat): (r: seq<string>)
    requires i < |lines|
    ensures i + 1 + |r| <= |lines| && |r| < Max(rule.window, 1)
    ensures forall k :: 0 <= k < |r| ==> r[k] == lines[i + 1 + k]
  {
    var stop := Min(i + rule.window, |lines|);
    if stop < i + 1 then [] else lines[i + 1..stop]
  }

  /** The title a key line at `i` gets: the first line of its window whose
      stripped text fits the rule. */
  function WindowTitle(lines: seq<string>, rule: LineRule, i: nat): (r: Option<string>)
    requires i < |lines|
    ensures r.Some? ==> Qualifies(r.value, rule)
    ensures i + 1 == |lines| ==> r.None?
  {
    var window := StripAll(Window(lines, rule, i));
    match FirstIndex(window, (line: string) => Fits(line, rule))
    case Some(j) => Some(window[j])
    case None => None
  }

  /** The window title is the stripped first window line that fits, and there is
      none exactly when no window line fits. */
  lemma WindowTitleIsFirst(lines: seq<string>, rule: LineRule, i: nat)
    requires i < |lines|
    ensures var w := Window(lines, rule, i);
      WindowTitle(lines, rule, i).None? <==> forall k :: 0 <= k < |w| ==> !Fits(Strip(w[k]), rule)
    ensures var w := Window(lines, rule, i);
      WindowTitle(lines, rule, i).Some? ==>
        exists j :: 0 <= j < |w| && WindowTitle(lines, rule, i).value == Strip(w[j]) &&
          forall k :: 0 <= k < j ==> !Fits(Strip(w[k]), rule)
  {
    var w := Window(lines, rule, i);
    var window := StripAll(w);
    var r := FirstIndex(window, (line: string) => Fits(line, rule));
    if r.Some? {
      assert WindowTitle(lines, rule, i).value == Strip(w[r.value]);
    }
  }

  /** A stripped line that fits the rule. */
  predicate Qualifies(t: string, rule: LineRule) {
    IsStripped(t) && Fits(t, rule)
  }

  /** The title picked for each key line from `lines[i]` on: at most one per
      line, each a stripped later line that fits the rule; the last line has no
      following lines and so never contributes. */
  function KeyLineTitles(lines: seq<string>, rule: LineRule, i: nat): (r: seq<string>)
    requires i <= |lines|
    ensures |r| <= |lines| - i
    ensures forall t :: t in r ==> Qualifies(t, rule)
    ensures (forall k :: i <= k < |lines| ==> !IsKeyLine(lines[k], rule)) ==> r == []
    ensures |lines| <= i + 1 ==> r == []
    decreases |lines| - i
  {
    if i == |lines| then []
    else
      var rest := KeyLineTitles(lines, rule, i + 1);
      if IsKeyLine(lines[i], rule) then
        match WindowTitle(lines, rule, i)
        case Some(t) =>
          [t] + rest
        case None => rest
      else rest
  }

  function ExperienceEntries(titles: seq<string>): (r: seq<ExperienceEntry>)
    ensures |r| == |titles|
    ensures forall e :: e in r ==> e.title in titles
    ensures forall e :: e in r ==> e.company == "" && e.duration == Some("") && e.description == ""
  {
    if |titles| == 0 then []
    else [ExperienceEntry(titles[0], "", Some(""), "")] + ExperienceEntries(titles[1..])
  }

  function ProjectEntries(names: seq<string>): (r: seq<ProjectEntry>)
    ensures |r| == |names|
    ensures forall p :: p in r ==> p.name in names
    ensures forall p :: p in r ==> p.description == "" && p.technologies == "" && p.url == ""
  {
    if |names| == 0 then []
    else [ProjectEntry(names[0], "", "", "")] + ProjectEntries(names[1..])
  }

  /** One entry per key line of the experience rule with a fitting line among
      the next nine: that line's stripped text as the title, everything else "". */
  function ExtractExperience(text: string): (r: seq<ExperienceEntry>)
    ensures |r| <= |Split(text, "\n")|
    ensures forall e :: e in r ==> IsStripped(e.title) && 5 < |e.title| < 100
    ensures forall e :: e in r ==> e.company == "" && e.duration == Some("") && e.description == ""
    ensures '\n' !in text ==> r == []
  {
    OneLineSplit(text);
    ExperienceEntries(KeyLineTitles(Split(text, "\n"), ExperienceRule, 0))
  }

  /** One entry per key line of the project rule with a line longer than ten
      characters among the next four: that line's stripped text as the name. */
  function ExtractProjects(text: string): (r: seq<ProjectEntry>)
    ensures |r| <= |Split(text, "\n")|
    ensures forall p :: p in r ==> IsStripped(p.name) && 10 < |p.name|
    ensures forall p :: p in r ==> p.description == "" && p.technologies == "" && p.url == ""
    ensures '\n' !in text ==> r == []
  {
    OneLineSplit(text);
    ProjectEntries(KeyLineTitles(Split(text, "\n"), ProjectRule, 0))
  }

  // ---------------------------------------------------------------------------
  // Certifications (`extract_certifications`)

  const CertVendors: seq<Word> := ["aws", "azure", "gcp", "google", "microsoft", "oracle", "cisco", "comptia"]
  const CertWords: seq<Word> := ["certified", "certification", "certificate"]
  const CertAcronyms: seq<Word> := ["pmp", "scrum", "agile", "itil", "six sigma"]

  /** No line break in `s[m..n)`: the span a `.*?` can skip. */
  predicate OnOneLine(s: string, m: nat, n: nat) {
    forall k :: m <= k < n && k < |s| ==> s[k] != '\n'
  }

  /** One of `alts` matches case-insensitively at `n` and is followed by `\b`. */
  predicate EndWordAt(s: string, n: nat, alts: seq<Word>) {
    exists b :: 0 <= b < |alts| && AtCi(s, n, alts[b]) && Boundary(s, n + |alts[b]|)
  }

  /** `(seconds)\b` matches somewhere in `s[m..]` before the line ends. */
  predicate SecondWithin(s: string, m: nat, seconds: seq<Word>) {
    exists n :: m <= n <= |s| && OnOneLine(s, m, n) && EndWordAt(s, n, seconds)
  }

  /** `\b(firsts).*?(seconds)\b` has a match starting at `i`: backtracking tries
      every first alternative and every length of the lazy gap. */
  predicate PairMatchAt(s: string, i: nat, firsts: seq<Word>, seconds: seq<Word>) {
    Boundary(s, i) &&
    exists a :: 0 <= a < |firsts| && AtCi(s, i, firsts[a]) && SecondWithin(s, i + |firsts[a]|, seconds)
  }

  function EndWordFrom(s: string, n: nat, alts: seq<Word>, b: nat): (r: bool)
    ensures r <==> exists c :: b <= c < |alts| && AtCi(s, n, alts[c]) && Boundary(s, n + |alts[c]|)
    decreases |alts| - b
  {
    if b >= |alts| then false
    else (AtCi(s, n, alts[b]) && Boundary(s, n + |alts[b]|)) || EndWordFrom(s, n, alts, b + 1)
  }

  /** The scan of the lazy gap: the nearest position first, stopping at a line
      break. */
  function SecondAhead(s: string, m: nat, seconds: seq<Word>): (r: bool)
    requires m <= |s|
    ensures r <==> SecondWithin(s, m, seconds)
    decreases |s| - m
  {
    if EndWordFrom(s, m, seconds, 0) then
      assert OnOneLine(s, m, m);
      true
    else if m < |s| && s[m] != '\n' then
      SecondWithinStep(s, m, seconds);
      SecondAhead(s, m + 1, seconds)
    else
      SecondWithinStop(s, m, seconds);
      false
  }

  /** Past a position where no second word ends the match, the gap grows by one
      character unless that character is a line break. */
  lemma SecondWithinStep(s: string, m: nat, seconds: seq<Word>)
    requires m < |s| && s[m] != '\n' && !EndWordAt(s, m, seconds)
    ensures SecondWithin(s, m, seconds) <==> SecondWithin(s, m + 1, seconds)
  {
    if SecondWithin(s, m + 1, seconds) {
      var n :| m + 1 <= n <= |s| && OnOneLine(s, m + 1, n) && EndWordAt(s, n, seconds);
      assert OnOneLine(s, m, n);
    }
    if SecondWithin(s, m, seconds) {
      var n :| m <= n <= |s| && OnOneLine(s, m, n) && EndWordAt(s, n, seconds);
      assert n != m;
      assert OnOneLine(s, m + 1, n);
    }
  }

  /** At a line break or the end of the text the gap cannot grow. */
  lemma SecondWithinStop(s: string, m: nat, seconds: seq<Word>)
    requires m <= |s| && !EndWordAt(s, m, seconds) && (m == |s| || s[m] == '\n')
    ensures !SecondWithin(s, m, seconds)
  {
    forall n | m <= n <= |s| && OnOneLine(s, m, n)
      ensures n == m
    {
    }
  }

  function PairFrom(s: string, i: nat, firsts: seq<Word>, seconds: seq<Word>, a: nat): (r: bool)
    ensures r <==> exists c :: a <= c < |firsts| && AtCi(s, i, firsts[c]) && SecondWithin(s, i + |firsts[c]|, seconds)
    decreases |firsts| - a
  {
    if a >= |firsts| then false
    else (AtCi(s, i, firsts[a]) && SecondAhead(s, i + |firsts[a]|, seconds)) || PairFrom(s, i, firsts, seconds, a + 1)
  }

  /** Whether `\b(firsts).*?(seconds)\b` matches anywhere in `s[i..]`, which is
      exactly when `re.findall` with it returns a non-empty list. */
  function HasPairMatch(s: string, i: nat, firsts: seq<Word>, seconds: seq<Word>): (r: bool)
    requires i <= |s|
    ensures r <==> exists j :: i <= j <= |s| && PairMatchAt(s, j, firsts, seconds)
    decreases |s| - i
  {
    if Boundary(s, i) && PairFrom(s, i, firsts, seconds, 0) then
      assert PairMatchAt(s, i, firsts, seconds);
      true
    else if i == |s| then false
    else
      PairMatchStep(s, i, firsts, seconds);
      HasPairMatch(s, i + 1, firsts, seconds)
  }

  /** Where no match starts at `i`, a match at or after `i` is one after `i`. */
  lemma PairMatchStep(s: string, i: nat, firsts: seq<Word>, seconds: seq<Word>)
    requires i < |s| && !PairMatchAt(s, i, firsts, seconds)
    ensures (exists j :: i <= j <= |s| && PairMatchAt(s, j, firsts, seconds)) <==>
      (exists j :: i + 1 <= j <= |s| && PairMatchAt(s, j, firsts, seconds))
  {
    if exists j :: i <= j <= |s| && PairMatchAt(s, j, firsts, seconds) {
      var j :| i <= j <= |s| && PairMatchAt(s, j, firsts, seconds);
      assert i + 1 <= j;
    }
  }

  const TupleLowerError := "'tuple' object has no attribute 'lower'"

  /** A vendor and a certification word on one line, in either order, make one
      of the two-group patterns match; `findall` then yields tuples, whose missing
      `lower()` raises.  Otherwise the result is the distinct acronym hits.  The
      acronym pattern runs on the lower-cased text; with ASCII case folding this
      finds the same words as the case-insensitive search followed by `lower()`. */
  function ExtractCertifications(text: string): (r: Result<seq<string>>)
    ensures r.Failure? <==> exists i :: (0 <= i <= |text| &&
      (PairMatchAt(text, i, CertVendors, CertWords) || PairMatchAt(text, i, CertWords, CertVendors)))
    ensures r.Failure? ==> r.error == TupleLowerError
    ensures r.Success? ==> NoDuplicates(r.value) && forall c :: c in r.value ==> c in CertAcronyms
    ensures r.Success? ==> forall c :: c in r.value <==> c in FindWords(Lower(text), CertAcronyms, 0)
  {
    if HasPairMatch(text, 0, CertVendors, CertWords) || HasPairMatch(text, 0, CertWords, CertVendors) then
      Failure(TupleLowerError)
    else
      Success(Dedup(FindWords(Lower(text), CertAcronyms, 0)))
  }

  // ---------------------------------------------------------------------------
  // The whole document (`parse_resume`)

  const NoTextError := "Could not extract text from file"

  /** The record returned when parsing fails: no text, empty collections, an
      empty contact dictionary and no file name. */
  function ErrorRecord(message: string): (r: Resume)
    ensures r.error == Some(message)
    ensures r.rawText == "" && r.cleanedText == "" && r.filename == "" && r.contactInfo.None?
    ensures r.skills == [] && r.education == [] && r.experience == [] && r.projects == [] && r.certifications == []
  {
    Resume("", "", None, [], [], [], [], [], "", Some(message))
  }

  /** `parse_resume`: the error record when no text could be read, when the
      model raises on the cleaned text, or when the certification extractor
      raises, with the message of the first of these; otherwise every extractor
      runs on the cleaned text.  That text is a single line, so the
      line-scanning extractors find nothing. */
  function ParseResume(path: string, pdf: string -> string, docx: string -> string, nlp: Option<Matcher>): (r: Resume)
    ensures var raw := ExtractText(path, pdf, docx);
      r.error.Some? <==> (raw == "" || ExtractContactInfo(CleanText(raw), nlp).Failure? ||
        ExtractCertifications(CleanText(raw)).Failure?)
    ensures ExtractText(path, pdf, docx) == "" ==> r == ErrorRecord(NoTextError)
    ensures var raw := ExtractText(path, pdf, docx);
      raw != "" && ExtractContactInfo(CleanText(raw), nlp).Failure? ==>
        r == ErrorRecord(ExtractContactInfo(CleanText(raw), nlp).error)
    ensures var raw := ExtractText(path, pdf, docx);
      (raw != "" && ExtractContactInfo(CleanText(raw), nlp).Success? && ExtractCertifications(CleanText(raw)).Failure?) ==>
        r == ErrorRecord(TupleLowerError)
    ensures r.error.Some? ==> (r.rawText == "" && r.contactInfo.None? && r.filename == "" &&
      r.skills == [] && r.education == [] && r.experience == [] && r.projects == [] && r.certifications == [])
    ensures r.error.None? ==> (r.rawText == ExtractText(path, pdf, docx) && r.rawText != "" &&
      r.cleanedText == CleanText(r.rawText) && r.filename == FileName(path) && r.contactInfo.Some?)
    ensures r.error.None? ==> r.experience == [] && r.projects == []
    ensures r.error.None? ==> NoDuplicates(r.skills) && NoDuplicates(r.certifications)
    ensures r.error.None? ==>
      && ExtractContactInfo(r.cleanedText, nlp).Success?
      && r.contactInfo == Some(ExtractContactInfo(r.cleanedText, nlp).value)
      && r.skills == ExtractSkills(r.cleanedText)
      && r.education == ExtractEducation(r.cleanedText)
      && r.experience == ExtractExperience(r.cleanedText)
      && r.projects == ExtractProjects(r.cleanedText)
      && r.certifications == ExtractCertifications(r.cleanedText).value
  {
    var raw := ExtractText(path, pdf, docx);
    if raw == "" then ErrorRecord(NoTextError)
    else
      var cleaned := CleanText(raw);
      match ExtractContactInfo(cleaned, nlp)
      case Failure(e) => ErrorRecord(e)
      case Success(contact) =>
      match ExtractCertifications(cleaned)
      case Failure(e) => ErrorRecord(e)
      case Success(certs) =>
        Resume(
          raw, cleaned, Some(contact), ExtractSkills(cleaned),
          ExtractEducation(cleaned), ExtractExperience(cleaned), ExtractProjects(cleaned),
          certs, FileName(path), None)
  }

  /** A file whose extension is neither pdf, docx nor doc yields the error record. */
  lemma UnsupportedFileRejected(path: string, pdf: string -> string, docx: string -> string, nlp: Option<Matcher>)
    requires !IsPdf(path) && !IsWordDocument(path)
    ensures ParseResume(path, pdf, docx, nlp) == ErrorRecord(NoTextError)
  {
  }

  /** With a model loaded, the parsed name is the whole cleaned text when it
      looks like a name, and "" otherwise. */
  lemma ParsedName(path: string, pdf: string -> string, docx: string -> string, matcher: Matcher)
    requires ParseResume(path, pdf, docx, Some(matcher)).error.None?
    ensures var r := ParseResume(path, pdf, docx, Some(matcher));
      r.contactInfo.Some? &&
      r.contactInfo.value.name == (if LooksLikeName(r.cleanedText) then r.cleanedText else "")
  {
    var cleaned := CleanText(ExtractText(path, pdf, docx));
    SingleLineName(cleaned, matcher);
  }
}

=== FILE: scoring_engine.dfy ===
/** The scoring engine: it normalises the two weights, fuses and clamps the
    hard and semantic scores, maps the result to a verdict and a percentage,
    merges the missing-element lists and rates its own confidence.

    The engine reads the two matcher results as dictionaries, with `.get` and a
    default at every step.  A `HardReport` and a `SemanticReport` are those
    dictionaries as the engine sees them: a score key may be absent or hold a
    value that is not a number, and a nested dictionary may be absent or hold
    a value that is not a dictionary.  A list-valued key that is absent reads
    as `[]`, so it is modelled by the empty list. */
module ScoringEngine {
  import opened Wrappers
  import opened Text
  import HardMatching
  import SemanticMatching
  import Documents

  // ---------------------------------------------------------------------------
  // Weights

  /** The two weights of a constructed engine. */
  datatype Engine = Engine(hardWeight: real, semanticWeight: real)

  const DefaultHardWeight: real := 0.4
  const DefaultSemanticWeight: real := 0.6

  /** The message of the `ZeroDivisionError` a zero weight sum raises. */
  const ZeroDivisionMessage: string := "float division by zero"

  /** `ScoringEngine.__init__`, with the two weights as read from the
      environment: a pair whose sum is not 1 is divided by its sum, which
      raises when the sum is 0. */
  function NewEngine(hardWeight: real, semanticWeight: real): (r: Result<Engine>)
    ensures r.Failure? <==> hardWeight + semanticWeight == 0.0
    ensures r.Failure? ==> r.error == ZeroDivisionMessage
    ensures r.Success? ==> r.value.hardWeight + r.value.semanticWeight == 1.0
    ensures r.Success? ==> r.value.hardWeight * semanticWeight == r.value.semanticWeight * hardWeight
    ensures hardWeight + semanticWeight == 1.0 ==> r == Success(Engine(hardWeight, semanticWeight))
  {
    var total := hardWeight + semanticWeight;
    if total == 1.0 then Success(Engine(hardWeight, semanticWeight))
    else if total == 0.0 then Failure(ZeroDivisionMessage)
    else Success(Normalised(hardWeight, semanticWeight, total))
  }

  /** Both weights divided by their non-zero sum. */
  function Normalised(hardWeight: real, semanticWeight: real, total: real): (r: Engine)
    requires total == hardWeight + semanticWeight && total != 0.0
    ensures r.hardWeight + r.semanticWeight == 1.0
    ensures r.hardWeight * semanticWeight == r.semanticWeight * hardWeight
  {
    var h := hardWeight / total;
    var s := semanticWeight / total;
    assert h * total == hardWeight && s * total == semanticWeight;
    ShareSum(hardWeight, semanticWeight, total);
    assert h * semanticWeight == h * (s * total) == s * (h * total) == s * hardWeight;
    Engine(h, s)
  }

  lemma ShareSum(a: real, b: real, t: real)
    requires t == a + b && t != 0.0
    ensures a / t + b / t == 1.0
  {
    assert a / t + b / t == (a + b) / t;
  }

  /** The default weights 0.4 and 0.6 already sum to 1 and are kept. */
  lemma DefaultEngine()
    ensures NewEngine(DefaultHardWeight, DefaultSemanticWeight) == Success(Engine(0.4, 0.6))
  {
  }

  // ---------------------------------------------------------------------------
  // The matcher results as the engine reads them

  /** A dictionary value the engine does arithmetic on: a number, or a value
      of any other type (None, a string), on which the arithmetic raises. */
  datatype Value = Num(x: real) | NonNumber

  /** A key read with `.get(key, {})`: absent, a dictionary, or a value of
      another type (named as Python names it, such as "list" or "NoneType"),
      on which the next `.get` raises. */
  datatype Section<T> = Absent | Dict(fields: T) | NotDict(typeName: string)

  /** The fields of a readable section; an absent one reads as `empty`. */
  function Of<T>(s: Section<T>, empty: T): T {
    if s.Dict? then s.fields else empty
  }

  /** A score key read with `.get(key, 0.0)`. */
  function ScoreOf(v: Option<Value>): Value {
    v.GetOr(Num(0.0))
  }

  datatype ExactView = ExactView(exactMatches: seq<string>, missingSkills: seq<string>)
  datatype FuzzyView = FuzzyView(fuzzyMatches: seq<HardMatching.FuzzyMatch>)
  datatype EducationView = EducationView(educationMatches: seq<HardMatching.EducationMatch>, missingQualifications: seq<string>)
  datatype ExperienceView = ExperienceView(experienceAnalysis: Option<HardMatching.ExperienceAnalysis>)
  datatype CertificationView = CertificationView(certificationMatches: seq<HardMatching.CertificationMatch>, missingCertifications: seq<string>)

  const EmptyExact: ExactView := ExactView([], [])
  const EmptyFuzzy: FuzzyView := FuzzyView([])
  const EmptyEducation: EducationView := EducationView([], [])
  const EmptyExperience: ExperienceView := ExperienceView(None)
  const EmptyCertification: CertificationView := CertificationView([], [])

  datatype HardReport = HardReport(
    hardMatchScore: Option<Value>,
    exactSkillMatch: Section<ExactView>,
    fuzzySkillMatch: Section<FuzzyView>,
    educationMatch: Section<EducationView>,
    experienceMatch: Section<ExperienceView>,
    certificationMatch: Section<CertificationView>)

  datatype SkillsView = SkillsView(semanticMatches: seq<SemanticMatching.SemanticSkillMatch>)

  /** `fitScore` absent reads as 0; `experienceAssessment` absent reads as
      "Not assessed". */
  datatype LlmView = LlmView(fitScore: Option<Value>, strengths: seq<string>, missingSkills: seq<string>, experienceAssessment: Option<string>)

  const EmptySkills: SkillsView := SkillsView([])
  const EmptyLlm: LlmView := LlmView(None, [], [], None)

  datatype SemanticReport = SemanticReport(
    semanticScore: Option<Value>,
    semanticSkills: Section<SkillsView>,
    llmAnalysis: Section<LlmView>,
    improvementSuggestions: seq<string>)

  /** The dictionary `calculate_hard_match_score` returns, as the engine reads
      it: every key of the full result, or only the score of the error record. */
  function HardReportOf(h: HardMatching.HardOutcome): (r: HardReport)
    ensures h.HardFailed? ==> r == HardReport(Some(Num(0.0)), Absent, Absent, Absent, Absent, Absent)
    ensures ScoreOf(r.hardMatchScore).Num?
    ensures Readable(r)
  {
    match h
    case HardFailed(_) => HardReport(Some(Num(0.0)), Absent, Absent, Absent, Absent, Absent)
    case HardMatched(m) =>
      HardReport(
        Some(Num(m.hardMatchScore)),
        Dict(ExactView(m.exactSkillMatch.exactMatches, m.exactSkillMatch.missingSkills)),
        Dict(FuzzyView(m.fuzzySkillMatch.fuzzyMatches)),
        Dict(EducationView(m.educationMatch.educationMatches, m.educationMatch.missingQualifications)),
        Dict(ExperienceView(Some(m.experienceMatch.experienceAnalysis))),
        Dict(CertificationView(m.certificationMatch.certificationMatches, m.certificationMatch.missingCertifications)))
  }

  /** The dictionary `calculate_semantic_match_score` returns, as the engine
      reads it.  The skill dictionary without embeddings has no
      "semantic_matches" key, which reads as the empty list. */
  function SemanticReportOf(s: SemanticMatching.SemanticOutcome): (r: SemanticReport)
    ensures s.SemanticFailed? ==> r == SemanticReport(Some(Num(0.0)), Absent, Absent, [])
    ensures ScoreOf(r.semanticScore).Num? && ScoreOf(r.semanticScore).x == s.Score()
    ensures ScoreOf(Of(r.llmAnalysis, EmptyLlm).fitScore).Num?
    ensures Understood(r)
  {
    match s
    case SemanticFailed(_) => SemanticReport(Some(Num(0.0)), Absent, Absent, [])
    case SemanticMatched(m) =>
      var a := m.llmAnalysis;
      SemanticReport(
        Some(Num(m.semanticScore)),
        Dict(SkillsView(m.semanticSkills.Matches())),
        Dict(LlmView(Some(Num(a.fitScore)), a.strengths, a.missingSkills, a.experienceAssessment)),
        m.improvementSuggestions)
  }

  /** No section of the hard result holds a non-dictionary. */
  predicate Readable(h: HardReport) {
    && !h.exactSkillMatch.NotDict? && !h.fuzzySkillMatch.NotDict? && !h.educationMatch.NotDict?
    && !h.experienceMatch.NotDict? && !h.certificationMatch.NotDict?
  }

  /** No section of the semantic result holds a non-dictionary. */
  predicate Understood(s: SemanticReport) {
    !s.semanticSkills.NotDict? && !s.llmAnalysis.NotDict?
  }

  // ---------------------------------------------------------------------------
  // Final score, verdict, percentage

  /** The weighted sum of the two scores. */
  function Weighted(e: Engine, hard: real, semantic: real): real {
    hard * e.hardWeight + semantic * e.semanticWeight
  }

  /** `max(0.0, min(1.0, x))`. */
  function Clamp(x: real): (r: real)
    ensures 0.0 <= r <= 1.0
    ensures x <= 0.0 ==> r == 0.0
    ensures x >= 1.0 ==> r == 1.0
    ensures 0.0 <= x <= 1.0 ==> r == x
  {
    if x < 0.0 then 0.0 else if x > 1.0 then 1.0 else x
  }

  /** `calculate_final_score`: the weighted sum clamped to [0,1]; a score that
      is not a number makes the arithmetic raise and the result 0.0. */
  function FinalScore(e: Engine, hard: HardReport, semantic: SemanticReport): (r: real)
    ensures 0.0 <= r <= 1.0
    ensures ScoreOf(hard.hardMatchScore).NonNumber? || ScoreOf(semantic.semanticScore).NonNumber? ==> r == 0.0
    ensures ScoreOf(hard.hardMatchScore).Num? && ScoreOf(semantic.semanticScore).Num? ==>
      var w := Weighted(e, ScoreOf(hard.hardMatchScore).x, ScoreOf(semantic.semanticScore).x);
      && (w <= 0.0 ==> r == 0.0)
      && (w >= 1.0 ==> r == 1.0)
      && (0.0 <= w <= 1.0 ==> r == w)
  {
    match (ScoreOf(hard.hardMatchScore), ScoreOf(semantic.semanticScore))
    case (Num(h), Num(s)) => Clamp(Weighted(e, h, s))
    case _ => 0.0
  }

  /** An absent score key counts as 0.0. */
  lemma AbsentScoreReadsZero(e: Engine, hard: HardReport, semantic: SemanticReport)
    ensures FinalScore(e, hard.(hardMatchScore := None), semantic) == FinalScore(e, hard.(hardMatchScore := Some(Num(0.0))), semantic)
    ensures FinalScore(e, hard, semantic.(semanticScore := None)) == FinalScore(e, hard, semantic.(semanticScore := Some(Num(0.0))))
  {
  }

  /** With normalised non-negative weights and scores in [0,1] no clamping
      happens: the final score is the weighted sum. */
  lemma {:induction false} NoClampInRange(e: Engine, hard: HardReport, semantic: SemanticReport, h: real, s: real)
    requires 0.0 <= e.hardWeight && 0.0 <= e.semanticWeight && e.hardWeight + e.semanticWeight == 1.0
    requires hard.hardMatchScore == Some(Num(h)) && semantic.semanticScore == Some(Num(s))
    requires 0.0 <= h <= 1.0 && 0.0 <= s <= 1.0
    ensures FinalScore(e, hard, semantic) == Weighted(e, h, s)
  {
    WeightedInUnit(e, h, s);
  }

  lemma WeightedInUnit(e: Engine, h: real, s: real)
    requires 0.0 <= e.hardWeight && 0.0 <= e.semanticWeight && e.hardWeight + e.semanticWeight == 1.0
    requires 0.0 <= h <= 1.0 && 0.0 <= s <= 1.0
    ensures 0.0 <= Weighted(e, h, s) <= 1.0
  {
    MulAtMost(h, e.hardWeight);
    MulAtMost(s, e.semanticWeight);
    calc {
      Weighted(e, h, s);
    ==
      h * e.hardWeight + s * e.semanticWeight;
    <= { MulAtMost(h, e.hardWeight); }
      e.hardWeight + s * e.semanticWeight;
    <= { MulAtMost(s, e.semanticWeight); }
      e.hardWeight + e.semanticWeight;
    }
  }

  lemma MulAtMost(a: real, b: real)
    requires 0.0 <= a <= 1.0 && 0.0 <= b
    ensures 0.0 <= a * b <= b
  {
  }

  /** With non-negative weights a higher score never lowers the final score. */
  lemma {:induction false} FinalScoreMonotone(e: Engine, h1: real, s1: real, h2: real, s2: real)
    requires 0.0 <= e.hardWeight && 0.0 <= e.semanticWeight
    requires h1 <= h2 && s1 <= s2
    ensures Clamp(Weighted(e, h1, s1)) <= Clamp(Weighted(e, h2, s2))
  {
    WeightedMonotone(e, h1, s1, h2, s2);
    ClampMonotone(Weighted(e, h1, s1), Weighted(e, h2, s2));
  }

  lemma WeightedMonotone(e: Engine, h1: real, s1: real, h2: real, s2: real)
    requires 0.0 <= e.hardWeight && 0.0 <= e.semanticWeight
    requires h1 <= h2 && s1 <= s2
    ensures Weighted(e, h1, s1) <= Weighted(e, h2, s2)
  {
    MulMonotone(h1, h2, e.hardWeight);
    MulMonotone(s1, s2, e.semanticWeight);
  }

  lemma MulMonotone(a: real, b: real, c: real)
    requires a <= b && 0.0 <= c
    ensures a * c <= b * c
  {
  }

  lemma ClampMonotone(x: real, y: real)
    requires x <= y
    ensures Clamp(x) <= Clamp(y)
  {
  }

  datatype Verdict = High | Medium | Low

  function VerdictName(v: Verdict): string {
    match v
    case High => "High"
    case Medium => "Medium"
    case Low => "Low"
  }

  function VerdictRank(v: Verdict): nat {
    match v
    case Low => 0
    case Medium => 1
    case High => 2
  }

  /** `determine_verdict`: High from 0.8, Medium from 0.6, otherwise Low. */
  function DetermineVerdict(score: real): (r: Verdict)
    ensures r == High <==> score >= 0.8
    ensures r == Medium <==> 0.6 <= score < 0.8
    ensures r == Low <==> score < 0.6
  {
    if score >= 0.8 then High else if score >= 0.6 then Medium else Low
  }

  /** A higher score never gets a worse verdict. */
  lemma VerdictMonotone(a: real, b: real)
    requires a <= b
    ensures VerdictRank(DetermineVerdict(a)) <= VerdictRank(DetermineVerdict(b))
  {
  }

  /** `convert_to_percentage`: `int(score * 100)`, which truncates toward zero. */
  function ConvertToPercentage(score: real): (r: int)
    ensures score >= 0.0 ==> r >= 0 && r as real <= score * 100.0 < r as real + 1.0
    ensures score < 0.0 ==> r <= 0 && r as real - 1.0 < score * 100.0 <= r as real
    ensures 0.0 <= score <= 1.0 ==> 0 <= r <= 100
  {
    var x := score * 100.0;
    if x >= 0.0 then x.Floor else -((-x).Floor)
  }

  // ---------------------------------------------------------------------------
  // Missing elements

  datatype MissingElements = MissingElements(skills: seq<string>, certifications: seq<string>, projects: seq<string>, experience: seq<string>)

  /** The four sections the missing-element lists are read from. */
  predicate MissingReadable(hard: HardReport, semantic: SemanticReport) {
    && !hard.exactSkillMatch.NotDict? && !hard.certificationMatch.NotDict?
    && !hard.educationMatch.NotDict? && !semantic.llmAnalysis.NotDict?
  }

  /** `generate_missing_elements`: the exact-match missing skills, the missing
      qualifications and the model's missing skills, without duplicates, and
      the missing certifications, without duplicates.  A section that is not a
      dictionary raises; the lists gathered before it are returned as they
      are, and the model's list is never reached. */
  function GenerateMissingElements(hard: HardReport, semantic: SemanticReport): (r: MissingElements)
    ensures r.projects == [] && r.experience == []
    ensures MissingReadable(hard, semantic) ==>
      && NoDuplicates(r.skills) && NoDuplicates(r.certifications)
      && (forall x :: x in r.skills <==>
            || x in Of(hard.exactSkillMatch, EmptyExact).missingSkills
            || x in Of(hard.educationMatch, EmptyEducation).missingQualifications
            || x in Of(semantic.llmAnalysis, EmptyLlm).missingSkills)
      && (forall x :: x in r.certifications <==> x in Of(hard.certificationMatch, EmptyCertification).missingCertifications)
    ensures !MissingReadable(hard, semantic) ==>
      && (forall x :: x in r.skills ==>
            x in Of(hard.exactSkillMatch, EmptyExact).missingSkills || x in Of(hard.educationMatch, EmptyEducation).missingQualifications)
      && (forall x :: x in r.certifications ==> x in Of(hard.certificationMatch, EmptyCertification).missingCertifications)
    ensures hard.exactSkillMatch.NotDict? ==> r == MissingElements([], [], [], [])
  {
    if hard.exactSkillMatch.NotDict? then MissingElements([], [], [], [])
    else
      var skills := Of(hard.exactSkillMatch, EmptyExact).missingSkills;
      if hard.certificationMatch.NotDict? then MissingElements(skills, [], [], [])
      else
        var certs := Of(hard.certificationMatch, EmptyCertification).missingCertifications;
        if hard.educationMatch.NotDict? then MissingElements(skills, certs, [], [])
        else
          var withQualifications := skills + Of(hard.educationMatch, EmptyEducation).missingQualifications;
          if semantic.llmAnalysis.NotDict? then MissingElements(withQualifications, certs, [], [])
          else
            MissingElements(Dedup(withQualifications + Of(semantic.llmAnalysis, EmptyLlm).missingSkills), Dedup(certs), [], [])
  }

  // ---------------------------------------------------------------------------
  // Confidence

  /** The agreement factor: 0.3, 0.2 or 0.1 as the scores differ by less than
      0.2, less than 0.4, or more. */
  function Agreement(difference: real): (r: real)
    ensures 0.1 <= r <= 0.3
  {
    if difference < 0.2 then 0.3 else if difference < 0.4 then 0.2 else 0.1
  }

  function Abs(x: real): (r: real)
    ensures r >= 0.0 && (r == x || r == -x)
  {
    if x < 0.0 then -x else x
  }

  /** The reads of `calculate_confidence_score` that raise: arithmetic or a
      comparison on a value that is not a number, or `.get` on a section that
      is not a dictionary. */
  predicate ConfidenceRaises(hard: HardReport, semantic: SemanticReport) {
    || ScoreOf(hard.hardMatchScore).NonNumber? || ScoreOf(semantic.semanticScore).NonNumber?
    || hard.exactSkillMatch.NotDict? || semantic.semanticSkills.NotDict? || semantic.llmAnalysis.NotDict?
    || ScoreOf(Of(semantic.llmAnalysis, EmptyLlm).fitScore).NonNumber?
  }

  predicate HasExactMatch(hard: HardReport) {
    |Of(hard.exactSkillMatch, EmptyExact).exactMatches| > 0
  }

  predicate HasSemanticMatch(semantic: SemanticReport) {
    |Of(semantic.semanticSkills, EmptySkills).semanticMatches| > 0
  }

  predicate PositiveFit(semantic: SemanticReport) {
    var f := ScoreOf(Of(semantic.llmAnalysis, EmptyLlm).fitScore);
    f.Num? && f.x > 0.0
  }

  /** The distance between the two scores, when both are numbers. */
  function ScoreGap(hard: HardReport, semantic: SemanticReport): (r: real)
    requires !ConfidenceRaises(hard, semantic)
    ensures r >= 0.0
  {
    Abs(ScoreOf(hard.hardMatchScore).x - ScoreOf(semantic.semanticScore).x)
  }

  /** The confidence default when the computation raises. */
  const DefaultConfidence: real := 0.5

  /** `calculate_confidence_score`: the agreement factor, plus 0.2 for any
      exact match, 0.2 for any semantic match and 0.3 for a positive fit
      score, capped at 1.0; 0.5 when a read raises. */
  function CalculateConfidenceScore(hard: HardReport, semantic: SemanticReport): (r: real)
    ensures 0.1 <= r <= 1.0
    ensures ConfidenceRaises(hard, semantic) ==> r == DefaultConfidence
    ensures !ConfidenceRaises(hard, semantic) ==> r >= Agreement(ScoreGap(hard, semantic))
  {
    if ConfidenceRaises(hard, semantic) then DefaultConfidence
    else
      var sum := Agreement(ScoreGap(hard, semantic))
        + (if HasExactMatch(hard) then 0.2 else 0.0)
        + (if HasSemanticMatch(semantic) then 0.2 else 0.0)
        + (if PositiveFit(semantic) then 0.3 else 0.0);
      if sum < 1.0 then sum else 1.0
  }

  /** Full confidence needs all four factors at their best. */
  lemma ConfidenceFull(hard: HardReport, semantic: SemanticReport)
    requires !ConfidenceRaises(hard, semantic)
    ensures CalculateConfidenceScore(hard, semantic) == 1.0 <==>
      ScoreGap(hard, semantic) < 0.2 && HasExactMatch(hard) && HasSemanticMatch(semantic) && PositiveFit(semantic)
  {
  }

  /** The floor 0.1 is reached only with scores 0.4 or more apart and no
      other factor. */
  lemma ConfidenceFloor(hard: HardReport, semantic: SemanticReport)
    requires !ConfidenceRaises(hard, semantic)
    ensures CalculateConfidenceScore(hard, semantic) == 0.1 <==>
      ScoreGap(hard, semantic) >= 0.4 && !HasExactMatch(hard) && !HasSemanticMatch(semantic) && !PositiveFit(semantic)
  {
  }

  /** Closer scores and more factors never lower the confidence. */
  lemma ConfidenceMonotone(h1: HardReport, s1: SemanticReport, h2: HardReport, s2: SemanticReport)
    requires !ConfidenceRaises(h1, s1) && !ConfidenceRaises(h2, s2)
    requires ScoreGap(h2, s2) <= ScoreGap(h1, s1)
    requires HasExactMatch(h1) ==> HasExactMatch(h2)
    requires HasSemanticMatch(s1) ==> HasSemanticMatch(s2)
    requires PositiveFit(s1) ==> PositiveFit(s2)
    ensures CalculateConfidenceScore(h1, s1) <= CalculateConfidenceScore(h2, s2)
  {
  }

  // ---------------------------------------------------------------------------
  // Detailed analysis

  datatype ScoreBreakdown = ScoreBreakdown(
    hardMatchScore: Value,
    semanticMatchScore: Value,
    hardMatchWeight: real,
    semanticMatchWeight: real,
    finalScore: real,
    percentageScore: int)

  datatype MatchingDetails = MatchingDetails(
    exactSkillMatches: seq<string>,
    fuzzySkillMatches: seq<HardMatching.FuzzyMatch>,
    semanticSkillMatches: seq<SemanticMatching.SemanticSkillMatch>,
    educationMatches: seq<HardMatching.EducationMatch>,
    certificationMatches: seq<HardMatching.CertificationMatch>,
    experienceAnalysis: Option<HardMatching.ExperienceAnalysis>)

  /** The analysis dictionary, or the four-key record of the exception path. */
  datatype DetailedAnalysis =
    | Detailed(
        relevanceScore: int,
        verdict: Verdict,
        finalScore: real,
        scoreBreakdown: ScoreBreakdown,
        missingElements: MissingElements,
        improvementSuggestions: seq<string>,
        strengths: seq<string>,
        experienceAssessment: string,
        matchingDetails: MatchingDetails,
        analysisTimestamp: string)
    | Degraded(relevanceScore: int, verdict: Verdict, finalScore: real, error: string)

  /** `str(e)` of the `AttributeError` a `.get` on a value of type `typeName` raises. */
  function NoGetMessage(typeName: string): string {
    "'" + typeName + "' object has no attribute 'get'"
  }

  /** The type of the first section `generate_detailed_analysis` calls `.get`
      on that is not a dictionary: the model's analysis is read first (for its
      strengths), then the matching details in the order of their keys. */
  function FirstNonDict(hard: HardReport, semantic: SemanticReport): (r: Option<string>)
    ensures r.None? <==> Readable(hard) && Understood(semantic)
    ensures semantic.llmAnalysis.NotDict? ==> r == Some(semantic.llmAnalysis.typeName)
    ensures r.Some? ==>
      || (semantic.llmAnalysis.NotDict? && r.value == semantic.llmAnalysis.typeName)
      || (semantic.semanticSkills.NotDict? && r.value == semantic.semanticSkills.typeName)
      || (hard.exactSkillMatch.NotDict? && r.value == hard.exactSkillMatch.typeName)
      || (hard.fuzzySkillMatch.NotDict? && r.value == hard.fuzzySkillMatch.typeName)
      || (hard.educationMatch.NotDict? && r.value == hard.educationMatch.typeName)
      || (hard.certificationMatch.NotDict? && r.value == hard.certificationMatch.typeName)
      || (hard.experienceMatch.NotDict? && r.value == hard.experienceMatch.typeName)
  {
    if semantic.llmAnalysis.NotDict? then Some(semantic.llmAnalysis.typeName)
    else if hard.exactSkillMatch.NotDict? then Some(hard.exactSkillMatch.typeName)
    else if hard.fuzzySkillMatch.NotDict? then Some(hard.fuzzySkillMatch.typeName)
    else if semantic.semanticSkills.NotDict? then Some(semantic.semanticSkills.typeName)
    else if hard.educationMatch.NotDict? then Some(hard.educationMatch.typeName)
    else if hard.certificationMatch.NotDict? then Some(hard.certificationMatch.typeName)
    else if hard.experienceMatch.NotDict? then Some(hard.experienceMatch.typeName)
    else None
  }

  const NotAssessed: string := "Not assessed"

  /** `generate_detailed_analysis`, with the clock reading as a parameter.  The
      nested reads of the model's analysis and of the matching details raise
      on a section that is not a dictionary. */
  function GenerateDetailedAnalysis(e: Engine, hard: HardReport, semantic: SemanticReport, timestamp: string): (r: DetailedAnalysis)
    ensures r.Degraded? <==> !(Readable(hard) && Understood(semantic))
    ensures r.Degraded? ==> r.relevanceScore == 0 && r.verdict == Low && r.finalScore == 0.0
    ensures r.Degraded? ==> r.error == NoGetMessage(FirstNonDict(hard, semantic).value)
    ensures r.Detailed? ==>
      && r.finalScore == FinalScore(e, hard, semantic)
      && r.relevanceScore == ConvertToPercentage(r.finalScore)
      && 0 <= r.relevanceScore <= 100
      && r.verdict == DetermineVerdict(r.finalScore)
      && r.missingElements == GenerateMissingElements(hard, semantic)
      && r.analysisTimestamp == timestamp
    ensures r.Detailed? ==> (r.scoreBreakdown ==
      ScoreBreakdown(ScoreOf(hard.hardMatchScore), ScoreOf(semantic.semanticScore), e.hardWeight, e.semanticWeight, r.finalScore, r.relevanceScore))
    ensures r.Detailed? ==>
      && r.improvementSuggestions == semantic.improvementSuggestions
      && r.strengths == Of(semantic.llmAnalysis, EmptyLlm).strengths
      && r.experienceAssessment == Of(semantic.llmAnalysis, EmptyLlm).experienceAssessment.GetOr(NotAssessed)
      && r.matchingDetails.exactSkillMatches == Of(hard.exactSkillMatch, EmptyExact).exactMatches
      && r.matchingDetails.semanticSkillMatches == Of(semantic.semanticSkills, EmptySkills).semanticMatches
    ensures r.Detailed? ==>
      && r.matchingDetails.fuzzySkillMatches == Of(hard.fuzzySkillMatch, EmptyFuzzy).fuzzyMatches
      && r.matchingDetails.educationMatches == Of(hard.educationMatch, EmptyEducation).educationMatches
      && r.matchingDetails.certificationMatches == Of(hard.certificationMatch, EmptyCertification).certificationMatches
      && r.matchingDetails.experienceAnalysis == Of(hard.experienceMatch, EmptyExperience).experienceAnalysis
  {
    var final := FinalScore(e, hard, semantic);
    var percentage := ConvertToPercentage(final);
    var missing := GenerateMissingElements(hard, semantic);
    if !(Readable(hard) && Understood(semantic)) then Degraded(0, Low, 0.0, NoGetMessage(FirstNonDict(hard, semantic).value))
    else
      var llm := Of(semantic.llmAnalysis, EmptyLlm);
      var details := MatchingDetails(
        Of(hard.exactSkillMatch, EmptyExact).exactMatches,
        Of(hard.fuzzySkillMatch, EmptyFuzzy).fuzzyMatches,
        Of(semantic.semanticSkills, EmptySkills).semanticMatches,
        Of(hard.educationMatch, EmptyEducation).educationMatches,
        Of(hard.certificationMatch, EmptyCertification).certificationMatches,
        Of(hard.experienceMatch, EmptyExperience).experienceAnalysis);
      Detailed(
        percentage, DetermineVerdict(final), final,
        ScoreBreakdown(ScoreOf(hard.hardMatchScore), ScoreOf(semantic.semanticScore), e.hardWeight, e.semanticWeight, final, percentage),
        missing, semantic.improvementSuggestions, llm.strengths, llm.experienceAssessment.GetOr(NotAssessed),
        details, timestamp)
  }

  // ---------------------------------------------------------------------------
  // The evaluation pipeline

  /** The evaluation endpoint's composition: hard matching, semantic matching
      and the detailed analysis of the two results. */
  function Evaluate(ho: HardMatching.Oracles, so: SemanticMatching.Oracles, e: Engine,
                    resume: Documents.Resume, jd: Documents.JobDescription, timestamp: string): (r: DetailedAnalysis)
    ensures r.Detailed?
    ensures 0 <= r.relevanceScore <= 100
    ensures r.missingElements.projects == [] && r.missingElements.experience == []
  {
    var hard := HardReportOf(HardMatching.CalculateHardMatchScore(ho, resume, jd));
    var semantic := SemanticReportOf(SemanticMatching.CalculateSemanticMatchScore(so, resume, jd));
    GenerateDetailedAnalysis(e, hard, semantic, timestamp)
  }

  /** The results the matchers produce never send the engine down an
      exception path: the analysis is complete, the missing elements are the
      de-duplicated unions and the confidence is computed, not defaulted. */
  lemma PipelineNeverDegrades(h: HardMatching.HardOutcome, s: SemanticMatching.SemanticOutcome)
    ensures !ConfidenceRaises(HardReportOf(h), SemanticReportOf(s))
    ensures MissingReadable(HardReportOf(h), SemanticReportOf(s))
    ensures forall e, t :: GenerateDetailedAnalysis(e, HardReportOf(h), SemanticReportOf(s), t).Detailed?
  {
  }

  // ---------------------------------------------------------------------------
  // Scenario: hard 0.75 and semantic 0.65 under the default weights

  /** The two results of the system test, with the keys it gives. */
  function ScenarioHard(): HardReport {
    HardReport(Some(Num(0.75)), Dict(ExactView(["python", "django"], [])), Absent,
      Dict(EducationView([], [])), Dict(ExperienceView(None)), Absent)
  }

  function ScenarioSemantic(): SemanticReport {
    SemanticReport(Some(Num(0.65)), Dict(SkillsView([SemanticMatching.SemanticSkillMatch("", "", 0.8)])),
      Dict(LlmView(Some(Num(70.0)), ["Python experience"], [], None)), [])
  }

  /** 0.75 * 0.4 + 0.65 * 0.6 = 0.69: percentage 69 and verdict Medium; the
      scores agree within 0.2 and every factor is present, so the confidence
      is full. */
  lemma Scenario()
    ensures FinalScore(Engine(0.4, 0.6), ScenarioHard(), ScenarioSemantic()) == 0.69
    ensures ConvertToPercentage(0.69) == 69
    ensures DetermineVerdict(0.69) == Medium
    ensures CalculateConfidenceScore(ScenarioHard(), ScenarioSemantic()) == 1.0
  {
    assert Weighted(Engine(0.4, 0.6), 0.75, 0.65) == 0.69;
  }
}

=== FILE: semantic_matching.dfy ===
/** The semantic matcher (`SemanticMatching` in src/matching/semantic_matching.py,
    identical to its backend copy): best-sentence skill matching over an
    embedding oracle, post-processing of the language model's answer,
    improvement suggestions and the 0.3/0.4/0.3 fusion.  The sentence
    embedder, the cosine similarity, the Gemini call and `json.loads` are
    parameters. */
module SemanticMatching {
  import opened Wrappers
  import opened Text
  import opened Patterns
  import opened Documents

  // ---------------------------------------------------------------------------
  // Oracles

  /** One embedding row. */
  type Vec = seq<real>

  /** What the prompt carries of the two documents: the first 2000 characters of
      each (the rest of the prompt is fixed text). */
  datatype Prompt = Prompt(jdExcerpt: string, resumeExcerpt: string)

  /** The analysis record of the language model: a decoded JSON object with
      `.get` defaults already applied, the fallback parse, or the error record.
      `experienceAssessment` is `None` when the key is absent. */
  datatype LlmAnalysis = LlmAnalysis(
    fitScore: real,
    strengths: seq<string>,
    missingSkills: seq<string>,
    experienceAssessment: Option<string>,
    recommendations: seq<string>,
    error: Option<string>)

  /** `json.loads` of a candidate slice: an object usable as an analysis, a
      value that decodes but makes its consumer raise (a list, a number, a
      field of the wrong type) with that exception's message, or a decode error. */
  datatype JsonValue = JsonObject(analysis: LlmAnalysis) | JsonUnusable(error: string) | JsonDecodeError

  /** `embed` is `SentenceTransformer.encode` behind `generate_embeddings`
      (an empty array when the model is missing or raises); `cosine` is
      `cosine_similarity` of two rows; `generate` is the Gemini call and its
      `.text`; `json` is `json.loads`. */
  datatype Oracles = Oracles(
    embed: seq<string> -> seq<Vec>,
    cosine: (Vec, Vec) -> Cosine,
    generate: Prompt -> Result<string>,
    json: string -> JsonValue)

  /** `json.loads("")` raises, as it does for every empty document. */
  predicate JsonRejectsEmpty(o: Oracles) {
    o.json("") == JsonDecodeError
  }

  /** `embeddings.size == 0`: no rows, or rows of width zero. */
  predicate NoValues(rows: seq<Vec>) {
    forall k :: 0 <= k < |rows| ==> |rows[k]| == 0
  }

  // ---------------------------------------------------------------------------
  // Whole-document similarity

  /** `calculate_semantic_similarity`: the cosine of the two document
      embeddings; 0 when there are none, or fewer than two rows to index. */
  function OverallSimilarity(o: Oracles, resumeText: string, jdText: string): (r: real)
    ensures -1.0 <= r <= 1.0
    ensures NoValues(o.embed([resumeText, jdText])) ==> r == 0.0
    ensures |o.embed([resumeText, jdText])| < 2 ==> r == 0.0
    ensures !NoValues(o.embed([resumeText, jdText])) && |o.embed([resumeText, jdText])| >= 2 ==>
      r == o.cosine(o.embed([resumeText, jdText])[0], o.embed([resumeText, jdText])[1])
  {
    var rows := o.embed([resumeText, jdText]);
    if NoValues(rows) then 0.0
    else if |rows| < 2 then 0.0
    else o.cosine(rows[0], rows[1])
  }

  // ---------------------------------------------------------------------------
  // Semantic skill extraction

  const SentenceSeparator: string := ". "

  /** Similarity above which a skill counts as semantically present. */
  const SkillThreshold: real := 0.3

  /** The first sentence most similar to skill `i` (`np.argmax`) and its
      similarity.  Sentence rows come first, skill rows after them. */
  function BestSentence(o: Oracles, rows: seq<Vec>, ns: nat, i: nat): (r: (nat, real))
    requires 0 < ns && ns + i < |rows|
    ensures r.0 < ns
    ensures r.1 == o.cosine(rows[ns + i], rows[r.0])
    ensures forall j :: 0 <= j < ns ==> o.cosine(rows[ns + i], rows[j]) <= r.1
    ensures forall j :: 0 <= j < r.0 ==> o.cosine(rows[ns + i], rows[j]) < r.1
  {
    BestRow(o, rows[ns + i], rows, ns)
  }

  /** The first of `rows[..n]` most similar to `v`, and the similarity. */
  function BestRow(o: Oracles, v: Vec, rows: seq<Vec>, n: nat): (r: (nat, real))
    requires 0 < n <= |rows|
    ensures r.0 < n
    ensures r.1 == o.cosine(v, rows[r.0])
    ensures forall j :: 0 <= j < n ==> o.cosine(v, rows[j]) <= r.1
    ensures forall j :: 0 <= j < r.0 ==> o.cosine(v, rows[j]) < r.1
  {
    if n == 1 then (0, o.cosine(v, rows[0]))
    else
      var prev := BestRow(o, v, rows, n - 1);
      var last := o.cosine(v, rows[n - 1]);
      if last > prev.1 then (n - 1, last) else prev
  }

  datatype SemanticSkillMatch = SemanticSkillMatch(jdSkill: string, resumeContext: string, similarityScore: real)

  /** The record skill `i` contributes, if its best sentence clears the threshold. */
  function SkillRecord(o: Oracles, sentences: seq<string>, rows: seq<Vec>, skills: seq<string>, i: nat): (r: Option<SemanticSkillMatch>)
    requires 0 < |sentences| && i < |skills| && |sentences| + |skills| <= |rows|
    ensures r.Some? <==> BestSentence(o, rows, |sentences|, i).1 > SkillThreshold
    ensures r.Some? ==> r.value.jdSkill == skills[i] && SkillThreshold < r.value.similarityScore <= 1.0
  {
    var b := BestSentence(o, rows, |sentences|, i);
    if b.1 > SkillThreshold then Some(SemanticSkillMatch(skills[i], sentences[b.0], b.1)) else None
  }

  function SumScores(ms: seq<SemanticSkillMatch>): real {
    if |ms| == 0 then 0.0 else SumScores(ms[..|ms| - 1]) + ms[|ms| - 1].similarityScore
  }

  /** The loop over the skills: the accepted records in skill order, and the
      running total of their similarities. */
  function ScanSkills(o: Oracles, sentences: seq<string>, rows: seq<Vec>, skills: seq<string>, n: nat): (r: seq<SemanticSkillMatch>)
    requires 0 < |sentences| && n <= |skills| && |sentences| + |skills| <= |rows|
    ensures |r| <= n
    ensures 0.0 <= SumScores(r) <= |r| as real
  {
    if n == 0 then []
    else
      var prev := ScanSkills(o, sentences, rows, skills, n - 1);
      match SkillRecord(o, sentences, rows, skills, n - 1)
      case None => prev
      case Some(m) =>
        assert (prev + [m])[..|prev|] == prev;
        prev + [m]
  }

  /** What `extract_semantic_skills` returns: matches with their counts, the
      two-key dictionary for missing embeddings, or the error dictionary. */
  datatype SkillsOutcome =
    | SkillsFound(semanticMatches: seq<SemanticSkillMatch>, semanticScore: real, totalSkills: nat, matchedSkills: nat)
    | NoEmbeddings
    | SkillsFailed(error: string)
  {
    /** `.get("semantic_matches", [])`. */
    function Matches(): seq<SemanticSkillMatch> {
      if SkillsFound? then semanticMatches else []
    }

    /** `["semantic_score"]`, present in all three shapes. */
    function Score(): real {
      if SkillsFound? then semanticScore else 0.0
    }
  }

  /** `str(e)` of numpy's `IndexError` for index `i` on axis 0 of an array with `size` rows. */
  function IndexErrorMessage(i: nat, size: nat): string {
    "index " + NatToString(i) + " is out of bounds for axis 0 with size " + NatToString(size)
  }

  /** The rows left for the skills once the sentence rows are sliced off. */
  function SkillRowCount(rows: nat, sentences: nat): nat {
    if rows <= sentences then 0 else rows - sentences
  }

  /** The resume split into sentences at ". ". */
  function Sentences(resumeText: string): (r: seq<string>)
    ensures |r| >= 1
    ensures !Contains(resumeText, SentenceSeparator) ==> r == [resumeText]
  {
    Split(resumeText, SentenceSeparator)
  }

  /** `total / n`, which lies in the unit interval when the total does not
      exceed the count. */
  function Average(total: real, n: nat): (r: real)
    requires n > 0
    ensures r * n as real == total
    ensures 0.0 <= total <= n as real ==> 0.0 <= r <= 1.0
  {
    total / n as real
  }

  /** The embeddings of the sentences followed by the skills, in one batch. */
  function SkillRows(o: Oracles, resumeText: string, skills: seq<string>): (r: seq<Vec>)
    ensures |r| == |o.embed(Sentences(resumeText) + skills)|
  {
    o.embed(Sentences(resumeText) + skills)
  }

  /** The scoring over well-shaped embeddings: the accepted records and their
      similarity averaged over all skills. */
  function ScoreSkills(o: Oracles, sentences: seq<string>, rows: seq<Vec>, skills: seq<string>): (r: SkillsOutcome)
    requires 0 < |sentences| && 0 < |skills| && |sentences| + |skills| <= |rows|
    ensures r.SkillsFound? && r.totalSkills == |skills| && r.matchedSkills == |r.semanticMatches| <= r.totalSkills
    ensures r.semanticMatches == ScanSkills(o, sentences, rows, skills, |skills|)
    ensures r.semanticScore == Average(SumScores(r.semanticMatches), |skills|)
    ensures 0.0 <= r.semanticScore <= 1.0
  {
    var matches := ScanSkills(o, sentences, rows, skills, |skills|);
    var total := SumScores(matches);
    var score := Average(total, |skills|);
    SkillsFound(matches, score, |skills|, |matches|)
  }

  /** `extract_semantic_skills`: the resume is split at ". "; each skill is
      recorded with its best sentence when the similarity exceeds 0.3, and the
      score is the accepted similarity averaged over all skills.  With fewer
      embedding rows than sentences and skills, the loop raises at the first
      skill without a row, whose index is the number of skill rows. */
  function ExtractSemanticSkills(o: Oracles, resumeText: string, skills: seq<string>): (r: SkillsOutcome)
    ensures NoValues(SkillRows(o, resumeText, skills)) <==> r.NoEmbeddings?
    ensures r.SkillsFailed? <==>
      && !NoValues(SkillRows(o, resumeText, skills)) && |skills| > 0
      && |SkillRows(o, resumeText, skills)| < |Sentences(resumeText)| + |skills|
    ensures r.SkillsFailed? ==> var m := SkillRowCount(|SkillRows(o, resumeText, skills)|, |Sentences(resumeText)|);
      m < |skills| && r.error == IndexErrorMessage(m, m)
    ensures r.SkillsFound? ==> r.totalSkills == |skills| && r.matchedSkills == |r.semanticMatches| <= r.totalSkills
    ensures r.SkillsFound? ==> 0.0 <= r.semanticScore <= 1.0
    ensures |skills| == 0 ==> r.Score() == 0.0 && r.Matches() == []
    ensures r.SkillsFound? && |skills| > 0 ==>
      && |Sentences(resumeText)| + |skills| <= |SkillRows(o, resumeText, skills)|
      && r == ScoreSkills(o, Sentences(resumeText), SkillRows(o, resumeText, skills), skills)
  {
    var sentences := Sentences(resumeText);
    var rows := SkillRows(o, resumeText, skills);
    if NoValues(rows) then NoEmbeddings
    else if |skills| == 0 then SkillsFound([], 0.0, 0, 0)
    else if |rows| < |sentences| + |skills| then
      var m := SkillRowCount(|rows|, |sentences|);
      SkillsFailed(IndexErrorMessage(m, m))
    else ScoreSkills(o, sentences, rows, skills)
  }

  /** A skill whose best sentence clears the threshold is in the scan. */
  lemma {:induction false} ScanKeeps(o: Oracles, sentences: seq<string>, rows: seq<Vec>, skills: seq<string>, n: nat, i: nat)
    requires 0 < |sentences| && n <= |skills| && |sentences| + |skills| <= |rows|
    requires i < n && SkillRecord(o, sentences, rows, skills, i).Some?
    ensures SkillRecord(o, sentences, rows, skills, i).value in ScanSkills(o, sentences, rows, skills, n)
  {
    if i < n - 1 {
      ScanKeeps(o, sentences, rows, skills, n - 1, i);
    }
  }

  /** Every record in the scan is the record of some skill. */
  lemma {:induction false} ScanSource(o: Oracles, sentences: seq<string>, rows: seq<Vec>, skills: seq<string>, n: nat, m: SemanticSkillMatch)
    returns (i: nat)
    requires 0 < |sentences| && n <= |skills| && |sentences| + |skills| <= |rows|
    requires m in ScanSkills(o, sentences, rows, skills, n)
    ensures i < n && SkillRecord(o, sentences, rows, skills, i) == Some(m)
  {
    if SkillRecord(o, sentences, rows, skills, n - 1) == Some(m) {
      i := n - 1;
    } else {
      i := ScanSource(o, sentences, rows, skills, n - 1, m);
    }
  }

  /** A skill is among the matches exactly when its best sentence clears the
      threshold, and then it carries that sentence and similarity. */
  lemma SkillRecordedIff(o: Oracles, resumeText: string, skills: seq<string>, i: nat)
    requires i < |skills|
    requires ExtractSemanticSkills(o, resumeText, skills).SkillsFound?
    ensures var sentences := Sentences(resumeText);
      var rows := SkillRows(o, resumeText, skills);
      var b := BestSentence(o, rows, |sentences|, i);
      && (b.1 > SkillThreshold <==>
            SemanticSkillMatch(skills[i], sentences[b.0], b.1) in ExtractSemanticSkills(o, resumeText, skills).semanticMatches)
  {
    var sentences := Sentences(resumeText);
    var rows := SkillRows(o, resumeText, skills);
    var b := BestSentence(o, rows, |sentences|, i);
    var m := SemanticSkillMatch(skills[i], sentences[b.0], b.1);
    if b.1 > SkillThreshold {
      assert SkillRecord(o, sentences, rows, skills, i) == Some(m);
      ScanKeeps(o, sentences, rows, skills, |skills|, i);
    }
    if m in ExtractSemanticSkills(o, resumeText, skills).semanticMatches {
      var j := ScanSource(o, sentences, rows, skills, |skills|, m);
    }
  }

  // ---------------------------------------------------------------------------
  // Language-model analysis

  /** The record `llm_semantic_analysis` returns when the call raises. */
  function ErrorAnalysis(error: string): (r: LlmAnalysis)
    ensures r.fitScore == 0.0 && r.strengths == [] && r.missingSkills == []
    ensures r.experienceAssessment == Some("Unable to assess") && r.recommendations == ["Error in analysis"]
    ensures r.error == Some(error)
  {
    LlmAnalysis(0.0, [], [], Some("Unable to assess"), ["Error in analysis"], Some(error))
  }

  /** `[s.strip() for s in re.findall(r'[•\-\*]\s*([^\n]+)', section)]`;
      `BulletItemsFacts` says which lines it keeps. */
  function BulletItems(section: string): (r: seq<string>)
    ensures forall x :: x in r ==> IsStripped(x) && '\n' !in x
    ensures |r| == |FindBullets(section, 0)|
  {
    var found := FindBullets(section, 0);
    var items := seq(|found|, k requires 0 <= k < |found| => Strip(found[k]));
    assert forall k :: 0 <= k < |items| ==> '\n' !in items[k] by {
      forall k | 0 <= k < |items|
        ensures '\n' !in items[k]
      {
        assert found[k] in found;
      }
    }
    items
  }

  /** The bullet items are the stripped rest of the line after each bullet and
      its whitespace: none without a bullet line, and the first bullet's line
      first.  `BulletItemsOrigin` adds that nothing else is kept. */
  lemma BulletItemsFacts(section: string)
    ensures BulletItems(section) == [] <==> forall k :: 0 <= k < |section| ==> BulletGroupAt(section, k).None?
    ensures forall k :: (0 <= k < |section| && BulletGroupAt(section, k).Some? &&
        forall j :: 0 <= j < k ==> BulletGroupAt(section, j).None?) ==>
      |BulletItems(section)| > 0 && BulletItems(section)[0] == Strip(BulletText(section, k))
  {
    BulletsEmpty(section, 0);
    forall k | 0 <= k < |section| && BulletGroupAt(section, k).Some? && (forall j :: 0 <= j < k ==> BulletGroupAt(section, j).None?)
      ensures |BulletItems(section)| > 0 && BulletItems(section)[0] == Strip(BulletText(section, k))
    {
      BulletsSkip(section, 0, k);
      BulletItemsAt(section, 0);
    }
  }

  /** Every bullet item is the stripped group of some bullet match. */
  lemma BulletItemsOrigin(section: string)
    ensures forall x :: x in BulletItems(section) ==> exists k :: (0 <= k < |section| && BulletGroupAt(section, k).Some? &&
      x == Strip(BulletText(section, k)))
  {
    var found := FindBullets(section, 0);
    BulletsOrigin(section, 0);
    forall x | x in BulletItems(section)
      ensures exists k :: (0 <= k < |section| && BulletGroupAt(section, k).Some? && x == Strip(BulletText(section, k)))
    {
      var n :| 0 <= n < |BulletItems(section)| && BulletItems(section)[n] == x;
      BulletItemsAt(section, n);
      assert found[n] in found;
    }
  }

  /** Item `n` is the `n`-th bullet group, stripped. */
  lemma BulletItemsAt(section: string, n: nat)
    requires n < |FindBullets(section, 0)|
    ensures BulletItems(section)[n] == Strip(FindBullets(section, 0)[n])
  {
  }

  /** The part of `text` after the first `head` and before the next `tail`
      (`text.split(head)[1].split(tail)[0]`), when `head` occurs: a prefix of
      the text after the first `head` that holds neither word and is followed
      by one of them or by the end of the text. */
  function SectionBetween(text: string, head: string, tail: string): (r: string)
    requires |head| > 0 && |tail| > 0 && Contains(text, head)
    ensures var rest := text[IndexFrom(text, head, 0).value + |head|..];
      && |r| <= |rest| && r == rest[..|r|]
      && !Contains(r, head) && !Contains(r, tail)
      && (|r| == |rest| || At(rest, |r|, head) || At(rest, |r|, tail))
  {
    SectionFacts(text, head, tail);
    Split(Split(text, head)[1], tail)[0]
  }

  /** What `SectionBetween` promises, proved of the two splits. */
  lemma SectionFacts(text: string, head: string, tail: string)
    requires |head| > 0 && |tail| > 0 && Contains(text, head)
    ensures |Split(text, head)| > 1
    ensures var rest := text[IndexFrom(text, head, 0).value + |head|..];
      var r := Split(Split(text, head)[1], tail)[0];
      && |r| <= |rest| && r == rest[..|r|]
      && !Contains(r, head) && !Contains(r, tail)
      && (|r| == |rest| || At(rest, |r|, head) || At(rest, |r|, tail))
  {
    var k := IndexFrom(text, head, 0).value;
    var rest := text[k + |head|..];
    var after := Split(text, head)[1];
    assert after == Split(rest, head)[0];
    SplitFirst(rest, head);
    SplitFirst(after, tail);
    var r := Split(after, tail)[0];
    PrefixFree(after, r, head);
    StopInPrefix(rest, after, r, head, tail);
  }

  /** A prefix `r` of a prefix `after` of `rest`, each stopping at a word or at
      the end, stops at one of the words or at the end of `rest`. */
  lemma StopInPrefix(rest: string, after: string, r: string, head: string, tail: string)
    requires |after| <= |rest| && after == rest[..|after|] && (|after| == |rest| || At(rest, |after|, head))
    requires |r| <= |after| && r == after[..|r|] && (|r| == |after| || At(after, |r|, tail))
    ensures |r| <= |rest| && r == rest[..|r|]
    ensures |r| == |rest| || At(rest, |r|, head) || At(rest, |r|, tail)
  {
    if |r| < |after| {
      AtPrefix(rest, after, |r|, tail);
    }
  }

  /** A word found in a prefix of a text is found in the text. */
  lemma AtPrefix(s: string, t: string, n: nat, w: string)
    requires |t| <= |s| && t == s[..|t|] && At(t, n, w)
    ensures At(s, n, w)
  {
    forall i | n <= i < n + |w|
      ensures s[i] == t[i]
    {
    }
    assert s[n..n + |w|] == t[n..n + |w|];
  }

  /** The first piece of a split is a prefix without the separator, followed by
      the separator or the end. */
  lemma SplitFirst(s: string, sep: string)
    requires |sep| > 0
    ensures var f := Split(s, sep)[0];
      && |f| <= |s| && f == s[..|f|] && !Contains(f, sep)
      && (|f| == |s| || At(s, |f|, sep))
  {
    SplitFirstFree(s, sep);
  }

  /** A prefix of a text without `p` has no `p` either. */
  lemma PrefixFree(s: string, t: string, p: string)
    requires |t| <= |s| && t == s[..|t|] && !Contains(s, p)
    ensures !Contains(t, p)
  {
    if Contains(t, p) {
      AtPrefix(s, t, IndexFrom(t, p, 0).value, p);
    }
  }

  /** The first piece of a split never contains the separator. */
  lemma SplitFirstFree(s: string, sep: string)
    requires |sep| > 0
    ensures !Contains(Split(s, sep)[0], sep)
  {
    match IndexFrom(s, sep, 0)
    case None =>
    case Some(k) =>
      var p := s[..k];
      if Contains(p, sep) {
        var j := IndexFrom(p, sep, 0).value;
        assert s[j..j + |sep|] == p[j..j + |sep|];
        assert At(s, j, sep);
      }
  }

  /** The first digit run of the answer, or 0 when it has none. */
  function FitScore(text: string): (r: nat)
    ensures (forall k :: 0 <= k < |text| ==> !IsDigit(text[k])) ==> r == 0
  {
    match FirstNumber(text, 0) case Some(n) => n case None => 0
  }

  /** The bullet lines between the first `head` and the next `tail`; none when
      `head` does not occur. */
  function SectionItems(lower: string, head: string, tail: string): (r: seq<string>)
    requires |head| > 0 && |tail| > 0
    ensures !Contains(lower, head) ==> r == []
    ensures forall x :: x in r ==> IsStripped(x) && '\n' !in x
  {
    if Contains(lower, head) then BulletItems(SectionBetween(lower, head, tail)) else []
  }

  /** `_parse_llm_response`: the first digit run as the fit score (0 if none,
      never clamped), and the bullet lines of the lower-cased text between
      "strengths" and "missing", and between "missing" and "experience". */
  function ParseLlmResponse(text: string): (r: LlmAnalysis)
    ensures (forall k :: 0 <= k < |text| ==> !IsDigit(text[k])) ==> r.fitScore == 0.0
    ensures r.fitScore >= 0.0
    ensures !Contains(Lower(text), "strengths") ==> r.strengths == []
    ensures !Contains(Lower(text), "missing") ==> r.missingSkills == []
    ensures Contains(Lower(text), "strengths") ==>
      r.strengths == BulletItems(SectionBetween(Lower(text), "strengths", "missing"))
    ensures Contains(Lower(text), "missing") ==>
      r.missingSkills == BulletItems(SectionBetween(Lower(text), "missing", "experience"))
    ensures forall x :: x in r.strengths ==> IsStripped(x) && '\n' !in x
    ensures forall x :: x in r.missingSkills ==> IsStripped(x) && '\n' !in x
    ensures r.experienceAssessment == Some("Unable to assess") && r.recommendations == [] && r.error.None?
  {
    var lower := Lower(text);
    LlmAnalysis(FitScore(text) as real, SectionItems(lower, "strengths", "missing"),
      SectionItems(lower, "missing", "experience"), Some("Unable to assess"), [], None)
  }

  /** The fit score is the value of the leftmost digit run. */
  lemma FitScoreIsFirstNumber(text: string, k: nat)
    requires k < |text| && IsDigit(text[k])
    requires forall j :: 0 <= j < k ==> !IsDigit(text[j])
    ensures ParseLlmResponse(text).fitScore == DigitsValue(text[k..DigitEnd(text, k)]) as real
  {
    FirstNumberAt(text, 0, k);
  }

  /** A bare number above 100 is taken as it is. */
  lemma FitScoreNotClamped()
    ensures ParseLlmResponse("150").fitScore == 150.0
  {
    var s := "150";
    assert DigitEnd(s, 2) == 3;
    assert DigitEnd(s, 1) == 3;
    assert DigitEnd(s, 0) == 3;
    assert s[0..3] == s;
    assert DigitsValue(s[..1]) == 1;
    assert DigitsValue(s[..2]) == 15 by { assert s[..2][..1] == s[..1]; }
    assert DigitsValue(s) == 150 by { assert s[..3][..2] == s[..2]; }
    FitScoreIsFirstNumber(s, 0);
  }

  /** The bullet match of a section holding one bullet line "- c" starts at
      offset 1 and captures just "c". */
  lemma OneBulletGroup(sec: string, c: char)
    requires |sec| >= 4 && sec[0] == '\n' && sec[1] == '-' && sec[2] == ' ' && sec[3] == c
    requires !IsSpace(c) && c != '\n'
    requires forall k :: 4 <= k < |sec| ==> sec[k] == '\n'
    ensures BulletGroupAt(sec, 0).None?
    ensures BulletGroupAt(sec, 1) == Some((3, 4)) && BulletText(sec, 1) == [c]
  {
    assert SpaceEnd(sec, 3) == 3;
    assert SpaceEnd(sec, 2) == 3;
    assert RunEnd(sec, 4, {'\n'}) == 4;
    assert RunEnd(sec, 3, {'\n'}) == 4;
  }

  /** Such a section yields the one bullet group "c". */
  lemma OneBulletFound(sec: string, c: char)
    requires |sec| >= 4 && sec[0] == '\n' && sec[1] == '-' && sec[2] == ' ' && sec[3] == c
    requires !IsSpace(c) && c != '\n'
    requires forall k :: 4 <= k < |sec| ==> sec[k] == '\n'
    ensures FindBullets(sec, 0) == [[c]]
  {
    OneBulletGroup(sec, c);
    BulletsSkip(sec, 0, 1);
    BulletsEmpty(sec, 4);
  }

  /** And so its bullet items are the one item "c". */
  lemma OneBulletItem(sec: string, c: char)
    requires |sec| >= 4 && sec[0] == '\n' && sec[1] == '-' && sec[2] == ' ' && sec[3] == c
    requires !IsSpace(c) && c != '\n'
    requires forall k :: 4 <= k < |sec| ==> sec[k] == '\n'
    ensures BulletItems(sec) == [[c]]
  {
    OneBulletFound(sec, c);
    BulletItemsAt(sec, 0);
    assert IsStripped([c]);
  }

  /** The text of the scenario below is already lower case. */
  lemma ScenarioLower(text: string)
    requires text == "strengths\n- a\nmissing\n- b"
    ensures Lower(text) == text
  {
    LowerOfLower(text);
  }

  /** In what follows "strengths" in the scenario, "strengths" does not occur
      and "missing" occurs only at offset 5. */
  lemma StrengthsRest(rest: string)
    requires rest == "\n- a\nmissing\n- b"
    ensures forall p :: 0 <= p <= |rest| ==> !At(rest, p, "strengths")
    ensures forall p :: 0 <= p <= |rest| && At(rest, p, "missing") ==> p == 5
    ensures At(rest, 5, "missing") && rest[..5] == "\n- a\n"
  {
    assert rest[5..12] == "missing";
    forall p | 0 <= p <= |rest|
      ensures !At(rest, p, "strengths")
      ensures At(rest, p, "missing") ==> p == 5
    {
      if p < |rest| {
        assert rest[p] == 'm' ==> p == 5;
        assert rest[p] == 's' ==> p == 7 || p == 8;
      }
      if p + 9 <= |rest| {
        assert rest[p..p + 9][1] == rest[p + 1];
      }
      if p + 7 <= |rest| {
        assert rest[p..p + 7][0] == rest[p];
      }
    }
  }

  /** The "strengths" section of the scenario stops at "missing". */
  lemma ScenarioStrengths(text: string)
    requires text == "strengths\n- a\nmissing\n- b"
    ensures Contains(text, "strengths")
    ensures BulletItems(SectionBetween(text, "strengths", "missing")) == ["a"]
  {
    assert At(text, 0, "strengths");
    assert IndexFrom(text, "strengths", 0) == Some(0);
    var rest := text[9..];
    assert rest == "\n- a\nmissing\n- b";
    var first := SectionBetween(text, "strengths", "missing");
    StrengthsRest(rest);
    assert first == "\n- a\n";
    OneBulletItem(first, 'a');
  }

  /** The "missing" section of the scenario runs to the end of the text. */
  lemma ScenarioMissing(text: string)
    requires text == "strengths\n- a\nmissing\n- b"
    ensures Contains(text, "missing")
    ensures BulletItems(SectionBetween(text, "missing", "experience")) == ["b"]
  {
    assert At(text, 14, "missing");
    forall p | 0 <= p < 14
      ensures !At(text, p, "missing")
    {
      assert text[p] != 'm';
      assert text[p..p + 7][0] == text[p];
    }
    assert IndexFrom(text, "missing", 0) == Some(14);
    var rest := text[21..];
    assert rest == "\n- b";
    forall p | 0 <= p <= |rest|
      ensures !At(rest, p, "missing") && !At(rest, p, "experience")
    {
      if p < |rest| {
        assert rest[p] != 'm' && rest[p] != 'e';
      }
    }
    OneBulletItem(SectionBetween(text, "missing", "experience"), 'b');
  }

  /** A bullet under "strengths" and one under "missing" are read into the two
      lists: the first section stops at "missing", the second runs to the end. */
  lemma ListsScenario(text: string)
    requires text == "strengths\n- a\nmissing\n- b"
    ensures ParseLlmResponse(text).strengths == ["a"]
    ensures ParseLlmResponse(text).missingSkills == ["b"]
  {
    ScenarioLower(text);
    ScenarioStrengths(text);
    ScenarioMissing(text);
    var r := ParseLlmResponse(text);
    assert r.strengths == BulletItems(SectionBetween(text, "strengths", "missing"));
    assert r.missingSkills == BulletItems(SectionBetween(text, "missing", "experience"));
  }

  /** What the model's answer turns into: the analysis record, or a decoded
      value that the caller cannot use. */
  datatype LlmOutcome = Analysis(analysis: LlmAnalysis) | Unusable(error: string)

  /** The JSON slice and its decoding: from the first `{` to just after the
      last `}`.  The end index is never -1, so only a missing `{` or a decode
      error sends the text to the fallback parser. */
  function ReadResponse(o: Oracles, text: string): (r: LlmOutcome)
    ensures var start := Find(text, '{');
      var end := RFind(text, '}') + 1;
      && end != -1
      && (start == -1 ==> r == Analysis(ParseLlmResponse(text)))
      && (start != -1 ==> match o.json(Slice(text, start, end))
                          case JsonObject(a) => r == Analysis(a)
                          case JsonUnusable(e) => r == Unusable(e)
                          case JsonDecodeError => r == Analysis(ParseLlmResponse(text)))
  {
    var start := Find(text, '{');
    var end := RFind(text, '}') + 1;
    if start != -1 && end != -1 then
      match o.json(Slice(text, start, end))
      case JsonObject(a) => Analysis(a)
      case JsonUnusable(e) => Unusable(e)
      case JsonDecodeError => Analysis(ParseLlmResponse(text))
    else Analysis(ParseLlmResponse(text))
  }

  /** A `{` with no `}` after it slices to the empty string, which never
      decodes: the fallback parser runs. */
  lemma UnclosedBraceFallsBack(o: Oracles, text: string)
    requires JsonRejectsEmpty(o)
    requires '{' in text && '}' !in text
    ensures ReadResponse(o, text) == Analysis(ParseLlmResponse(text))
  {
    assert Slice(text, Find(text, '{') as nat, 0) == "";
  }

  const ExcerptLength: nat := 2000

  /** `llm_semantic_analysis`. */
  function LlmSemanticAnalysis(o: Oracles, resumeText: string, jdText: string): (r: LlmOutcome)
    ensures o.generate(Prompt(Take(jdText, ExcerptLength), Take(resumeText, ExcerptLength))).Failure? ==>
      r == Analysis(ErrorAnalysis(o.generate(Prompt(Take(jdText, ExcerptLength), Take(resumeText, ExcerptLength))).error))
    ensures o.generate(Prompt(Take(jdText, ExcerptLength), Take(resumeText, ExcerptLength))).Success? ==>
      r == ReadResponse(o, o.generate(Prompt(Take(jdText, ExcerptLength), Take(resumeText, ExcerptLength))).value)
  {
    match o.generate(Prompt(Take(jdText, ExcerptLength), Take(resumeText, ExcerptLength)))
    case Failure(e) => Analysis(ErrorAnalysis(e))
    case Success(text) => ReadResponse(o, text)
  }

  /** Only the first 2000 characters of each text reach the model. */
  lemma PromptSeesPrefixes(o: Oracles, r1: string, j1: string, r2: string, j2: string)
    requires Take(r1, ExcerptLength) == Take(r2, ExcerptLength) && Take(j1, ExcerptLength) == Take(j2, ExcerptLength)
    ensures LlmSemanticAnalysis(o, r1, j1) == LlmSemanticAnalysis(o, r2, j2)
  {
  }

  // ---------------------------------------------------------------------------
  // Improvement suggestions

  /** The suggestion kinds, in the order the list is built.  `Render` gives their text. */
  datatype Suggestion =
    | LearnSkills(skills: seq<string>)
    | GainExperience(minYears: nat)
    | AddProjects
    | ObtainCertifications(requirements: seq<string>)
    | Tailor
    | Quantify
    | UpdateContact

  function Rank(s: Suggestion): nat {
    match s
    case LearnSkills(_) => 0
    case GainExperience(_) => 1
    case AddProjects => 2
    case ObtainCertifications(_) => 3
    case Tailor => 4
    case Quantify => 5
    case UpdateContact => 6
  }

  function Render(s: Suggestion): string {
    match s
    case LearnSkills(k) => "Consider learning or gaining experience with: " + Join(k, ", ")
    case GainExperience(n) => "Gain more experience in relevant technologies to meet the " + NatToString(n) + "+ years requirement"
    case AddProjects => "Add more relevant projects to showcase your technical skills"
    case ObtainCertifications(c) => "Consider obtaining certifications in: " + Join(c, ", ")
    case Tailor => "Tailor your resume to highlight relevant experience for this specific role"
    case Quantify => "Include quantifiable achievements and metrics in your experience descriptions"
    case UpdateContact => "Ensure your contact information and professional summary are up to date"
  }

  const SuggestionCertKeywords: seq<string> := ["aws", "azure", "gcp", "certified", "certification"]

  /** The required skills that name a certification (in their original case). */
  function CertificationSkills(skills: seq<string>): (r: seq<string>)
    ensures forall x :: x in r <==> x in skills && ContainsAny(Lower(x), SuggestionCertKeywords)
    ensures |r| <= |skills|
  {
    if |skills| == 0 then []
    else (if ContainsAny(Lower(skills[0]), SuggestionCertKeywords) then [skills[0]] else []) + CertificationSkills(skills[1..])
  }

  /** `jd_data.get("experience_requirements", {}).get("min_years", 0)`. */
  function MinYears(jd: JobDescription): nat {
    match jd.experienceRequirements
    case Some(req) => req.minYears
    case None => 0
  }

  /** Ranks strictly increase along `xs`. */
  predicate Ordered(xs: seq<Suggestion>) {
    forall i, j :: 0 <= i < j < |xs| ==> Rank(xs[i]) < Rank(xs[j])
  }

  const Generic: seq<Suggestion> := [Tailor, Quantify, UpdateContact]

  /** `xs`, followed by `x` when `cond` holds. */
  function Push(xs: seq<Suggestion>, cond: bool, x: Suggestion): (r: seq<Suggestion>)
    requires Ordered(xs) && forall y :: y in xs ==> Rank(y) < Rank(x)
    ensures Ordered(r)
    ensures forall y :: y in r ==> Rank(y) <= Rank(x)
    ensures forall y :: y in r <==> y in xs || (cond && y == x)
    ensures |r| == |xs| + (if cond then 1 else 0)
  {
    if cond then xs + [x] else xs
  }

  /** The items among `x1`..`x4` (of ranks 0..3) whose condition holds, in order. */
  function Pick(t1: bool, x1: Suggestion, t2: bool, x2: Suggestion, t3: bool, x3: Suggestion, t4: bool, x4: Suggestion): (r: seq<Suggestion>)
    requires Rank(x1) == 0 && Rank(x2) == 1 && Rank(x3) == 2 && Rank(x4) == 3
    ensures |r| <= 4 && Ordered(r)
    ensures forall x :: x in r ==> Rank(x) < 4
    ensures forall x :: x in r ==> x == x1 || x == x2 || x == x3 || x == x4
    ensures (x1 in r <==> t1) && (x2 in r <==> t2) && (x3 in r <==> t3) && (x4 in r <==> t4)
  {
    var c1 := Push([], t1, x1);
    var c2 := Push(c1, t2, x2);
    var c3 := Push(c2, t3, x3);
    Push(c3, t4, x4)
  }

  /** The four conditional items. */
  function SkillsItem(analysis: LlmAnalysis): Suggestion {
    LearnSkills(Take(analysis.missingSkills, 3))
  }

  function ExperienceItem(jd: JobDescription): Suggestion {
    GainExperience(MinYears(jd))
  }

  function CertificationItem(jd: JobDescription): Suggestion {
    ObtainCertifications(Take(CertificationSkills(jd.requiredSkills), 2))
  }

  /** The items whose condition holds, in the order the conditions are listed. */
  function Conditional(resume: Resume, jd: JobDescription, analysis: LlmAnalysis): (r: seq<Suggestion>)
    ensures |r| <= 4 && Ordered(r)
    ensures forall x :: x in r ==> Rank(x) < 4
    ensures forall x :: x in r ==> x == SkillsItem(analysis) || x == ExperienceItem(jd) || x == AddProjects || x == CertificationItem(jd)
  {
    Pick(|analysis.missingSkills| > 0, SkillsItem(analysis),
         MinYears(jd) > 0, ExperienceItem(jd),
         |resume.projects| < 2, AddProjects,
         |CertificationSkills(jd.requiredSkills)| > 0, CertificationItem(jd))
  }

  /** Each conditional item is present exactly when its condition holds. */
  lemma ConditionalMembers(resume: Resume, jd: JobDescription, analysis: LlmAnalysis)
    ensures var c := Conditional(resume, jd, analysis);
      && (SkillsItem(analysis) in c <==> |analysis.missingSkills| > 0)
      && (ExperienceItem(jd) in c <==> MinYears(jd) > 0)
      && (AddProjects in c <==> |resume.projects| < 2)
      && (CertificationItem(jd) in c <==> |CertificationSkills(jd.requiredSkills)| > 0)
  {
  }

  /** Appending the generic items to at most four ordered conditional items and
      keeping five never drops a conditional item and always keeps `Tailor`. */
  lemma {:induction false} KeepFive(c: seq<Suggestion>)
    requires |c| <= 4 && Ordered(c) && forall x :: x in c ==> Rank(x) < 4
    ensures var r := Take(c + Generic, 5);
      && |r| == (if |c| <= 2 then |c| + 3 else 5)
      && Ordered(r)
      && (forall x :: x in c ==> x in r)
      && Tailor in r
  {
    var all := c + Generic;
    assert forall i :: 0 <= i < |c| ==> Rank(all[i]) < 4 by {
      forall i | 0 <= i < |c| ensures Rank(all[i]) < 4 {
        assert all[i] == c[i] && c[i] in c;
      }
    }
    assert Ordered(all);
    var r := Take(all, 5);
    assert forall i :: 0 <= i < |r| ==> r[i] == all[i];
    assert r[|c|] == Tailor;
    forall x | x in c ensures x in r {
      var i :| 0 <= i < |c| && c[i] == x;
      assert r[i] == x;
    }
  }

  /** Everything kept below rank 4 came from the conditional items. */
  lemma {:induction false} KeepFiveOnlyConditional(c: seq<Suggestion>)
    ensures forall x :: x in Take(c + Generic, 5) && Rank(x) < 4 ==> x in c
  {
    var all := c + Generic;
    var r := Take(all, 5);
    assert forall i :: |c| <= i < |all| ==> Rank(all[i]) >= 4 by {
      forall i | |c| <= i < |all| ensures Rank(all[i]) >= 4 {
        assert all[i] == Generic[i - |c|];
      }
    }
    forall x | x in r && Rank(x) < 4 ensures x in c {
      var i :| 0 <= i < |r| && r[i] == x;
      assert r[i] == all[i];
      assert c[i] == x;
    }
  }

  /** `generate_improvement_suggestions`, as suggestion values: the
      conditional items in their fixed order, then as many generic items as
      fit in five. */
  function Suggestions(resume: Resume, jd: JobDescription, analysis: LlmAnalysis): (r: seq<Suggestion>)
    ensures 3 <= |r| <= 5
    ensures |r| == (if |Conditional(resume, jd, analysis)| <= 2 then |Conditional(resume, jd, analysis)| + 3 else 5)
    ensures Ordered(r)
    ensures forall x :: x in r && Rank(x) < 4 ==> x in Conditional(resume, jd, analysis)
    ensures forall x :: x in Conditional(resume, jd, analysis) ==> x in r
    ensures Tailor in r
  {
    var c := Conditional(resume, jd, analysis);
    KeepFive(c);
    KeepFiveOnlyConditional(c);
    Take(c + Generic, 5)
  }

  /** The skills item is kept exactly when the model reported missing skills. */
  lemma SkillsTriggered(resume: Resume, jd: JobDescription, analysis: LlmAnalysis)
    ensures SkillsItem(analysis) in Suggestions(resume, jd, analysis) <==> |analysis.missingSkills| > 0
  {
    ConditionalMembers(resume, jd, analysis);
    KeptIffConditional(resume, jd, analysis, SkillsItem(analysis));
  }

  /** The experience item is kept exactly when the posting asks for years. */
  lemma ExperienceTriggered(resume: Resume, jd: JobDescription, analysis: LlmAnalysis)
    ensures ExperienceItem(jd) in Suggestions(resume, jd, analysis) <==> MinYears(jd) > 0
  {
    ConditionalMembers(resume, jd, analysis);
    KeptIffConditional(resume, jd, analysis, ExperienceItem(jd));
  }

  /** The projects item is kept exactly when the resume lists fewer than two
      projects. */
  lemma ProjectsTriggered(resume: Resume, jd: JobDescription, analysis: LlmAnalysis)
    ensures AddProjects in Suggestions(resume, jd, analysis) <==> |resume.projects| < 2
  {
    ConditionalMembers(resume, jd, analysis);
    KeptIffConditional(resume, jd, analysis, AddProjects);
  }

  /** The certification item is kept exactly when some required skill names a
      certification. */
  lemma CertificationTriggered(resume: Resume, jd: JobDescription, analysis: LlmAnalysis)
    ensures CertificationItem(jd) in Suggestions(resume, jd, analysis) <==> |CertificationSkills(jd.requiredSkills)| > 0
  {
    ConditionalMembers(resume, jd, analysis);
    KeptIffConditional(resume, jd, analysis, CertificationItem(jd));
  }

  /** An item below rank 4 is kept exactly when its condition put it among the
      conditional items. */
  lemma KeptIffConditional(resume: Resume, jd: JobDescription, analysis: LlmAnalysis, x: Suggestion)
    requires Rank(x) < 4
    ensures x in Suggestions(resume, jd, analysis) <==> x in Conditional(resume, jd, analysis)
  {
  }

  /** A kept item below rank 4 is one of the four conditional items. */
  lemma KeptConditional(resume: Resume, jd: JobDescription, analysis: LlmAnalysis, x: Suggestion)
    requires x in Suggestions(resume, jd, analysis) && Rank(x) < 4
    ensures x == SkillsItem(analysis) || x == ExperienceItem(jd) || x == AddProjects || x == CertificationItem(jd)
  {
    assert x in Conditional(resume, jd, analysis);
  }

  /** The skill item names at most three skills, the first missing ones. */
  lemma SkillSuggestionContents(resume: Resume, jd: JobDescription, analysis: LlmAnalysis)
    ensures forall x :: x in Suggestions(resume, jd, analysis) && x.LearnSkills? ==>
      x.skills == Take(analysis.missingSkills, 3) && |x.skills| <= 3
  {
    forall x | x in Suggestions(resume, jd, analysis) && x.LearnSkills?
      ensures x == SkillsItem(analysis)
    {
      KeptConditional(resume, jd, analysis, x);
    }
  }

  /** The certification item names at most two entries, the first
      certification skills. */
  lemma CertificationSuggestionContents(resume: Resume, jd: JobDescription, analysis: LlmAnalysis)
    ensures forall x :: x in Suggestions(resume, jd, analysis) && x.ObtainCertifications? ==>
      x.requirements == Take(CertificationSkills(jd.requiredSkills), 2) && |x.requirements| <= 2
  {
    var first := Take(CertificationSkills(jd.requiredSkills), 2);
    forall x | x in Suggestions(resume, jd, analysis) && x.ObtainCertifications?
      ensures x.requirements == first && |x.requirements| <= 2
    {
      KeptConditional(resume, jd, analysis, x);
      assert x == ObtainCertifications(first);
    }
  }

  /** The rendered list. */
  function GenerateImprovementSuggestions(resume: Resume, jd: JobDescription, analysis: LlmAnalysis): (r: seq<string>)
    ensures |r| == |Suggestions(resume, jd, analysis)|
    ensures forall i :: 0 <= i < |r| ==> r[i] == Render(Suggestions(resume, jd, analysis)[i])
    ensures 3 <= |r| <= 5
  {
    var s := Suggestions(resume, jd, analysis);
    seq(|s|, i requires 0 <= i < |s| => Render(s[i]))
  }

  /** The suggestions read only the model's missing skills, the minimum years,
      the number of projects and the required skills: the resume's experience
      entries, for one, play no part. */
  lemma SuggestionsDependOnlyOn(r1: Resume, r2: Resume, jd1: JobDescription, jd2: JobDescription, a1: LlmAnalysis, a2: LlmAnalysis)
    requires a1.missingSkills == a2.missingSkills
    requires MinYears(jd1) == MinYears(jd2)
    requires |r1.projects| == |r2.projects|
    requires jd1.requiredSkills == jd2.requiredSkills
    ensures GenerateImprovementSuggestions(r1, jd1, a1) == GenerateImprovementSuggestions(r2, jd2, a2)
  {
  }

  // ---------------------------------------------------------------------------
  // Fusion

  const OverallWeight: real := 0.3
  const SkillsWeight: real := 0.4
  const LlmWeight: real := 0.3

  /** The weighted semantic score. */
  function SemanticScore(overall: real, skills: real, fit: real): (r: real)
    ensures overall == 0.0 && skills == 0.0 && fit == 0.0 ==> r == 0.0
    ensures 0.0 <= overall <= 1.0 && 0.0 <= skills <= 1.0 && 0.0 <= fit <= 100.0 ==> 0.0 <= r <= 1.0
  {
    overall * OverallWeight + skills * SkillsWeight + (fit / 100.0) * LlmWeight
  }

  /** The semantic score never falls when one of its inputs rises. */
  lemma SemanticScoreMonotone(o1: real, s1: real, f1: real, o2: real, s2: real, f2: real)
    requires o1 <= o2 && s1 <= s2 && f1 <= f2
    ensures SemanticScore(o1, s1, f1) <= SemanticScore(o2, s2, f2)
  {
  }

  /** The `"weights"` entry of the result: the three fusion weights. */
  datatype SemanticWeights = SemanticWeights(overallSimilarity: real, semanticSkills: real, llmAnalysis: real)

  datatype SemanticMatchResult = SemanticMatchResult(
    semanticScore: real,
    overallSimilarity: real,
    semanticSkills: SkillsOutcome,
    llmAnalysis: LlmAnalysis,
    improvementSuggestions: seq<string>,
    weights: SemanticWeights)

  /** `calculate_semantic_match_score`: the result dictionary, or the
      two-key error dictionary. */
  datatype SemanticOutcome = SemanticMatched(result: SemanticMatchResult) | SemanticFailed(error: string)
  {
    /** `["semantic_score"]`, present in both shapes. */
    function Score(): real {
      if SemanticMatched? then result.semanticScore else 0.0
    }
  }

  function CalculateSemanticMatchScore(o: Oracles, resume: Resume, jd: JobDescription): (r: SemanticOutcome)
    ensures var llm := LlmSemanticAnalysis(o, resume.cleanedText, jd.cleanedText);
      && (llm.Unusable? <==> r.SemanticFailed?)
      && (llm.Unusable? ==> r == SemanticFailed(llm.error) && r.Score() == 0.0)
      && (llm.Analysis? ==>
            var overall := OverallSimilarity(o, resume.cleanedText, jd.cleanedText);
            var skills := ExtractSemanticSkills(o, resume.cleanedText, jd.requiredSkills);
            && r.result.semanticScore == SemanticScore(overall, skills.Score(), llm.analysis.fitScore)
            && r.result.overallSimilarity == overall
            && r.result.semanticSkills == skills
            && r.result.llmAnalysis == llm.analysis
            && r.result.improvementSuggestions == GenerateImprovementSuggestions(resume, jd, llm.analysis)
            && r.result.weights == SemanticWeights(0.3, 0.4, 0.3)
            && r.result.semanticScore == overall * r.result.weights.overallSimilarity
                 + skills.Score() * r.result.weights.semanticSkills
                 + (llm.analysis.fitScore / 100.0) * r.result.weights.llmAnalysis)
  {
    var overall := OverallSimilarity(o, resume.cleanedText, jd.cleanedText);
    var skills := ExtractSemanticSkills(o, resume.cleanedText, jd.requiredSkills);
    match LlmSemanticAnalysis(o, resume.cleanedText, jd.cleanedText)
    case Unusable(e) => SemanticFailed(e)
    case Analysis(a) =>
      var suggestions := GenerateImprovementSuggestions(resume, jd, a);
      SemanticMatched(SemanticMatchResult(SemanticScore(overall, skills.Score(), a.fitScore), overall, skills, a, suggestions,
        SemanticWeights(OverallWeight, SkillsWeight, LlmWeight)))
  }

  /** With a fit score within 0..100 the semantic score lies in [-0.3, 1]: the
      whole-document cosine may be negative, the other two parts may not. */
  lemma SemanticScoreRange(o: Oracles, resume: Resume, jd: JobDescription)
    requires CalculateSemanticMatchScore(o, resume, jd).SemanticMatched?
    requires 0.0 <= CalculateSemanticMatchScore(o, resume, jd).result.llmAnalysis.fitScore <= 100.0
    ensures -0.3 <= CalculateSemanticMatchScore(o, resume, jd).Score() <= 1.0
  {
  }
}

=== FILE: skills.dfy ===
/** The fixed technical-skill vocabulary both parsers search for, as the
    alternatives of their `\b(...)\b` patterns. */
module Vocabulary {
  import opened Text
  import opened Patterns

  /** A vocabulary entry: a non-empty lower-case literal. */
  type Skill = w: Word | IsLower(w) witness "a"

  /** The eleven `\b(...)\b` skill patterns.  `node\.?js` is written as its two
      spellings, dotted first, which is the order the optional dot is tried in. */
  const WebSkills: seq<Skill> := ["python", "java", "javascript", "react", "angular", "vue", "node.js", "nodejs", "express", "django", "flask", "fastapi"]
  const DataStoreSkills: seq<Skill> := ["sql", "mysql", "postgresql", "mongodb", "redis", "docker", "kubernetes"]
  const CloudSkills: seq<Skill> := ["aws", "azure", "gcp", "git", "github", "gitlab"]
  const MlSkills: seq<Skill> := ["machine learning", "deep learning", "tensorflow", "pytorch", "scikit-learn"]
  const DataSkills: seq<Skill> := ["pandas", "numpy", "matplotlib", "seaborn", "jupyter"]
  const FrontEndSkills: seq<Skill> := ["html", "css", "bootstrap", "tailwind", "sass", "less", "typescript"]
  const PracticeSkills: seq<Skill> := ["rest api", "graphql", "microservices", "agile", "scrum", "devops"]
  const JvmSkills: seq<Skill> := ["spring", "hibernate", "jpa", "junit", "maven", "gradle"]
  const MobileSkills: seq<Skill> := ["ios", "android", "swift", "kotlin", "flutter", "react native"]
  const ShellSkills: seq<Skill> := ["linux", "unix", "bash", "shell", "powershell"]
  const DeliverySkills: seq<Skill> := ["jenkins", "ci/cd", "terraform", "ansible", "prometheus", "grafana"]

  /** The seven patterns the resume parser and the job-description parser share. */
  const CommonSkillPatterns: seq<seq<Skill>> :=
    [WebSkills, DataStoreSkills, CloudSkills, MlSkills, DataSkills, FrontEndSkills, PracticeSkills]

  /** All eleven, as the job-description parser uses them. */
  const JdSkillPatterns: seq<seq<Skill>> :=
    CommonSkillPatterns + [JvmSkills, MobileSkills, ShellSkills, DeliverySkills]

  /** `w` is an alternative of one of `patterns`. */
  predicate InVocabulary(w: string, patterns: seq<seq<Skill>>) {
    exists k :: 0 <= k < |patterns| && w in patterns[k]
  }

  /** The `findall` hits of every pattern on the lower-cased text, pattern by
      pattern, duplicates kept. */
  function SkillHits(text: string, patterns: seq<seq<Skill>>): (r: seq<string>)
    ensures forall w :: w in r ==> InVocabulary(w, patterns) && IsLower(w)
  {
    FindAllWords(Lower(text), patterns)
  }

  /** `list(set(skill.lower() for skill in hits))` for vocabulary hits: the
      lowering changes nothing, so the result holds exactly the distinct hits. */
  function DistinctSkills(hits: seq<string>): (r: seq<string>)
    requires forall w :: w in hits ==> IsLower(w)
    ensures NoDuplicates(r)
    ensures forall w :: w in r <==> w in hits
  {
    LowerAllOfLower(hits);
    Dedup(LowerAll(hits))
  }

  // ---------------------------------------------------------------------------
  // Degree vocabulary shared by the qualification and education patterns

  /** `(bachelor|master|phd|doctorate|diploma|certificate)`. */
  const DegreeKeys: seq<Word> := ["bachelor", "master", "phd", "doctorate", "diploma", "certificate"]

  /** `(b\.?s\.?|m\.?s\.?|ph\.?d\.?|m\.?b\.?a\.?)` as its spellings, in the order the
      optional dots are given up when the rest of the pattern fails. */
  const AbbreviatedDegreeKeys: seq<Word> := [
    "b.s.", "b.s", "bs.", "bs",
    "m.s.", "m.s", "ms.", "ms",
    "ph.d.", "ph.d", "phd.", "phd",
    "m.b.a.", "m.b.a", "m.ba.", "m.ba", "mb.a.", "mb.a", "mba.", "mba"]

  /** `(in|of|,)`. */
  const Connectives: seq<Atom> := [Lit("in"), Lit("of"), Lit(",")]
}

=== FILE: text.dfy ===
/** Character classes and string operations of Python's `str` and `re` that the
    parsers and matchers rely on.  Strings are sequences of Unicode scalar values,
    as Python `str` values are sequences of code points. */
module Text {
  import opened Wrappers

  /** Python's `str.isspace()`; it is also the set `\s` matches in a `str` pattern. */
  predicate IsSpace(c: char) {
    || c == ' '
    || ('\t' <= c <= '\r')
    || ('\U{1C}' <= c <= '\U{1F}')
    || c == '\U{85}' || c == '\U{A0}' || c == '\U{1680}'
    || ('\U{2000}' <= c <= '\U{200A}')
    || c == '\U{2028}' || c == '\U{2029}' || c == '\U{202F}' || c == '\U{205F}' || c == '\U{3000}'
  }

  /** `\d`, restricted to ASCII digits. */
  predicate IsDigit(c: char) {
    '0' <= c <= '9'
  }

  predicate IsLetter(c: char) {
    ('a' <= c <= 'z') || ('A' <= c <= 'Z')
  }

  /** `\w`, restricted to ASCII letters, digits and underscore. */
  predicate IsWordChar(c: char) {
    IsLetter(c) || IsDigit(c) || c == '_'
  }

  /** `str.lower()` on one character, restricted to ASCII upper-case letters. */
  function LowerChar(c: char): char {
    if 'A' <= c <= 'Z' then (c as int + 32) as char else c
  }

  function Lower(s: string): (r: string)
    ensures |r| == |s|
    ensures forall i :: 0 <= i < |s| ==> r[i] == LowerChar(s[i])
  {
    seq(|s|, i requires 0 <= i < |s| => LowerChar(s[i]))
  }

  predicate IsLower(s: string) {
    forall i :: 0 <= i < |s| ==> !('A' <= s[i] <= 'Z')
  }

  lemma LowerIsLower(s: string)
    ensures IsLower(Lower(s))
  {
  }

  /** Lowering leaves lower-case text unchanged. */
  lemma LowerOfLower(s: string)
    requires IsLower(s)
    ensures Lower(s) == s
  {
  }

  /** `[x.lower() for x in xs]`. */
  function LowerAll(xs: seq<string>): (r: seq<string>)
    ensures |r| == |xs|
  {
    seq(|xs|, i requires 0 <= i < |xs| => Lower(xs[i]))
  }

  lemma LowerAllOfLower(xs: seq<string>)
    requires forall i :: 0 <= i < |xs| ==> IsLower(xs[i])
    ensures LowerAll(xs) == xs
  {
    forall i | 0 <= i < |xs|
      ensures LowerAll(xs)[i] == xs[i]
    {
      LowerOfLower(xs[i]);
    }
  }

  /** Case-insensitive literal match of the lower-case word `w` at position `i`. */
  predicate AtCi(s: string, i: nat, w: string) {
    i + |w| <= |s| && Lower(s[i..i + |w|]) == w
  }

  /** Exact literal match of `w` at position `i`. */
  predicate At(s: string, i: nat, w: string) {
    i + |w| <= |s| && s[i..i + |w|] == w
  }

  // ---------------------------------------------------------------------------
  // Searching (`in`, `str.find`, `str.rfind`)

  /** The first position at or after `from` where `p` occurs. */
  function IndexFrom(s: string, p: string, from: nat): (r: Option<nat>)
    requires from <= |s|
    decreases |s| - from
    ensures r.Some? ==> from <= r.value && At(s, r.value, p)
    ensures r.Some? ==> forall k :: from <= k < r.value ==> !At(s, k, p)
    ensures r.None? ==> forall k :: from <= k <= |s| ==> !At(s, k, p)
  {
    if At(s, from, p) then Some(from)
    else if from == |s| then None
    else IndexFrom(s, p, from + 1)
  }

  /** Python's `p in s` for strings. */
  predicate Contains(s: string, p: string) {
    IndexFrom(s, p, 0).Some?
  }

  lemma ContainsAt(s: string, p: string, k: nat)
    requires At(s, k, p)
    ensures Contains(s, p)
  {
  }

  /** `any(k in s for k in keys)`. */
  predicate ContainsAny(s: string, keys: seq<string>) {
    exists k :: 0 <= k < |keys| && Contains(s, keys[k])
  }

  /** `str.find(c)` for one character: the first index, or -1. */
  function Find(s: string, c: char): (r: int)
    ensures -1 <= r < |s|
    ensures r == -1 <==> c !in s
    ensures r >= 0 ==> s[r] == c && c !in s[..r]
  {
    if |s| == 0 then -1
    else if s[0] == c then 0
    else var k := Find(s[1..], c); if k == -1 then -1 else k + 1
  }

  /** `str.rfind(c)` for one character: the last index, or -1. */
  function RFind(s: string, c: char): (r: int)
    ensures -1 <= r < |s|
    ensures r == -1 <==> c !in s
    ensures r >= 0 ==> s[r] == c && c !in s[r + 1..]
  {
    if |s| == 0 then -1
    else if s[|s| - 1] == c then |s| - 1
    else RFind(s[..|s| - 1], c)
  }

  // ---------------------------------------------------------------------------
  // Slicing, stripping, splitting, joining

  /** Python's `s[a:b]` for non-negative bounds. */
  function Slice(s: string, a: nat, b: nat): (r: string)
    ensures |r| <= |s|
  {
    var lo := if a < |s| then a else |s|;
    var hi := if b < |s| then b else |s|;
    if hi <= lo then "" else s[lo..hi]
  }

  /** Python's `s[:n]`. */
  function Take<T>(s: seq<T>, n: nat): (r: seq<T>)
    ensures |r| <= n && |r| <= |s|
    ensures r <= s
    ensures |s| <= n ==> r == s
  {
    if |s| <= n then s else s[..n]
  }

  function TrimStart(s: string): (r: string)
    ensures |r| <= |s| && r == s[|s| - |r|..]
    ensures |r| == 0 || !IsSpace(r[0])
    ensures forall i :: 0 <= i < |s| - |r| ==> IsSpace(s[i])
  {
    if |s| > 0 && IsSpace(s[0]) then TrimStart(s[1..]) else s
  }

  function TrimEnd(s: string): (r: string)
    ensures |r| <= |s| && r == s[..|r|]
    ensures |r| == 0 || !IsSpace(r[|r| - 1])
    ensures forall i :: |r| <= i < |s| ==> IsSpace(s[i])
  {
    if |s| > 0 && IsSpace(s[|s| - 1]) then TrimEnd(s[..|s| - 1]) else s
  }

  /** No whitespace at either end. */
  predicate IsStripped(s: string) {
    |s| == 0 || (!IsSpace(s[0]) && !IsSpace(s[|s| - 1]))
  }

  /** Python's `str.strip()`. */
  function Strip(s: string): (r: string)
    ensures IsStripped(r)
    ensures |r| <= |s|
    ensures forall i :: 0 <= i < |r| ==> r[i] in s
    ensures IsStripped(s) ==> r == s
    ensures |r| == 0 <==> forall i :: 0 <= i < |s| ==> IsSpace(s[i])
  {
    var t := TrimStart(s);
    var r := TrimEnd(t);
    TrimBoth(s, t, r);
    r
  }

  /** Trimming both ends leaves a slice of `s`, empty exactly when `s` is all
      whitespace, and nothing changes when neither end is whitespace. */
  lemma TrimBoth(s: string, t: string, r: string)
    requires t == TrimStart(s) && r == TrimEnd(t)
    ensures IsStripped(r) && |r| <= |s|
    ensures forall i :: 0 <= i < |r| ==> r[i] in s
    ensures IsStripped(s) ==> r == s
    ensures |r| == 0 <==> forall i :: 0 <= i < |s| ==> IsSpace(s[i])
  {
    var a := |s| - |t|;
    assert t == s[a..];
    assert r == t[..|r|];
    forall i | 0 <= i < |r|
      ensures r[i] in s
    {
      assert r[i] == s[a + i];
    }
    if |r| > 0 {
      assert r[0] == s[a];
    }
  }

  /** Each of `lines`, stripped. */
  function StripAll(lines: seq<string>): (r: seq<string>)
    ensures |r| == |lines|
    ensures forall k :: 0 <= k < |r| ==> r[k] == Strip(lines[k])
  {
    seq(|lines|, k requires 0 <= k < |lines| => Strip(lines[k]))
  }

  /** Stripping text that is already stripped changes nothing. */
  lemma StripAllStripped(xs: seq<string>)
    requires forall t :: t in xs ==> IsStripped(t)
    ensures StripAll(xs) == xs
  {
    forall k | 0 <= k < |xs|
      ensures StripAll(xs)[k] == xs[k]
    {
      assert xs[k] in xs;
    }
  }

  /** The position of the first element of `xs` that passes `ok`: the `for ...:
      if ...: break` loops of the parsers. */
  function FirstIndex<T>(xs: seq<T>, ok: T -> bool): (r: Option<nat>)
    ensures r.Some? ==> r.value < |xs| && ok(xs[r.value])
    ensures r.Some? ==> forall k :: 0 <= k < r.value ==> !ok(xs[k])
    ensures r.None? <==> forall k :: 0 <= k < |xs| ==> !ok(xs[k])
  {
    if |xs| == 0 then None
    else if ok(xs[0]) then Some(0)
    else
      var r := FirstIndex(xs[1..], ok);
      assert forall k :: 1 <= k < |xs| ==> xs[k] == xs[1..][k - 1];
      if r.Some? then Some(r.value + 1) else None
  }

  /** Python's `s.split(sep)` for a non-empty separator. */
  function Split(s: string, sep: string): (r: seq<string>)
    requires |sep| > 0
    ensures |r| >= 1
    ensures !Contains(s, sep) ==> r == [s]
    ensures Contains(s, sep) ==> |r| >= 2
    decreases |s|
  {
    match IndexFrom(s, sep, 0)
    case None => [s]
    case Some(k) => [s[..k]] + Split(s[k + |sep|..], sep)
  }

  /** Text without a line break splits into itself alone. */
  lemma OneLineSplit(s: string)
    ensures '\n' !in s ==> Split(s, "\n") == [s]
  {
    if '\n' !in s {
      forall k | 0 <= k <= |s|
        ensures !At(s, k, "\n")
      {
        if k + 1 <= |s| {
          assert s[k..k + 1][0] == s[k];
        }
      }
    }
  }

  /** Python's `re.split('[...]', s)` for a character class: the pieces between
      separator characters. */

  function SplitAny(s: string, seps: set<char>): (r: seq<string>)
    ensures |r| >= 1
    ensures forall k, i :: 0 <= k < |r| && 0 <= i < |r[k]| ==> r[k][i] !in seps
    decreases |s|
  {
    if |s| == 0 then [""]
    else if s[0] in seps then [""] + SplitAny(s[1..], seps)
    else
      var rest := SplitAny(s[1..], seps);
      [[s[0]] + rest[0]] + rest[1..]
  }

  /** Python's `sep.join(xs)`. */
  function Join(xs: seq<string>, sep: string): string {
    if |xs| == 0 then ""
    else if |xs| == 1 then xs[0]
    else xs[0] + sep + Join(xs[1..], sep)
  }

  // ---------------------------------------------------------------------------
  // Whitespace runs and literal removal (`re.sub`)

  /** `re.sub(r'\s+', ' ', s)`: every maximal whitespace run becomes one space. */
  function CollapseSpaces(s: string): (r: string)
    ensures forall i :: 0 <= i < |r| && IsSpace(r[i]) ==> r[i] == ' '
    decreases |s|
  {
    if |s| == 0 then ""
    else if IsSpace(s[0]) then " " + CollapseSpaces(TrimStart(s))
    else [s[0]] + CollapseSpaces(s[1..])
  }

  /** `re.sub(c + '+', c, s)` for one character `c`: runs of `c` become one `c`. */
  function CollapseRuns(s: string, c: char): (r: string)
    ensures forall i :: 0 <= i < |r| ==> r[i] in s
    decreases |s|
  {
    if |s| == 0 then ""
    else if s[0] == c then [c] + CollapseRuns(DropChar(s, c), c)
    else [s[0]] + CollapseRuns(s[1..], c)
  }

  /** The suffix of `s` after its leading run of `c`. */
  function DropChar(s: string, c: char): (r: string)
    ensures |r| <= |s| && r == s[|s| - |r|..]
    ensures |r| < |s| || |s| == 0 || s[0] != c
  {
    if |s| > 0 && s[0] == c then DropChar(s[1..], c) else s
  }

  /** `re.sub(w, '', s, flags=re.IGNORECASE)` for a lower-case literal `w`. */
  function RemoveCi(s: string, w: string): (r: string)
    requires |w| > 0
    ensures forall i :: 0 <= i < |r| ==> r[i] in s
    decreases |s|
  {
    if |s| == 0 then ""
    else if AtCi(s, 0, w) then RemoveCi(s[|w|..], w)
    else [s[0]] + RemoveCi(s[1..], w)
  }

  /** `re.sub(w, '', s, flags=re.IGNORECASE)` for each literal of `ws` in turn. */
  function RemoveAllCi(s: string, ws: seq<string>): (r: string)
    requires forall k :: 0 <= k < |ws| ==> |ws[k]| > 0
    ensures forall i :: 0 <= i < |r| ==> r[i] in s
    decreases |ws|
  {
    if |ws| == 0 then s
    else
      var t := RemoveCi(s, ws[0]);
      var r := RemoveAllCi(t, ws[1..]);
      assert forall i :: 0 <= i < |r| ==> r[i] in t;
      r
  }

  /** Every whitespace character of `s` is a plain space; in particular `s` is
      one line. */
  predicate PlainSpaced(s: string) {
    forall i :: 0 <= i < |s| && IsSpace(s[i]) ==> s[i] == ' '
  }

  /** Text built from the characters of plain-spaced text is plain-spaced. */
  lemma PlainSpacedKept(s: string, r: string)
    requires PlainSpaced(s)
    requires forall i :: 0 <= i < |r| ==> r[i] in s
    ensures PlainSpaced(r)
  {
  }

  // ---------------------------------------------------------------------------
  // Runs of a character class

  /** End of the whitespace run starting at `p` (greedy `\s*`). */
  function SpaceEnd(s: string, p: nat): (r: nat)
    requires p <= |s|
    ensures p <= r <= |s|
    ensures forall k :: p <= k < r ==> IsSpace(s[k])
    ensures r == |s| || !IsSpace(s[r])
    decreases |s| - p
  {
    if p < |s| && IsSpace(s[p]) then SpaceEnd(s, p + 1) else p
  }

  /** End of the digit run starting at `p` (greedy `\d*`). */
  function DigitEnd(s: string, p: nat): (r: nat)
    requires p <= |s|
    ensures p <= r <= |s|
    ensures forall k :: p <= k < r ==> IsDigit(s[k])
    ensures r == |s| || !IsDigit(s[r])
    decreases |s| - p
  {
    if p < |s| && IsDigit(s[p]) then DigitEnd(s, p + 1) else p
  }

  /** End of the run of characters outside `stops` starting at `p` (greedy `[^...]*`). */
  function RunEnd(s: string, p: nat, stops: set<char>): (r: nat)
    requires p <= |s|
    ensures p <= r <= |s|
    ensures forall k :: p <= k < r ==> s[k] !in stops
    ensures r == |s| || s[r] in stops
    decreases |s| - p
  {
    if p < |s| && s[p] !in stops then RunEnd(s, p + 1, stops) else p
  }

  // ---------------------------------------------------------------------------
  // Numbers

  /** `int(ds)` for a string of ASCII digits. */
  function DigitsValue(ds: string): (r: nat)
    decreases |ds|
  {
    if |ds| == 0 then 0
    else DigitsValue(ds[..|ds| - 1]) * 10 + DigitValue(ds[|ds| - 1])
  }

  function DigitValue(c: char): (r: nat)
    ensures r <= 9
  {
    if IsDigit(c) then c as int - '0' as int else 0
  }

  /** `str(n)` for a natural number. */
  function NatToString(n: nat): (r: string)
    ensures |r| >= 1
    ensures forall i :: 0 <= i < |r| ==> IsDigit(r[i])
  {
    if n < 10 then [DigitChar(n)] else NatToString(n / 10) + [DigitChar(n % 10)]
  }

  function DigitChar(d: nat): (c: char)
    requires d < 10
    ensures IsDigit(c)
  {
    ('0' as int + d) as char
  }

  lemma {:induction false} DigitsValueOfNatToString(n: nat)
    ensures DigitsValue(NatToString(n)) == n
  {
    if n >= 10 {
      var s := NatToString(n / 10);
      DigitsValueOfNatToString(n / 10);
      assert NatToString(n) == s + [DigitChar(n % 10)];
      assert (s + [DigitChar(n % 10)])[..|s|] == s;
    }
  }

  // ---------------------------------------------------------------------------
  // Duplicate removal (`list(set(xs))`)

  predicate NoDuplicates<T(==)>(xs: seq<T>) {
    forall i, j :: 0 <= i < j < |xs| ==> xs[i] != xs[j]
  }

  /** The distinct elements of `xs` in order of first occurrence.  Python's
      `list(set(xs))` yields the same elements in hash order; only the element
      set is relied on. */
  function Dedup(xs: seq<string>): (r: seq<string>)
    ensures NoDuplicates(r)
    ensures forall x :: x in r <==> x in xs
    ensures |r| <= |xs|
  {
    if |xs| == 0 then []
    else
      var rest := Dedup(xs[..|xs| - 1]);
      var x := xs[|xs| - 1];
      assert xs == xs[..|xs| - 1] + [x];
      if x in rest then rest else rest + [x]
  }

  /** Every element of `a + b` satisfies what all of `a` or what all of `b` does. */
  lemma ConcatEither<T>(a: seq<T>, b: seq<T>, p: T -> bool, q: T -> bool)
    requires forall x :: x in a ==> p(x)
    requires forall x :: x in b ==> q(x)
    ensures forall x :: x in a + b ==> p(x) || q(x)
  {
  }

  /** Elements of `a + b` below `|a|` satisfy what all of `a` does, the rest what
      all of `b` does. */
  lemma ConcatSplits<T>(a: seq<T>, b: seq<T>, p: T -> bool, q: T -> bool)
    requires forall x :: x in a ==> p(x)
    requires forall x :: x in b ==> q(x)
    ensures forall k :: 0 <= k < |a| ==> p((a + b)[k])
    ensures forall k :: |a| <= k < |a + b| ==> q((a + b)[k])
  {
    forall k | 0 <= k < |a|
      ensures p((a + b)[k])
    {
      assert a[k] in a;
    }
    forall k | |a| <= k < |a + b|
      ensures q((a + b)[k])
    {
      assert b[k - |a|] in b;
    }
  }
}

=== FILE: wrappers.dfy ===
/** Failure-compatible result types used for the places where the Python code
    catches an exception and substitutes a default value. */
module Wrappers {

  /** A value that may be absent: a missing dictionary key, `None` in Python. */
  datatype Option<+T> = None | Some(value: T) {

    /** The carried value, or `default` when absent (Python's `d.get(k, default)`). */
    function GetOr(default: T): T
    {
      match this
      case Some(v) => v
      case None => default
    }
  }

  /** Either a computed value or the message of the exception that interrupted it. */
  datatype Result<+T> = Success(value: T) | Failure(error: string) {

    predicate IsFailure() {
      Failure?
    }

    function PropagateFailure<U>(): Result<U>
      requires Failure?
    {
      Failure(error)
    }

    function Extract(): T
      requires Success?
    {
      value
    }
  }
}
